=== FILE: README.md ===
# mapgen, modelled in Dafny

mapgen is a browser tool that draws map images of the rooms in the
Elanthia map database ("MapDB"). The user picks the rooms by location or by
id ranges, then arranges the room groups the layout engine places. The map
set (SVG image, coordinates, configuration) is saved to a GitHub repository,
and can be reloaded from it later.

This project models the pure rules inside that tool as immutable datatypes
and total functions, and proves what those rules promise. Every source path
below is relative to the repository root.

- `MapDb` (`mapdb_loader.dfy`) covers js/mapdb-loader.js:
  - parsing room ranges;
  - the location list and the location filter;
  - the cache-age text and the seven-day cache check;
  - the cache-or-download choice of `loadMapDB`.
- `GitHub` (`github_integration.dfy`) covers js/github-integration.js:
  - the file-name scheme of a map set, and how a file name is classified;
  - the grouping that `listLocationMaps` performs;
  - the paths `saveMapSet` writes and `loadMapSet` reads;
  - the most-frequent-location slug;
  - the repository owner taken from the hostname, and the OAuth redirect URI.
- The editor rules of js/map-generator.js:
  - `CrossGroup`: cross-group connections;
  - `TagColors`: the tag-colour map;
  - `GroupOffsets`: clamped offset edits;
  - `CoordinateFile`: export and import of the coordinate file;
  - `MapConfig`: the saved configuration, and how it is restored;
  - `RoomSelection`: room selection with de-duplication and exclusion;
  - `CoordinateStorage`: expiry in the coordinate store;
  - `CoordinateExport`: the padded bounding boxes of the coordinate export.
- Supporting modules:
  - `Common`: Option and Result, plus sequence helpers (`Dedup` models a JS `Set`, `Filter` models `Array.prototype.filter`);
  - `JsText`: `parseInt`, `trim`, `split` and `join` in JavaScript's terms;
  - `OrderedMaps`: a JS `Map` as an association list kept in insertion order;
  - `StringOrder`: the default order of `Array.prototype.sort`;
  - `EditorState`: the editor's state as one record.

The JavaScript reads its inputs from the DOM, from `Date.now()`, from
IndexedDB, from `localStorage` and from the GitHub API. In the model these
are all parameters: the current time `now`, the stored record, the listing
response, the form fields and the option list of the location drop-down.
Where `loadMapDB` writes its IndexedDB record, or `saveCoordinates` and
`loadCoordinates` write the coordinate store, the model returns the new value. The other writes to browser storage are
left out; "## Left out" names them.

A JS number that the code uses as an integer (ids, sizes, offsets, times) is
modelled as an unbounded integer. NaN is `None`, and `Truthy` is "a number,
and not 0". The one place where fractions matter is the coordinate export:
there positions are exact reals, and `Math.round` rounds them halves up.

## Model

| member | source | states |
|---|---|---|
| MapDb.ParseRoomRanges | js/mapdb-loader.js:199-220 | The ids are free of duplicates and all ≥ 1. An id is in the result exactly when one of the comma-separated segments produces it. |
| MapDb.RangeSegment | js/mapdb-loader.js:204-210 | The segment `a-b` yields exactly the integers from a to b when both ends are non-zero. It yields none when either end is 0; when a > b the range is empty. |
| MapDb.DashSegment | js/mapdb-loader.js:204-210 | Any segment with a dash yields the range between its parsed ends when both are truthy. Otherwise it yields nothing. |
| MapDb.SingleSegment | js/mapdb-loader.js:211-216 | A segment without a dash yields its number when that number is not 0. The single id 0 adds nothing. |
| MapDb.ParseRoomRangesAppend | js/mapdb-loader.js:199-220 | Appending more segments keeps the earlier ids as a prefix, so the order of first insertion into the Set is preserved. |
| MapDb.SegmentIdListsConcat | js/mapdb-loader.js:201 | Segments are processed independently: the lists for `a,b` are the lists for `a` followed by those for `b`. |
| MapDb.ExtractLocations | js/mapdb-loader.js:183-191 | The result is strictly sorted in `sort()` order. It contains exactly the truthy `location` values of the rooms, and never the empty string. |
| MapDb.LocationValues | js/mapdb-loader.js:184-189 | Collects exactly the truthy locations. |
| MapDb.GetRoomsByLocation | js/mapdb-loader.js:194-196 | The result is the order-preserving subsequence of rooms whose location equals the argument. Each such room keeps its multiplicity; every other room occurs 0 times. |
| MapDb.FormatCacheAge | js/mapdb-loader.js:127-139 | An age under one hour gives "fresh". An age of a day or more gives the whole number of days, and hours in between give the whole number of hours. The plural "s" appears exactly when that number exceeds 1. |
| MapDb.AgeText | js/mapdb-loader.js:134-137 | The text parses back to the count. It ends in " day(s) old" or " hour(s) old", plural exactly when the count exceeds 1. |
| MapDb.CachedMapDb | js/mapdb-loader.js:83-89 | A stored record is returned unchanged exactly when its age is at most seven days (`CACHE_DURATION`, line 8). Otherwise the cache counts as missing. |
| MapDb.CachedEarlier | js/mapdb-loader.js:83-89 | A record that is valid now was valid at every earlier time. |
| MapDb.CachedAgeAtMostSevenDays | js/mapdb-loader.js:127-139 | The age text of a record the cache returns (lines 83-89) never exceeds "7 days old". |
| MapDb.LoadMapDb | js/mapdb-loader.js:141-180 | The cache is used exactly when no refresh is forced and the stored record is fresh. Otherwise the download is returned with version "v0.2.1" and cached with the current time as its timestamp. Either way the returned data and version are what the cache then holds. |
| MapDb.LoadTwice | js/mapdb-loader.js:141-180 | A second load without a forced refresh, within seven days of the timestamp of the record the first load left in the cache, is served from the cache with the first load's data and version. |
| GitHub.FileNameFor | js/github-integration.js:318-332 | A saved file's name starts with the map name and is longer than it. |
| GitHub.Classify | js/github-integration.js:270-285 | `.svg`, `_coords.json` and `_config.json` names split into the map name and that role; any other name is its own map name with role unknown. Rebuilding the file name from the pair gives the name back. |
| GitHub.ClassifyFileNameFor | js/github-integration.js:276-285 | Classifying the name `saveMapSet` gives a map file (lines 318, 325 and 332) returns the map name and role unchanged. |
| GitHub.SavedKinds | js/github-integration.js:316-335 | A role is written exactly when its content is truthy, and no role is written twice. |
| GitHub.SaveMapSet | js/github-integration.js:309-339 | One write per truthy content, in svg/coords/config order. Each write goes to `maps/<location>/` under the role's file name, with that role's commit message. |
| GitHub.LoadMapSet | js/github-integration.js:341-362 | Three reads, all in `maps/<location>/`; they classify back to (mapName, svg), (mapName, coords) and (mapName, config). |
| GitHub.LoadReadsSaved | js/github-integration.js:309-362 | Every path `saveMapSet` writes is one that `loadMapSet` reads. |
| GitHub.Entries | js/github-integration.js:270-272 | There are never more entries than listed items. When every item is a file, each item becomes an entry, in order. |
| GitHub.EntriesOfFiles | js/github-integration.js:270-272 | The entries are exactly the listing's items of type "file", each classified by name, in listing order. |
| GitHub.LastFileSpec | js/github-integration.js:295-300 | A role has a recorded file exactly when some listed file has that name and role. The recorded file is the last such file, because later writes overwrite earlier ones. |
| GitHub.GroupFilesKeys | js/github-integration.js:268-302 | The groups are keyed by the distinct map names of the files, in first-appearance order. |
| GitHub.GroupFilesGroups | js/github-integration.js:268-302 | Each name's group records, for each role, the last file of that name and role. Names not listed have no group. |
| GitHub.ListLocationMaps | js/github-integration.js:260-307 | A response that is not an array gives no maps. Otherwise one group per distinct name, in first-appearance order, keeping only groups that have an svg or a config file, all with the folder path. |
| GitHub.ListSavedMapSet | js/github-integration.js:260-339 | Listing a folder that holds exactly one saved map set gives that single map, which has each role exactly when its content was truthy. It gives nothing when neither svg nor config was saved. |
| GitHub.CountLocationsKeys | js/github-integration.js:369-373 | The counts are keyed by the distinct location keys in first-appearance order, as `Object.entries` lists them. |
| GitHub.CountLocationsCounts | js/github-integration.js:369-373 | Each key's count is its number of occurrences. |
| GitHub.PickPrimary | js/github-integration.js:375-384 | The pick has the largest count. Because the comparison is strict, it is the first entry with that count. With no positive count the pick is "custom". |
| GitHub.Slug | js/github-integration.js:385 | The length is kept and every character is in [a-z0-9_]. Digits and lower-case letters are kept, upper-case letters are lowered, and everything else becomes `_`. |
| GitHub.SlugIdempotent | js/github-integration.js:385 | Slugging a slug changes nothing. |
| GitHub.DetectLocationFromRooms | js/github-integration.js:365-386 | No rooms gives "custom". Otherwise the result is a slug. |
| GitHub.DetectLocationMostFrequent | js/github-integration.js:365-386 | For a non-empty room list, the result is the slug of a most frequent location key, and among equally frequent keys the first to appear. |
| GitHub.DetectRepoOwner | js/github-integration.js:17-31 | When the hostname contains "github.io", has at least three dot-parts and the second is "github", the owner is the first dot-part. In every other case it is "elanthia-online". |
| GitHub.OwnerOfPagesHost | js/github-integration.js:17-31 | The host `<user>.github.io` gives the owner `<user>`. |
| GitHub.GetRedirectUri | js/github-integration.js:33-36 | The URI is origin + path with one trailing `/` removed, followed by `/auth/callback`. |
| GitHub.RedirectIgnoresTrailingSlash | js/github-integration.js:33-36 | A path with one trailing slash gives the same URI as the path without it. |
| CrossGroup.AddCrossGroupConnection | js/map-generator.js:2067-2106 | The connection is rejected, with the source's message, when either id is 0 or NaN, when the two ids are equal, or when the unordered pair is already connected. Otherwise exactly one record (from, to, "dashed", "5,5", colour) is appended and the earlier records stay unchanged. |
| CrossGroup.AddPreservesWellFormed | js/map-generator.js:2067-2097 | Adding keeps the list free of self-loops and of repeated unordered pairs. |
| CrossGroup.AddTwiceRejected | js/map-generator.js:2081-2088 | Adding the same pair again, in either direction, is rejected as a duplicate. |
| TagColors.AddTagColor | js/map-generator.js:968-990 | An empty tag, or one that already has a colour, is rejected with its message. Otherwise the tag is appended with "#ff0000" and every other entry is unchanged. |
| TagColors.ChangeTagColor | js/map-generator.js:1014-1019 | The tag gets the new colour. No other tag changes, and an existing tag keeps its place. |
| TagColors.RemoveTagColor | js/map-generator.js:1021-1027 | The tag is gone, and no other tag changes its colour. The remaining tags keep their order: the result is a subsequence of the map before. |
| TagColors.AddTagColorTwice | js/map-generator.js:977-980 | Adding a tag a second time is rejected. |
| TagColors.AddThenRemove | js/map-generator.js:968-1027 | Removing a tag that was just added restores the map. |
| TagColors.RemoveThenAdd | js/map-generator.js:968-1027 | Any non-empty tag can be added after it is removed. |
| GroupOffsets.Clamp | js/map-generator.js:1864 | The value is clamped into [-limit, limit]. |
| GroupOffsets.InputValue | js/map-generator.js:1861 | `parseInt(text) \|\| 0` as a number. |
| GroupOffsets.EditOffset | js/map-generator.js:1856-1912 | The edit stores `parseInt(v) \|\| 0`, clamped, on the edited axis. A missing entry starts from (0,0); the other axis and every other group are unchanged. A new group is the only new key. |
| GroupOffsets.EditGroupOffset | js/map-generator.js:1856-1883 | A group-offset edit stays in [-100, 100]. |
| GroupOffsets.EditLabelOffset | js/map-generator.js:1886-1913 | A label-offset edit stays in [-50, 50]. |
| GroupOffsets.EditKeepsInBounds | js/map-generator.js:1864-1881 | When every stored offset is within the limit, an edit keeps it that way. |
| GroupOffsets.EditIdempotent | js/map-generator.js:1858-1882 | Repeating the same edit changes nothing. |
| GroupOffsets.EditAxesIndependent | js/map-generator.js:1871-1881 | Editing x and then y of a group stores both values. |
| EditorState.DefaultGroupName | js/map-generator.js:1944 | Group i is named "Group " followed by the decimal digits of i + 1. |
| CoordinateFile.ExportCoordinateFile | js/map-generator.js:1930-1977 | With no groups, the export fails with the source's message. Otherwise it records one group per index 0..n-1, in order. |
| CoordinateFile.ExportGroups | js/map-generator.js:1942-1951 | One record per group, its index in order. Each has a non-empty name: the stored one, or "Group i+1" when that is missing or empty. Each has an offset and a label offset: the stored one, or (0, 0). |
| CoordinateFile.MergeColors | js/map-generator.js:2034-2040 | A colour present in the file replaces the current one, and a missing one keeps it. |
| CoordinateFile.ImportConfig | js/map-generator.js:2017-2045 | The import never touches stroke width, connection width, fonts or the background settings. |
| CoordinateFile.ImportCoordinateFile | js/map-generator.js:1979-2065 | A file without a `groups` array is rejected with the source's message. Otherwise each of the three group maps holds exactly the indices in the file. For each index, the last file entry for it gives its offset and label offset, (0, 0) when missing, and its name, "Group i+1" when missing or empty. The connections and custom labels are replaced when present, and the configuration is kept when absent. The display, selection and output name are kept. |
| CoordinateFile.ImportedMaps | js/map-generator.js:1999-2007 | The rebuilt maps hold exactly the file's indices, each with the values of its last entry and the defaults above. |
| OrderedMaps.FromEntriesLastWins | js/map-generator.js:2003-2007 | When several `set` calls use one key, the map keeps the value of the last. |
| CoordinateFile.ImportedOffsetsOfExport | js/map-generator.js:1945 | The imported offsets are keyed 0..n-1, each the stored offset or (0,0). |
| CoordinateFile.ImportedNamesOfExport | js/map-generator.js:1944 | The imported names are keyed 0..n-1, each the stored name or "Group i+1". |
| CoordinateFile.ImportedLabelOffsetsOfExport | js/map-generator.js:1946 | The imported label offsets are keyed 0..n-1, each the stored one or (0,0). |
| CoordinateFile.ImportExportedConfig | js/map-generator.js:1954-1963 | The round trip restores the colours and the tag colours. Edge length, shape and size come back when non-zero or non-empty (lines 2017-2045), and stroke width, connection width and fonts stay as they were. |
| CoordinateFile.ExportThenImport | js/map-generator.js:1930-2065 | Exporting n > 0 groups and importing the file succeeds. Every index i < n gets the stored offset or (0,0), the stored name or "Group i+1", and the stored label offset or (0,0), and indices ≥ n vanish. The connections and custom labels come back. |
| MapConfig.RestoreSelection | js/map-generator.js:737-771 | Under the location method, an option is selected exactly when the file lists it. Fields the file's method does not use are kept, and so are the exclusion fields when the file has no exclusion. |
| MapConfig.SelectedOptions | js/map-generator.js:750-753 | An option is selected exactly when it is offered and listed, in option order. |
| MapConfig.RestoreDisplay | js/map-generator.js:828-835 | Room ids, labels and connections are shown unless the file says `false`. Room names and group labels are shown only when it says `true`. |
| MapConfig.RestoreMapConfig | js/map-generator.js:735-907 | A file without a selection, display, connection or custom-label section leaves that part of the editor unchanged. Each group map is kept when the file has no `groupPositioning` or no list for that map. The output name is kept unless the metadata holds a non-empty name, which then replaces it. The configuration is kept when the file has no appearance, colours, fonts or background section. Restored group offsets form a valid map. |
| MapConfig.SaveThenRestore | js/map-generator.js:461-534 | Restoring a saved configuration (lines 735-907) reproduces the editor, including the insertion order of the group maps and tag colours. Only what the file does not record is kept from the editor it is restored into. |
| MapConfig.SelectionRoundTrip | js/map-generator.js:463-483 | Saving and restoring the selection (lines 737-771) gives it back, apart from the fields the chosen method does not record. |
| MapConfig.MethodRoundTrip | js/map-generator.js:469-476 | The location choice, or the range text and id type, come back under their method (lines 747-761). |
| MapConfig.LocationsRoundTrip | js/map-generator.js:469-472 | The selected locations come back under the location method (lines 747-752). |
| MapConfig.RangeRoundTrip | js/map-generator.js:473-476 | Under the custom method, non-empty trimmed range text and the id type come back (lines 753-761). |
| MapConfig.ExclusionRoundTrip | js/map-generator.js:479-483 | Non-empty trimmed exclusion text and its id type come back; otherwise the restoring editor's fields remain (lines 763-770). |
| MapConfig.ExclusionNotCleared | js/map-generator.js:763-770 | Restoring a file saved without exclusions does not clear the exclusion text already in the form. |
| MapConfig.ConfigRoundTrip | js/map-generator.js:495-523 | Appearance, colours, tag colours, fonts and background come back exactly (lines 773-874), given non-zero and non-empty values. The one exception: when no background image was saved, the restoring editor keeps its own. |
| MapConfig.MissingDisplayDefaults | js/map-generator.js:828-835 | A file without display flags shows ids, labels and connections, and hides names and group labels. |
| RoomSelection.GetSelectedRooms | js/map-generator.js:1393-1465 | No selected location, or empty trimmed range text, is an error with the source's message. Every selected room is from the map database and not excluded. |
| RoomSelection.SelectedByRange | js/map-generator.js:1421-1441 | A room is selected exactly when it is in the database, matches a parsed id (or one of its uids), and is not excluded. |
| RoomSelection.SelectedByLocation | js/map-generator.js:1397-1419 | The rooms come from the chosen locations, with no repeated ids. For each id, the first room of the merged list is kept unless excluded, and every selected room is the first of the merged list with its id. |
| RoomSelection.DedupById | js/map-generator.js:1411-1419 | The ids are the distinct ids in first-appearance order, and each kept room is the first room with its id. |
| RoomSelection.FirstRoomKept | js/map-generator.js:1411-1419 | The first room with each id survives de-duplication. |
| RoomSelection.SelectByRanges | js/map-generator.js:1430-1441 | An order-preserving filter that keeps exactly the rooms whose id, or one of whose uids, is listed, each with its multiplicity. |
| RoomSelection.ApplyExclusion | js/map-generator.js:1444-1462 | An order-preserving filter that removes exactly the excluded rooms and keeps the others' multiplicity. Under uid exclusion, rooms without uids are kept. |
| RoomSelection.RoomsOfLocations | js/map-generator.js:1406-1409 | Exactly the rooms whose location is one of those chosen. Each room occurs as often as it does in the database times the number of times its location is chosen. |
| RoomSelection.RoomsOfOneLocation | js/map-generator.js:1406-1409 | One chosen location gives that location's rooms in database order. |
| RoomSelection.RoomsOfLocationsAppend | js/map-generator.js:1406-1409 | The list is built location after location: the rooms for `a + b` are those for `a` followed by those for `b`. With `RoomsOfOneLocation`, this fixes the order as each location's rooms, in the order the locations are chosen. |
| CoordinateStorage.LoadCoordinates | js/map-generator.js:2628-2650 | The data is returned exactly when the entry exists, its version matches and it is less than 30 days old. Otherwise an existing entry is deleted and the rest of the store is unchanged. |
| CoordinateStorage.SaveCoordinates | js/map-generator.js:2610-2626 | The new entry is stored with the current time. Every other map id stays exactly when it was stored and is at most thirty days old, and what stays is unchanged. |
| CoordinateStorage.CleanOldEntries | js/map-generator.js:2662-2674 | Exactly the entries older than 30 days are removed. The rest keep their values and order. |
| CoordinateStorage.SaveThenLoad | js/map-generator.js:2610-2650 | Loading within 30 days of saving returns the saved data and leaves the store unchanged. |
| CoordinateStorage.LoadOtherVersion | js/map-generator.js:2637-2644 | Loading with another version returns nothing and deletes the entry. |
| CoordinateStorage.BoundaryAge | js/map-generator.js:2607 | An entry exactly 30 days old survives cleaning (lines 2662-2674) but is rejected and deleted by load (lines 2628-2644). |
| CoordinateStorage.CleanIdempotent | js/map-generator.js:2662-2674 | Cleaning twice at the same time is cleaning once. |
| CoordinateExport.Round | js/map-generator.js:2471-2474 | `Math.round` gives the integer within half a unit, rounding halves up. |
| CoordinateExport.BoxOf | js/map-generator.js:2446-2475 | Circle, square and rectangle get a box whose left ≤ right and top ≤ bottom. Any other shape leaves the box undefined. Each edge is the room centre moved by the room size (one and a half times that sideways for a rectangle), rounded to the nearest pixel. The box's midpoint lies within half a pixel of the centre. |
| CoordinateExport.ExportCoordinates | js/map-generator.js:2398-2486 | Without positions there are no records. |
| CoordinateExport.ExportEntries | js/map-generator.js:2437-2478 | One record per selected room that has a position, in selection order. Each names the output image and has a box exactly for a known shape. |
| CoordinateExport.RecordsSpec | js/map-generator.js:2439-2477 | Each record's box is the room's padded box. |
| CoordinateExport.SquareBoxSize | js/map-generator.js:2448-2457 | Circle and square boxes are 2·roomSize wide and high. |
| CoordinateExport.RectangleBoxSize | js/map-generator.js:2458-2465 | Rectangle boxes are 2·roomSize high and 3·roomSize wide, up to rounding. |
| CoordinateExport.PaddedLeft | js/map-generator.js:2430-2443 | After padding by 2, the left-most room has pixel x = 2·edgeLength, and no room lies left of it. |
| CoordinateExport.PaddedTop | js/map-generator.js:2430-2443 | After padding by 2, the top-most room has pixel y = 2·edgeLength, and no room lies above it. |
| CoordinateExport.ExportTranslationInvariant | js/map-generator.js:2430-2476 | Shifting every position by the same amount does not change the export. |

## Left out

- The layout and rendering engine (`MapGenerator`) is not part of this model: its source is not among the files modelled. Only its outputs appear here, as positions passed in.
- DOM and UI code is left out: templates, event wiring, modals, previews, downloads, `alert`. Where a form field is read, the model takes its value as a parameter.
- The network and authentication are left out: `apiCall`/`fetch`, the OAuth flow, tokens, base64, and the `Promise.all` concurrency of `saveMapSet` and `loadMapSet`. `saveMapSet` and `loadMapSet` are modelled as the lists of writes and reads they issue.
- IndexedDB and `localStorage` are left out: the stored values are parameters and results. `Date.now()` becomes `now`, and `Math.random` and ISO timestamps are left out.
- JSON text is left out: files are modelled as parsed values, with a missing field as `None`. `null` and non-array values inside the documents are not modelled. Of the `groups` check (js/map-generator.js:1994), only a missing `groups` is modelled; a `groups` that is present but not an array cannot be written in the model.
- `sha` and `size` of listed files are left out, because no rule reads them.
- Theme presets, adding and editing custom labels, and the per-group room positions in the coordinate file are left out: they are data tables or UI, and no rule reads them back.
- The `Math.min(...)` argument-count limit of the coordinate export is left out.
- The selection method is assumed to be "location" or "custom", the values the radio buttons offer.
- `generateConfigForSave` (`MapConfig.GenerateConfigForSave`) carries no contract of its own: its meaning is stated by the round-trip lemmas `MapConfig.SaveThenRestore`, `MapConfig.SelectionRoundTrip` and `MapConfig.ConfigRoundTrip`.
- MapDb.ParseRoomRanges: numbers are unbounded integers, not doubles. A range end above 2^53 makes the source's `i++` loop stall forever, and precision is lost above that size; neither is modelled.
- JsText.ParseInt: returns an exact integer, whereas `parseInt` returns a double, which loses precision beyond 2^53.
- GitHub.Slug: models ASCII lower-casing only. `toLowerCase` differs for the Kelvin sign U+212A (it becomes `k`) and for `İ` (it becomes two characters). A character outside the Basic Multilingual Plane gives two `_` in the source, because the regular expression has no `u` flag.
- StringOrder.Less: compares code points; `sort()` compares UTF-16 code units. The two orders differ only for characters outside the Basic Multilingual Plane.
- GitHub.DetectLocationFromRooms: counts in an association list, not a plain object. The object differs for keys such as `constructor` and `__proto__`, which hit inherited properties. It also differs for integer-like keys, which `Object.entries` lists first in numeric order.
- CoordinateFile.ImportCoordinateFile: the source ends by calling `saveCurrentCoordinates` (js/map-generator.js:2048), which writes the new group maps to the coordinate store; the model returns only the editor, and `CoordinateStorage.SaveCoordinates` models that write on its own.
- MapConfig.RestoreMapConfig: the source ends by calling `saveCurrentCoordinates` (js/map-generator.js:899); as for the import, the storage write is not part of the result.
- CoordinateExport.ExportCoordinates: positions are exact reals, whereas the source computes them in IEEE doubles. Near a .5 boundary a double's rounding error can move `Math.round` by one pixel, so `CoordinateExport.ExportTranslationInvariant`, `CoordinateExport.PaddedLeft` and `CoordinateExport.PaddedTop` hold exactly only in the model.
- CoordinateFile.ImportCoordinateFile: a `null` entry in `groups` makes the source throw after the three maps were already cleared (js/map-generator.js:1999-2007); the model treats every entry as an object.
- MapDb.LoadMapDb: takes the downloaded rooms as a parameter. A failing download, which the source rethrows (js/mapdb-loader.js:165, 176-178), is not modelled.

=== FILE: common.dfy ===
/** Failure-compatible wrappers and the sequence vocabulary shared by every
    other module: JavaScript `Set` insertion order, `Array.prototype.filter`,
    flattening and integer ranges. */
module Common {

  /** `null`/`undefined`/`NaN` on one side, a present value on the other. */
  datatype Option<+T> = None | Some(value: T) {
    function GetOr(default: T): T {
      match this
      case Some(v) => v
      case None => default
    }
  }

  /** A value, or the message the application shows instead (an `alert` or a thrown `Error`). */
  datatype Result<+T> = Ok(value: T) | Err(message: string)

  predicate NoDuplicates<T(==)>(s: seq<T>) {
    forall i, j :: 0 <= i < j < |s| ==> s[i] != s[j]
  }

  /** Index of the first occurrence of `x` in `s`. */
  function FirstIndex<T(==)>(s: seq<T>, x: T): (k: nat)
    requires x in s
    ensures k < |s| && s[k] == x
    ensures forall i :: 0 <= i < k ==> s[i] != x
  {
    if s[0] == x then 0 else 1 + FirstIndex(s[1..], x)
  }

  /** The contents of a JavaScript `Set` after adding the elements of `xs`
      in order, listed in iteration (first-insertion) order. */
  function Dedup<T(==,!new)>(xs: seq<T>): (r: seq<T>)
    ensures NoDuplicates(r)
    ensures forall x :: x in r <==> x in xs
    decreases |xs|
  {
    if xs == [] then []
    else
      var d := Dedup(xs[..|xs| - 1]);
      var last := xs[|xs| - 1];
      if last in d then d else d + [last]
  }

  /** The elements of `Dedup(xs)` are listed in the order of their first
      occurrence in `xs`. */
  lemma {:induction false} DedupFirstOrder<T(!new)>(xs: seq<T>)
    ensures forall i, j :: 0 <= i < j < |Dedup(xs)| ==> FirstIndex(xs, Dedup(xs)[i]) < FirstIndex(xs, Dedup(xs)[j])
    decreases |xs|
  {
    if xs != [] {
      var init := xs[..|xs| - 1];
      var last := xs[|xs| - 1];
      SplitLast(xs);
      var d := Dedup(init);
      DedupFirstOrder(init);
      assert forall x :: x in init ==> FirstIndex(xs, x) == FirstIndex(init, x) by {
        forall x | x in init ensures FirstIndex(xs, x) == FirstIndex(init, x) {
          FirstIndexOfPrefix(init, [last], x);
        }
      }
      if last !in d {
        assert FirstIndex(xs, last) == |init| by { FirstIndexOfPrefix(init, [last], last); }
      }
    }
  }

  /** A non-empty list of one repeated value deduplicates to that value alone. */
  lemma {:induction false} DedupConstant<T(!new)>(xs: seq<T>, x: T)
    requires xs != [] && forall y :: y in xs ==> y == x
    ensures Dedup(xs) == [x]
    decreases |xs|
  {
    var init, last := xs[..|xs| - 1], xs[|xs| - 1];
    assert last in xs;
    if init != [] {
      forall y | y in init ensures y == x {
        var j :| 0 <= j < |init| && init[j] == y;
        assert xs[j] == y && xs[j] in xs;
      }
      DedupConstant(init, x);
    }
  }

  /** `DedupFirstOrder` for one pair of positions. */
  lemma DedupOrderAt<T(!new)>(xs: seq<T>, i: nat, j: nat)
    requires i < j < |Dedup(xs)|
    ensures FirstIndex(xs, Dedup(xs)[i]) < FirstIndex(xs, Dedup(xs)[j])
  {
    DedupFirstOrder(xs);
  }

  lemma {:induction false} FirstIndexOfPrefix<T>(a: seq<T>, b: seq<T>, x: T)
    ensures x in a ==> FirstIndex(a + b, x) == FirstIndex(a, x)
    ensures x !in a && x in b ==> FirstIndex(a + b, x) == |a| + FirstIndex(b, x)
    decreases |a|
  {
    if a != [] {
      assert (a + b)[1..] == a[1..] + b;
      if a[0] != x {
        FirstIndexOfPrefix(a[1..], b, x);
      }
    } else {
      assert a + b == b;
    }
  }

  /** Adding more elements to a `Set` never reorders what is already there:
      the deduplication of a prefix is a prefix of the deduplication. */
  lemma {:induction false} DedupPrefix<T(!new)>(xs: seq<T>, ys: seq<T>)
    ensures Dedup(xs) <= Dedup(xs + ys)
    decreases |ys|
  {
    if ys == [] {
      assert xs + ys == xs;
    } else {
      var init := ys[..|ys| - 1];
      DedupPrefix(xs, init);
      assert (xs + ys)[..|xs + ys| - 1] == xs + init;
    }
  }

  /** `Array.prototype.filter`: the elements of `s` that satisfy `keep`, in order. */
  function Filter<T(==,!new)>(keep: T -> bool, s: seq<T>): (r: seq<T>)
    ensures |r| <= |s|
    ensures forall x :: x in r <==> x in s && keep(x)
    ensures IsSubsequence(r, s)
  {
    if s == [] then []
    else
      var r := Filter(keep, s[1..]);
      if keep(s[0]) then [s[0]] + r
      else
        SubsequenceOfTail(r, s);
        r
  }

  /** Filtering keeps every copy of a passing element and none of the others. */
  lemma {:induction false} FilterCount<T(!new)>(keep: T -> bool, s: seq<T>)
    ensures forall x :: multiset(Filter(keep, s))[x] == if keep(x) then multiset(s)[x] else 0
    decreases |s|
  {
    if s != [] {
      var r := Filter(keep, s[1..]);
      FilterCount(keep, s[1..]);
      assert multiset(s) == multiset{s[0]} + multiset(s[1..]) by {
        assert s == [s[0]] + s[1..];
      }
      if keep(s[0]) {
        assert multiset([s[0]] + r) == multiset{s[0]} + multiset(r);
      }
    }
  }

  /** Filtering a list with one more element at the end adds that element
      at the end when it passes. */
  lemma {:induction false} FilterAppend<T(!new)>(keep: T -> bool, s: seq<T>, x: T)
    ensures Filter(keep, s + [x]) == Filter(keep, s) + (if keep(x) then [x] else [])
    decreases |s|
  {
    if s != [] {
      assert (s + [x])[1..] == s[1..] + [x];
      FilterAppend(keep, s[1..], x);
    }
  }

  /** Filtering keeps everything when every element passes. */
  lemma {:induction false} FilterAll<T(!new)>(keep: T -> bool, s: seq<T>)
    requires forall i :: 0 <= i < |s| ==> keep(s[i])
    ensures Filter(keep, s) == s
    decreases |s|
  {
    if s != [] {
      FilterAll(keep, s[1..]);
      assert s == [s[0]] + s[1..];
    }
  }

  /** `ys` is `xs.map(f)`: `f` applied to each element, in order. */
  predicate Mapped<A, B(==)>(f: A -> B, ys: seq<B>, xs: seq<A>) {
    |ys| == |xs| && forall i :: 0 <= i < |ys| ==> ys[i] == f(xs[i])
  }

  /** Mapping what a filter keeps from a list with one more element: the
      element's image is added at the end when the element passes. */
  lemma MappedFilterAppend<A(!new), B>(keep: A -> bool, f: A -> B, ys: seq<B>, xs: seq<A>, x: A)
    requires Mapped(f, ys, Filter(keep, xs))
    ensures Mapped(f, if keep(x) then ys + [f(x)] else ys, Filter(keep, xs + [x]))
  {
    FilterAppend(keep, xs, x);
  }

  /** Filtering keeps nothing when no element passes. */
  lemma FilterNone<T(!new)>(keep: T -> bool, s: seq<T>)
    requires forall x :: x in s ==> !keep(x)
    ensures Filter(keep, s) == []
  {
  }

  lemma {:induction false} SubsequenceOfTail<T>(a: seq<T>, b: seq<T>)
    requires b != [] && IsSubsequence(a, b[1..])
    ensures IsSubsequence(a, b)
    decreases |b|, 0
  {
    if a != [] && a[0] == b[0] {
      SubsequenceDropHead(a, b[1..]);
    }
  }

  lemma {:induction false} SubsequenceDropHead<T>(a: seq<T>, c: seq<T>)
    requires a != [] && IsSubsequence(a, c)
    ensures IsSubsequence(a[1..], c)
    decreases |c|, 1
  {
    if a[0] == c[0] {
      SubsequenceOfTail(a[1..], c);
    } else {
      SubsequenceDropHead(a, c[1..]);
      SubsequenceOfTail(a[1..], c);
    }
  }

  /** `a` can be obtained from `b` by deleting elements, keeping the order of the rest. */
  predicate IsSubsequence<T(==)>(a: seq<T>, b: seq<T>)
    decreases |b|
  {
    if a == [] then true
    else if b == [] then false
    else if a[0] == b[0] then IsSubsequence(a[1..], b[1..])
    else IsSubsequence(a, b[1..])
  }

  lemma {:induction false} SubsequenceRefl<T>(s: seq<T>)
    ensures IsSubsequence(s, s)
  {
    if s != [] {
      SubsequenceRefl(s[1..]);
    }
  }

  /** Every element of a subsequence occurs in the whole. */
  lemma {:induction false} SubsequenceMember<T>(a: seq<T>, b: seq<T>, k: nat)
    requires IsSubsequence(a, b) && k < |a|
    ensures a[k] in b
    decreases |b|
  {
    if a[0] == b[0] {
      if k > 0 {
        SubsequenceMember(a[1..], b[1..], k - 1);
      }
    } else {
      SubsequenceMember(a, b[1..], k);
    }
  }

  /** A non-empty sequence is its front followed by its last element. */
  lemma SplitLast<T>(s: seq<T>)
    requires s != []
    ensures s == s[..|s| - 1] + [s[|s| - 1]]
  {
  }

  /** Prepending an element and appending a sequence can happen in either order. */
  lemma ConsAppend<T>(x: T, p: seq<T>, q: seq<T>)
    ensures [x] + (p + q) == ([x] + p) + q
  {
  }

  /** Concatenation of a sequence of sequences. */
  function Flatten<T(!new)>(ss: seq<seq<T>>): (r: seq<T>)
    ensures forall x :: x in r <==> exists k :: 0 <= k < |ss| && x in ss[k]
  {
    if ss == [] then []
    else
      var rest := Flatten(ss[1..]);
      assert forall x :: x in rest <==> exists k :: 1 <= k < |ss| && x in ss[k] by {
        forall x ensures x in rest <==> exists k :: 1 <= k < |ss| && x in ss[k] {
          if x in rest {
            var k :| 0 <= k < |ss[1..]| && x in ss[1..][k];
            assert x in ss[k + 1];
          }
          if exists k :: 1 <= k < |ss| && x in ss[k] {
            var k :| 1 <= k < |ss| && x in ss[k];
            assert x in ss[1..][k - 1];
          }
        }
      }
      ss[0] + rest
  }

  /** Flattening distributes over concatenation. */
  lemma {:induction false} FlattenConcat<T(!new)>(xs: seq<seq<T>>, ys: seq<seq<T>>)
    ensures Flatten(xs + ys) == Flatten(xs) + Flatten(ys)
    decreases |xs|
  {
    if xs != [] {
      assert (xs + ys)[1..] == xs[1..] + ys;
      FlattenConcat(xs[1..], ys);
    } else {
      assert xs + ys == ys;
    }
  }

  /** The integers `lo, lo + 1, ..., hi` of a counting `for` loop; empty when `lo > hi`. */
  function Range(lo: int, hi: int): (r: seq<int>)
    ensures forall x :: x in r <==> lo <= x <= hi
    ensures |r| == if lo <= hi then hi - lo + 1 else 0
    ensures forall i :: 0 <= i < |r| ==> r[i] == lo + i
    decreases hi - lo
  {
    if lo > hi then [] else [lo] + Range(lo + 1, hi)
  }
}

=== FILE: coordinate_export.dfy ===
/** The image-coordinate export of js/map-generator.js (`exportCoordinates`):
    from the laid-out room positions (grid units, produced by the layout
    engine) to one pixel bounding box per room, as the map database's
    `image_coords` field expects. Positions are reals; `Math.round` is
    `Round`. */
module CoordinateExport {
  import opened Common
  import opened OrderedMaps

  datatype Point = Point(x: real, y: real)

  /** `[left, top, right, bottom]` after rounding. */
  datatype Box = Box(left: int, top: int, right: int, bottom: int)

  /** One exported entry. `box` is `None` when the room shape is none of the
      three known ones: the four values then stay undefined and round to NaN. */
  datatype CoordRecord = CoordRecord(id: int, image: string, box: Option<Box>)

  /** Grid units of empty margin left of and above the leftmost and topmost room. */
  const Padding: real := 2.0

  /** `Math.round`: halves round up, towards positive infinity. */
  function Round(v: real): (n: int)
    ensures n as real - 0.5 <= v < n as real + 0.5
  {
    (v + 0.5).Floor
  }

  /** `Math.min(...)` over the x (or y) values of a non-empty position map. */
  function MinX(positions: OrderedMap<int, Point>): (m: real)
    requires positions != []
    ensures forall i :: 0 <= i < |positions| ==> m <= positions[i].1.x
    ensures exists i :: 0 <= i < |positions| && m == positions[i].1.x
  {
    if |positions| == 1 then positions[0].1.x
    else
      var rest := MinX(positions[1..]);
      if positions[0].1.x <= rest then positions[0].1.x else rest
  }

  function MinY(positions: OrderedMap<int, Point>): (m: real)
    requires positions != []
    ensures forall i :: 0 <= i < |positions| ==> m <= positions[i].1.y
    ensures exists i :: 0 <= i < |positions| && m == positions[i].1.y
  {
    if |positions| == 1 then positions[0].1.y
    else
      var rest := MinY(positions[1..]);
      if positions[0].1.y <= rest then positions[0].1.y else rest
  }

  /** `n` is `v` rounded to the nearest integer, halves up. */
  predicate RoundsTo(v: real, n: int) {
    n as real - 0.5 <= v < n as real + 0.5
  }

  /** The pixel box of a room centred at (`x`, `y`): squares and circles reach
      `roomSize` pixels each way, rectangles half as far again sideways. */
  function BoxOf(x: real, y: real, roomSize: int, shape: string): (b: Option<Box>)
    ensures b.Some? <==> shape in {"circle", "square", "rectangle"}
    ensures b.Some? && roomSize >= 0 ==> b.value.left <= b.value.right && b.value.top <= b.value.bottom
    ensures b.Some? ==>
              var across := if shape == "rectangle" then 1.5 * roomSize as real else roomSize as real;
              && RoundsTo(x - across, b.value.left) && RoundsTo(x + across, b.value.right)
              && RoundsTo(y - roomSize as real, b.value.top) && RoundsTo(y + roomSize as real, b.value.bottom)
    ensures b.Some? ==> x - 0.5 < (b.value.left + b.value.right) as real / 2.0 <= x + 0.5
    ensures b.Some? ==> y - 0.5 < (b.value.top + b.value.bottom) as real / 2.0 <= y + 0.5
  {
    var half := roomSize as real;
    if shape == "circle" || shape == "square" then
      Some(Box(Round(x - half), Round(y - half), Round(x + half), Round(y + half)))
    else if shape == "rectangle" then
      var width := half * 1.5;
      Some(Box(Round(x - width), Round(y - half), Round(x + width), Round(y + half)))
    else None
  }

  /** Where a room's centre lands in pixels, on one axis: its position
      moved by `offset` grid units and scaled by `edgeLength`. */
  function Pixel(position: real, offset: real, edgeLength: int): real {
    (position + offset) * edgeLength as real
  }

  /** The box of a room at grid position `p`. */
  function RoomBox(p: Point, offsetX: real, offsetY: real, edgeLength: int, roomSize: int, shape: string): Option<Box> {
    BoxOf(Pixel(p.x, offsetX, edgeLength), Pixel(p.y, offsetY, edgeLength), roomSize, shape)
  }

  /** The listed rooms that have a position, in list order. */
  function Placed(roomIds: seq<int>, positions: OrderedMap<int, Point>): (ids: seq<int>)
    ensures forall id :: id in ids <==> id in roomIds && Has(positions, id)
  {
    if roomIds == [] then []
    else
      var rest := Placed(roomIds[1..], positions);
      assert forall id :: id in roomIds <==> id == roomIds[0] || id in roomIds[1..];
      if Has(positions, roomIds[0]) then [roomIds[0]] + rest else rest
  }

  /** The entries for `roomIds`, skipping rooms without a position. */
  function Records(roomIds: seq<int>, positions: OrderedMap<int, Point>, offsetX: real, offsetY: real,
                   edgeLength: int, roomSize: int, shape: string, image: string): seq<CoordRecord>
  {
    if roomIds == [] then []
    else
      var rest := Records(roomIds[1..], positions, offsetX, offsetY, edgeLength, roomSize, shape, image);
      match Get(positions, roomIds[0])
      case None => rest
      case Some(p) =>
        [CoordRecord(roomIds[0], image, RoomBox(p, offsetX, offsetY, edgeLength, roomSize, shape))] + rest
  }

  /** One entry per placed room, in list order, each with the box of its
      position and the image name. */
  lemma {:induction false} RecordsSpec(roomIds: seq<int>, positions: OrderedMap<int, Point>, offsetX: real, offsetY: real,
                                       edgeLength: int, roomSize: int, shape: string, image: string)
    ensures var r := Records(roomIds, positions, offsetX, offsetY, edgeLength, roomSize, shape, image);
            && |r| == |Placed(roomIds, positions)|
            && (forall k :: 0 <= k < |r| ==> r[k].id == Placed(roomIds, positions)[k])
            && (forall k :: 0 <= k < |r| ==> Has(positions, r[k].id) && r[k].image == image)
            && (forall k :: 0 <= k < |r| ==>
                  r[k].box == RoomBox(Get(positions, r[k].id).value, offsetX, offsetY, edgeLength, roomSize, shape))
  {
    if roomIds != [] {
      var rest := Records(roomIds[1..], positions, offsetX, offsetY, edgeLength, roomSize, shape, image);
      var placed := Placed(roomIds[1..], positions);
      RecordsSpec(roomIds[1..], positions, offsetX, offsetY, edgeLength, roomSize, shape, image);
      var id := roomIds[0];
      var r := Records(roomIds, positions, offsetX, offsetY, edgeLength, roomSize, shape, image);
      if Has(positions, id) {
        var p := Get(positions, id).value;
        var head := CoordRecord(id, image, RoomBox(p, offsetX, offsetY, edgeLength, roomSize, shape));
        assert r == [head] + rest;
        assert Placed(roomIds, positions) == [id] + placed;
        forall k | 0 <= k < |r|
          ensures r[k].id == Placed(roomIds, positions)[k] && Has(positions, r[k].id) && r[k].image == image
          ensures r[k].box == RoomBox(Get(positions, r[k].id).value, offsetX, offsetY, edgeLength, roomSize, shape)
        {
          if k > 0 {
            assert r[k] == rest[k - 1];
          }
        }
      } else {
        assert r == rest;
        assert Placed(roomIds, positions) == placed;
      }
    }
  }

  /** The grid shift that leaves `Padding` units left of the leftmost room. */
  function OffsetX(positions: OrderedMap<int, Point>): real
    requires positions != []
  {
    -MinX(positions) + Padding
  }

  /** The grid shift that leaves `Padding` units above the topmost room. */
  function OffsetY(positions: OrderedMap<int, Point>): real
    requires positions != []
  {
    -MinY(positions) + Padding
  }

  /** `exportCoordinates` after the layout: the whole drawing is moved so that
      the leftmost and topmost rooms sit `Padding` grid units in, then each
      listed room with a position gets its box. */
  function ExportCoordinates(roomIds: seq<int>, positions: OrderedMap<int, Point>, edgeLength: int, roomSize: int,
                             shape: string, outputName: string): (r: seq<CoordRecord>)
    ensures positions == [] ==> r == []
  {
    if positions == [] then []
    else
      Records(roomIds, positions, OffsetX(positions), OffsetY(positions), edgeLength, roomSize, shape, outputName + ".png")
  }

  /** What the export lists: one entry per listed room that has a position,
      in list order, all naming the image `<output name>.png`, with a box
      exactly when the room shape is one of the three known ones. */
  lemma ExportEntries(roomIds: seq<int>, positions: OrderedMap<int, Point>, edgeLength: int, roomSize: int,
                      shape: string, outputName: string)
    ensures var r := ExportCoordinates(roomIds, positions, edgeLength, roomSize, shape, outputName);
            && |r| == |Placed(roomIds, positions)|
            && (forall k :: 0 <= k < |r| ==> r[k].id == Placed(roomIds, positions)[k])
            && (forall k :: 0 <= k < |r| ==> r[k].image == outputName + ".png")
            && (forall k :: 0 <= k < |r| ==> (r[k].box.Some? <==> shape in {"circle", "square", "rectangle"}))
  {
    if positions == [] {
      FilterNone((id: int) => Has(positions, id), roomIds);
    } else {
      RecordsSpec(roomIds, positions, OffsetX(positions), OffsetY(positions), edgeLength, roomSize, shape, outputName + ".png");
    }
  }

  /** `Math.round` commutes with shifting by a whole number. */
  lemma RoundShift(v: real, n: int)
    ensures Round(v + n as real) == Round(v) + n
  {
  }

  /** Squares and circles are exported exactly `2 * roomSize` pixels wide and
      high, wherever their centre falls. */
  lemma SquareBoxSize(x: real, y: real, roomSize: int, shape: string)
    requires shape == "square" || shape == "circle"
    ensures var b := BoxOf(x, y, roomSize, shape).value;
            b.right - b.left == 2 * roomSize && b.bottom - b.top == 2 * roomSize
  {
    var half := roomSize as real;
    RoundShift(x - half, 2 * roomSize);
    RoundShift(y - half, 2 * roomSize);
    assert x + half == (x - half) + (2 * roomSize) as real;
    assert y + half == (y - half) + (2 * roomSize) as real;
  }

  /** Rectangles are `2 * roomSize` high and, up to rounding, `3 * roomSize`
      wide. */
  lemma RectangleBoxSize(x: real, y: real, roomSize: int)
    ensures var b := BoxOf(x, y, roomSize, "rectangle").value;
            b.bottom - b.top == 2 * roomSize && 3 * roomSize - 1 <= b.right - b.left <= 3 * roomSize + 1
  {
    var half := roomSize as real;
    RoundShift(y - half, 2 * roomSize);
    assert y + half == (y - half) + (2 * roomSize) as real;
  }

  /** After the padding shift the leftmost room's centre lies exactly
      `Padding` edges from the left border and no room lies further left. */
  lemma PaddedLeft(positions: OrderedMap<int, Point>, edgeLength: int)
    requires positions != [] && edgeLength >= 0
    ensures exists i :: 0 <= i < |positions| && Pixel(positions[i].1.x, OffsetX(positions), edgeLength) == Padding * edgeLength as real
    ensures forall i :: 0 <= i < |positions| ==> Pixel(positions[i].1.x, OffsetX(positions), edgeLength) >= Padding * edgeLength as real
  {
    var i :| 0 <= i < |positions| && MinX(positions) == positions[i].1.x;
    PixelOf(positions[i].1.x, OffsetX(positions), edgeLength, Padding);
    forall k | 0 <= k < |positions| ensures Pixel(positions[k].1.x, OffsetX(positions), edgeLength) >= Padding * edgeLength as real {
      PixelAtLeast(positions[k].1.x, OffsetX(positions), edgeLength);
    }
  }

  /** The same for the topmost room and the top border. */
  lemma PaddedTop(positions: OrderedMap<int, Point>, edgeLength: int)
    requires positions != [] && edgeLength >= 0
    ensures exists i :: 0 <= i < |positions| && Pixel(positions[i].1.y, OffsetY(positions), edgeLength) == Padding * edgeLength as real
    ensures forall i :: 0 <= i < |positions| ==> Pixel(positions[i].1.y, OffsetY(positions), edgeLength) >= Padding * edgeLength as real
  {
    var i :| 0 <= i < |positions| && MinY(positions) == positions[i].1.y;
    PixelOf(positions[i].1.y, OffsetY(positions), edgeLength, Padding);
    forall k | 0 <= k < |positions| ensures Pixel(positions[k].1.y, OffsetY(positions), edgeLength) >= Padding * edgeLength as real {
      PixelAtLeast(positions[k].1.y, OffsetY(positions), edgeLength);
    }
  }

  lemma PixelOf(position: real, offset: real, edgeLength: int, v: real)
    requires position + offset == v
    ensures Pixel(position, offset, edgeLength) == v * edgeLength as real
  {
  }

  lemma PixelAtLeast(position: real, offset: real, edgeLength: int)
    requires position + offset >= Padding && edgeLength >= 0
    ensures Pixel(position, offset, edgeLength) >= Padding * edgeLength as real
  {
  }

  /** Every position moved by the same amount. */
  function Shift(positions: OrderedMap<int, Point>, dx: real, dy: real): (r: OrderedMap<int, Point>)
    ensures |r| == |positions|
    ensures forall i :: 0 <= i < |r| ==> r[i] == (positions[i].0, Point(positions[i].1.x + dx, positions[i].1.y + dy))
  {
    if positions == [] then []
    else [(positions[0].0, Point(positions[0].1.x + dx, positions[0].1.y + dy))] + Shift(positions[1..], dx, dy)
  }

  lemma {:induction false} GetShift(positions: OrderedMap<int, Point>, dx: real, dy: real, id: int)
    ensures Has(Shift(positions, dx, dy), id) <==> Has(positions, id)
    ensures Has(positions, id) ==>
              var p := Get(positions, id).value;
              Get(Shift(positions, dx, dy), id) == Some(Point(p.x + dx, p.y + dy))
  {
    if positions != [] {
      assert Shift(positions, dx, dy)[1..] == Shift(positions[1..], dx, dy);
      GetShift(positions[1..], dx, dy, id);
    }
  }

  /** The exported boxes do not depend on where the layout put the drawing:
      moving every room by the same amount changes nothing. */
  lemma ExportTranslationInvariant(roomIds: seq<int>, positions: OrderedMap<int, Point>, dx: real, dy: real,
                                   edgeLength: int, roomSize: int, shape: string, outputName: string)
    ensures ExportCoordinates(roomIds, Shift(positions, dx, dy), edgeLength, roomSize, shape, outputName)
            == ExportCoordinates(roomIds, positions, edgeLength, roomSize, shape, outputName)
  {
    if positions != [] {
      var shifted := Shift(positions, dx, dy);
      MinShift(positions, dx, dy);
      RecordsShift(roomIds, positions, dx, dy, OffsetX(positions), OffsetY(positions),
                   edgeLength, roomSize, shape, outputName + ".png");
      assert OffsetX(shifted) == OffsetX(positions) - dx;
      assert OffsetY(shifted) == OffsetY(positions) - dy;
    }
  }

  lemma {:induction false} MinShift(positions: OrderedMap<int, Point>, dx: real, dy: real)
    requires positions != []
    ensures MinX(Shift(positions, dx, dy)) == MinX(positions) + dx
    ensures MinY(Shift(positions, dx, dy)) == MinY(positions) + dy
  {
    MinXShift(positions, dx, dy);
    MinYShift(positions, dx, dy);
  }

  lemma {:induction false} MinXShift(positions: OrderedMap<int, Point>, dx: real, dy: real)
    requires positions != []
    ensures MinX(Shift(positions, dx, dy)) == MinX(positions) + dx
    decreases |positions|
  {
    if |positions| > 1 {
      var shifted := Shift(positions, dx, dy);
      assert shifted[1..] == Shift(positions[1..], dx, dy);
      MinXShift(positions[1..], dx, dy);
    }
  }

  lemma {:induction false} MinYShift(positions: OrderedMap<int, Point>, dx: real, dy: real)
    requires positions != []
    ensures MinY(Shift(positions, dx, dy)) == MinY(positions) + dy
    decreases |positions|
  {
    if |positions| > 1 {
      var shifted := Shift(positions, dx, dy);
      assert shifted[1..] == Shift(positions[1..], dx, dy);
      MinYShift(positions[1..], dx, dy);
    }
  }

  /** One room's box is unchanged when its position and the offset move in
      opposite directions by the same amount. */
  lemma RoomBoxShift(p: Point, dx: real, dy: real, offsetX: real, offsetY: real, edgeLength: int, roomSize: int, shape: string)
    ensures RoomBox(Point(p.x + dx, p.y + dy), offsetX - dx, offsetY - dy, edgeLength, roomSize, shape)
            == RoomBox(p, offsetX, offsetY, edgeLength, roomSize, shape)
  {
    var q := Point(p.x + dx, p.y + dy);
    PixelOf(q.x, offsetX - dx, edgeLength, p.x + offsetX);
    PixelOf(p.x, offsetX, edgeLength, p.x + offsetX);
    PixelOf(q.y, offsetY - dy, edgeLength, p.y + offsetY);
    PixelOf(p.y, offsetY, edgeLength, p.y + offsetY);
    assert Pixel(q.x, offsetX - dx, edgeLength) == Pixel(p.x, offsetX, edgeLength);
    assert Pixel(q.y, offsetY - dy, edgeLength) == Pixel(p.y, offsetY, edgeLength);
  }

  lemma {:induction false} RecordsShift(roomIds: seq<int>, positions: OrderedMap<int, Point>, dx: real, dy: real,
                                        offsetX: real, offsetY: real, edgeLength: int, roomSize: int,
                                        shape: string, image: string)
    ensures Records(roomIds, Shift(positions, dx, dy), offsetX - dx, offsetY - dy, edgeLength, roomSize, shape, image)
            == Records(roomIds, positions, offsetX, offsetY, edgeLength, roomSize, shape, image)
  {
    if roomIds != [] {
      RecordsShift(roomIds[1..], positions, dx, dy, offsetX, offsetY, edgeLength, roomSize, shape, image);
      GetShift(positions, dx, dy, roomIds[0]);
      if Has(positions, roomIds[0]) {
        RoomBoxShift(Get(positions, roomIds[0]).value, dx, dy, offsetX, offsetY, edgeLength, roomSize, shape);
      }
    }
  }
}

=== FILE: coordinate_file.dfy ===
/** The coordinate file of js/map-generator.js: `exportCoordinateFile` writes
    the per-group names and offsets, the cross-group connections, the custom
    labels and part of the configuration; `importCoordinateFile` reads such a
    file back into the editor. The file is modelled as the parsed value;
    absent fields are `None`. The per-group room lists with their layout
    positions are not part of this model. */
module CoordinateFile {
  import opened Common
  import opened JsText
  import opened OrderedMaps
  import opened GroupOffsets
  import opened CrossGroup
  import opened EditorState

  const NoMapMessage: string := "Please generate or preview a map first"
  const InvalidFileMessage: string := "Invalid coordinate file format"

  /** One entry of `groups`. */
  datatype GroupDoc = GroupDoc(index: int, name: Option<string>, offset: Option<Offset>, labelOffset: Option<Offset>)

  /** A `colors` object; the import spreads it over the current colours. */
  datatype ColorsPatch = ColorsPatch(
    default: Option<string>, background: Option<string>, connections: Option<string>, verticalConnections: Option<string>)

  /** The `config` object of the file. */
  datatype ConfigDoc = ConfigDoc(
    edgeLength: Option<int>,
    roomShape: Option<string>,
    roomSize: Option<int>,
    strokeWidth: Option<int>,
    connectionWidth: Option<int>,
    colors: Option<ColorsPatch>,
    tagColors: Option<seq<(string, string)>>,
    fonts: Option<(Font, Font)>)

  /** The whole file. `version` is the map-database version (`None` for `null`). */
  datatype CoordDoc = CoordDoc(
    mapName: string,
    mapId: string,
    version: Option<string>,
    groups: Option<seq<GroupDoc>>,
    crossGroupConnections: Option<seq<Connection>>,
    customLabels: Option<seq<CustomLabel>>,
    config: Option<ConfigDoc>)

  /** The entry written for group `index`: its name or the default one, its
      offsets or (0, 0). */
  function ExportGroup(e: Editor, index: nat): GroupDoc {
    GroupDoc(index,
             Some(OrElseString(Get(e.groupNames, index), DefaultGroupName(index))),
             Some(Get(e.groupOffsets, index).GetOr(Zero)),
             Some(Get(e.labelOffsets, index).GetOr(Zero)))
  }

  /** `exportCoordinateFile` for a drawing of `groupCount` groups; nothing is
      written while no map has been generated. */
  function ExportCoordinateFile(e: Editor, groupCount: nat, mapId: string, version: Option<string>)
    : (r: Result<CoordDoc>)
    ensures r.Err? <==> groupCount == 0
    ensures r.Err? ==> r.message == NoMapMessage
    ensures r.Ok? ==> r.value.groups.Some? && |r.value.groups.value| == groupCount
    ensures r.Ok? ==> forall i :: 0 <= i < groupCount ==> r.value.groups.value[i].index == i
  {
    if groupCount == 0 then Err(NoMapMessage)
    else
      Ok(CoordDoc(e.outputName, mapId, version, Some(ExportGroups(e, groupCount)),
                  Some(e.connections), Some(e.customLabels), Some(ExportConfig(e.config))))
  }

  /** The `groups` array for groups 0 to `groupCount - 1`. */
  function ExportGroups(e: Editor, groupCount: nat): (gs: seq<GroupDoc>)
    ensures |gs| == groupCount
    ensures forall i :: 0 <= i < groupCount ==> gs[i].index == i
    ensures forall i :: 0 <= i < groupCount ==> gs[i].name.Some? && gs[i].name.value != ""
    ensures forall i :: 0 <= i < groupCount ==>
              gs[i].name.value == (if Get(e.groupNames, i).Some? && Get(e.groupNames, i).value != ""
                                   then Get(e.groupNames, i).value else DefaultGroupName(i))
    ensures forall i :: 0 <= i < groupCount ==>
              gs[i].offset == Some(if Has(e.groupOffsets, i) then Get(e.groupOffsets, i).value else Zero)
    ensures forall i :: 0 <= i < groupCount ==>
              gs[i].labelOffset == Some(if Has(e.labelOffsets, i) then Get(e.labelOffsets, i).value else Zero)
  {
    seq(groupCount, i requires 0 <= i => ExportGroup(e, i))
  }

  /** The `config` object the export writes. */
  function ExportConfig(c: Config): ConfigDoc {
    ConfigDoc(
      Some(c.edgeLength), Some(c.roomShape), Some(c.roomSize), Some(c.strokeWidth), Some(c.connectionWidth),
      Some(ColorsPatch(Some(c.colors.default), Some(c.colors.background), Some(c.colors.connections),
                       Some(c.colors.verticalConnections))),
      Some(c.tagColors),
      Some((c.labelFont, c.roomFont)))
  }

  /** `{ ...colors, ...patch }`: every field the patch has replaces the
      current one, whatever its value. */
  function MergeColors(colors: Colors, patch: ColorsPatch): (r: Colors)
    ensures patch.default.Some? ==> r.default == patch.default.value
    ensures patch.default.None? ==> r.default == colors.default
    ensures patch.background.Some? ==> r.background == patch.background.value
    ensures patch.background.None? ==> r.background == colors.background
    ensures patch.connections.Some? ==> r.connections == patch.connections.value
    ensures patch.connections.None? ==> r.connections == colors.connections
    ensures patch.verticalConnections.Some? ==> r.verticalConnections == patch.verticalConnections.value
    ensures patch.verticalConnections.None? ==> r.verticalConnections == colors.verticalConnections
  {
    Colors(patch.default.GetOr(colors.default), patch.background.GetOr(colors.background),
           patch.connections.GetOr(colors.connections), patch.verticalConnections.GetOr(colors.verticalConnections))
  }

  /** The `config` part of an import: edge length, room shape and room size
      when truthy, the colours merged, the tag colours rebuilt. Stroke width,
      connection width and fonts are written by the export but not read. */
  function ImportConfig(c: Config, doc: ConfigDoc): (r: Config)
    ensures r.strokeWidth == c.strokeWidth && r.connectionWidth == c.connectionWidth
    ensures r.labelFont == c.labelFont && r.roomFont == c.roomFont
    ensures r.backgroundImage == c.backgroundImage && r.useBackground == c.useBackground
  {
    c.(edgeLength := if TruthyNumber(doc.edgeLength) then doc.edgeLength.value else c.edgeLength,
       roomShape := if TruthyString(doc.roomShape) then doc.roomShape.value else c.roomShape,
       roomSize := if TruthyNumber(doc.roomSize) then doc.roomSize.value else c.roomSize,
       colors := if doc.colors.Some? then MergeColors(c.colors, doc.colors.value) else c.colors,
       tagColors := if doc.tagColors.Some? then FromEntries(doc.tagColors.value) else c.tagColors)
  }

  /** The three group maps as the import rebuilds them: cleared, then one
      `set` per file entry in file order. */
  function ImportedOffsets(groups: seq<GroupDoc>): OrderedMap<int, Offset> {
    FromEntries(seq(|groups|, i requires 0 <= i < |groups| => (groups[i].index, groups[i].offset.GetOr(Zero))))
  }

  function ImportedNames(groups: seq<GroupDoc>): OrderedMap<int, string> {
    FromEntries(seq(|groups|, i requires 0 <= i < |groups| =>
                      (groups[i].index, OrElseString(groups[i].name, DefaultGroupName(groups[i].index)))))
  }

  function ImportedLabelOffsets(groups: seq<GroupDoc>): OrderedMap<int, Offset> {
    FromEntries(seq(|groups|, i requires 0 <= i < |groups| => (groups[i].index, groups[i].labelOffset.GetOr(Zero))))
  }

  /** Entry `i` is the last one in the file for its group index, so its
      `set` is the one that stays. */
  predicate LastOfIndex(groups: seq<GroupDoc>, i: nat)
    requires i < |groups|
  {
    forall j :: i < j < |groups| ==> groups[j].index != groups[i].index
  }

  /** The indices that occur in the file. */
  predicate InFile(groups: seq<GroupDoc>, g: int) {
    exists i :: 0 <= i < |groups| && groups[i].index == g
  }

  /** A map built from one entry per file group, keyed by the group index,
      holds exactly the file's indices, each with its last entry's value. */
  lemma GroupEntries<V>(groups: seq<GroupDoc>, es: seq<(int, V)>)
    requires |es| == |groups| && forall i :: 0 <= i < |es| ==> es[i].0 == groups[i].index
    ensures forall g :: Has(FromEntries(es), g) <==> InFile(groups, g)
    ensures forall i :: 0 <= i < |groups| && LastOfIndex(groups, i) ==>
              Get(FromEntries(es), groups[i].index) == Some(es[i].1)
  {
    forall g ensures Has(es, g) <==> InFile(groups, g) {
      HasEntry(es, g);
    }
    forall i | 0 <= i < |groups| && LastOfIndex(groups, i)
      ensures Get(FromEntries(es), groups[i].index) == Some(es[i].1)
    {
      FromEntriesLastWins(es, i);
    }
  }

  /** The three rebuilt maps: exactly the file's indices; a missing offset
      becomes (0, 0) and an empty or missing name "Group i+1". */
  lemma ImportedMaps(groups: seq<GroupDoc>)
    ensures forall g :: Has(ImportedOffsets(groups), g) <==> InFile(groups, g)
    ensures forall g :: Has(ImportedNames(groups), g) <==> InFile(groups, g)
    ensures forall g :: Has(ImportedLabelOffsets(groups), g) <==> InFile(groups, g)
    ensures forall i :: 0 <= i < |groups| && LastOfIndex(groups, i) ==>
              && Get(ImportedOffsets(groups), groups[i].index) == Some(groups[i].offset.GetOr(Zero))
              && Get(ImportedNames(groups), groups[i].index)
                 == Some(OrElseString(groups[i].name, DefaultGroupName(groups[i].index)))
              && Get(ImportedLabelOffsets(groups), groups[i].index) == Some(groups[i].labelOffset.GetOr(Zero))
  {
    GroupEntries(groups, seq(|groups|, i requires 0 <= i < |groups| => (groups[i].index, groups[i].offset.GetOr(Zero))));
    GroupEntries(groups, seq(|groups|, i requires 0 <= i < |groups| =>
                               (groups[i].index, OrElseString(groups[i].name, DefaultGroupName(groups[i].index)))));
    GroupEntries(groups, seq(|groups|, i requires 0 <= i < |groups| => (groups[i].index, groups[i].labelOffset.GetOr(Zero))));
  }

  /** `importCoordinateFile` once the file is parsed: a file without a
      `groups` array is refused; otherwise the group maps are replaced, the
      connections and labels are replaced when present, and the configuration
      is updated when present. Nothing else changes. */
  function ImportCoordinateFile(e: Editor, doc: CoordDoc): (r: Result<Editor>)
    ensures r.Err? <==> doc.groups.None?
    ensures r.Err? ==> r.message == InvalidFileMessage
    ensures r.Ok? ==> Valid(r.value.groupOffsets) && Valid(r.value.groupNames) && Valid(r.value.labelOffsets)
    ensures r.Ok? ==> forall g :: Has(r.value.groupOffsets, g) <==> InFile(doc.groups.value, g)
    ensures r.Ok? ==> forall g :: Has(r.value.groupNames, g) <==> InFile(doc.groups.value, g)
    ensures r.Ok? ==> forall g :: Has(r.value.labelOffsets, g) <==> InFile(doc.groups.value, g)
    ensures r.Ok? ==> var gs := doc.groups.value;
              forall i :: 0 <= i < |gs| && LastOfIndex(gs, i) ==>
                && Get(r.value.groupOffsets, gs[i].index) == Some(gs[i].offset.GetOr(Zero))
                && Get(r.value.groupNames, gs[i].index) == Some(OrElseString(gs[i].name, DefaultGroupName(gs[i].index)))
                && Get(r.value.labelOffsets, gs[i].index) == Some(gs[i].labelOffset.GetOr(Zero))
    ensures r.Ok? ==> r.value.display == e.display && r.value.selection == e.selection && r.value.outputName == e.outputName
    ensures r.Ok? ==> r.value.connections == doc.crossGroupConnections.GetOr(e.connections)
    ensures r.Ok? ==> r.value.customLabels == doc.customLabels.GetOr(e.customLabels)
    ensures r.Ok? && doc.config.None? ==> r.value.config == e.config
  {
    match doc.groups
    case None => Err(InvalidFileMessage)
    case Some(groups) =>
      var offsets := ImportedOffsets(groups);
      ImportedMaps(groups);
      Ok(e.(groupOffsets := offsets,
            groupNames := ImportedNames(groups),
            labelOffsets := ImportedLabelOffsets(groups),
            connections := doc.crossGroupConnections.GetOr(e.connections),
            customLabels := doc.customLabels.GetOr(e.customLabels),
            config := if doc.config.Some? then ImportConfig(e.config, doc.config.value) else e.config))
  }

  /** An entry list keyed 0, 1, ..., n - 1 is already a map, and `new Map`
      keeps it as it is. */
  lemma IndexedEntries<V>(es: OrderedMap<int, V>)
    requires forall i :: 0 <= i < |es| ==> es[i].0 == i
    ensures FromEntries(es) == es
    ensures Keys(es) == Range(0, |es| - 1)
    ensures forall i :: 0 <= i < |es| ==> Get(es, i) == Some(es[i].1)
  {
    assert Keys(es) == Range(0, |es| - 1);
    ValidOfDistinctKeys(es);
    FromEntriesOfValid(es);
    forall i | 0 <= i < |es| ensures Get(es, i) == Some(es[i].1) {
      GetEntry(es, i);
    }
  }

  /** Each group map the import rebuilds from an export holds groups 0 to
      n - 1, in order, with the values the export wrote. */
  lemma ImportedOffsetsOfExport(e: Editor, n: nat)
    ensures var m := ImportedOffsets(ExportGroups(e, n));
            && Keys(m) == Range(0, n - 1)
            && forall i :: 0 <= i < n ==> Get(m, i) == Some(Get(e.groupOffsets, i).GetOr(Zero))
  {
    var gs := ExportGroups(e, n);
    var es := seq(n, i requires 0 <= i => (i, Get(e.groupOffsets, i).GetOr(Zero)));
    assert seq(|gs|, i requires 0 <= i < |gs| => (gs[i].index, gs[i].offset.GetOr(Zero))) == es;
    IndexedEntries(es);
  }

  lemma ImportedNamesOfExport(e: Editor, n: nat)
    ensures var m := ImportedNames(ExportGroups(e, n));
            && Keys(m) == Range(0, n - 1)
            && forall i :: 0 <= i < n ==> Get(m, i) == Some(OrElseString(Get(e.groupNames, i), DefaultGroupName(i)))
  {
    var gs := ExportGroups(e, n);
    var es := seq(n, i requires 0 <= i => (i, OrElseString(Get(e.groupNames, i), DefaultGroupName(i))));
    assert seq(|gs|, i requires 0 <= i < |gs| => (gs[i].index, OrElseString(gs[i].name, DefaultGroupName(gs[i].index))))
           == es;
    IndexedEntries(es);
  }

  lemma ImportedLabelOffsetsOfExport(e: Editor, n: nat)
    ensures var m := ImportedLabelOffsets(ExportGroups(e, n));
            && Keys(m) == Range(0, n - 1)
            && forall i :: 0 <= i < n ==> Get(m, i) == Some(Get(e.labelOffsets, i).GetOr(Zero))
  {
    var gs := ExportGroups(e, n);
    var es := seq(n, i requires 0 <= i => (i, Get(e.labelOffsets, i).GetOr(Zero)));
    assert seq(|gs|, i requires 0 <= i < |gs| => (gs[i].index, gs[i].labelOffset.GetOr(Zero))) == es;
    IndexedEntries(es);
  }

  /** The configuration part of the round trip: colours and tag colours come
      back, edge length, room shape and room size come back when truthy, and
      stroke width, connection width and fonts keep the importer's values. */
  lemma ImportExportedConfig(c: Config, c0: Config)
    ensures var r := ImportConfig(c0, ExportConfig(c));
            && r.colors == c.colors
            && (Valid(c.tagColors) ==> r.tagColors == c.tagColors)
            && r.edgeLength == (if c.edgeLength != 0 then c.edgeLength else c0.edgeLength)
            && r.roomShape == (if c.roomShape != "" then c.roomShape else c0.roomShape)
            && r.roomSize == (if c.roomSize != 0 then c.roomSize else c0.roomSize)
            && r.strokeWidth == c0.strokeWidth && r.connectionWidth == c0.connectionWidth
            && r.labelFont == c0.labelFont && r.roomFont == c0.roomFont
  {
    if Valid(c.tagColors) {
      FromEntriesOfValid(c.tagColors);
    }
  }

  /** Exporting and importing the file gives back, for every group of the
      drawing, its offsets (or (0, 0)) and its name (or the default name),
      and no other group, together with the connections and the labels. */
  lemma ExportThenImport(e: Editor, e0: Editor, n: nat, mapId: string, version: Option<string>)
    requires n > 0
    ensures var r := ImportCoordinateFile(e0, ExportCoordinateFile(e, n, mapId, version).value);
            && r.Ok?
            && Keys(r.value.groupOffsets) == Range(0, n - 1)
            && Keys(r.value.groupNames) == Range(0, n - 1)
            && Keys(r.value.labelOffsets) == Range(0, n - 1)
            && (forall i :: 0 <= i < n ==>
                  && Get(r.value.groupOffsets, i) == Some(Get(e.groupOffsets, i).GetOr(Zero))
                  && Get(r.value.groupNames, i) == Some(OrElseString(Get(e.groupNames, i), DefaultGroupName(i)))
                  && Get(r.value.labelOffsets, i) == Some(Get(e.labelOffsets, i).GetOr(Zero)))
            && r.value.connections == e.connections
            && r.value.customLabels == e.customLabels
            && r.value.config == ImportConfig(e0.config, ExportConfig(e.config))
  {
    var gs := ExportGroups(e, n);
    var r := ImportCoordinateFile(e0, ExportCoordinateFile(e, n, mapId, version).value).value;
    assert r.groupOffsets == ImportedOffsets(gs) && r.groupNames == ImportedNames(gs) && r.labelOffsets == ImportedLabelOffsets(gs);
    ImportedOffsetsOfExport(e, n);
    ImportedNamesOfExport(e, n);
    ImportedLabelOffsetsOfExport(e, n);
  }
}

=== FILE: coordinate_storage.dfy ===
/** `CoordinateStorage` of js/map-generator.js: laid-out coordinates kept per
    map id in one browser-storage object, each entry stamped with the layout
    version and the time it was saved. Reading and writing the storage item,
    and the clock, are outside the model: the storage object is a value and
    `now` (milliseconds) is a parameter. */
module CoordinateStorage {
  import opened Common
  import opened OrderedMaps

  /** Thirty days in milliseconds. */
  const MaxStorageAge: int := 30 * 24 * 60 * 60 * 1000

  /** `{ version, data, savedAt }`. */
  datatype Entry<V, D> = Entry(version: V, data: D, savedAt: int)

  /** The parsed storage object, keyed by map id. */
  type Storage<V, D> = OrderedMap<string, Entry<V, D>>

  /** `cleanOldEntries`: every entry older than the maximum age is removed;
      the others stay, in their order. (A parsed storage object never holds a
      key twice, which the first two promises rely on.) */
  function CleanOldEntries<V(!new), D(!new)>(storage: Storage<V, D>, now: int): (r: Storage<V, D>)
    ensures Valid(storage) ==>
              forall id :: Has(r, id) <==> Has(storage, id) && now - Get(storage, id).value.savedAt <= MaxStorageAge
    ensures Valid(storage) ==> forall id :: Has(r, id) ==> Get(r, id) == Get(storage, id)
    ensures IsSubsequence(r, storage)
    ensures Valid(storage) ==> Valid(r)
  {
    if storage == [] then []
    else
      var rest := CleanOldEntries(storage[1..], now);
      if now - storage[0].1.savedAt > MaxStorageAge then
        SubsequenceOfTail(rest, storage);
        rest
      else
        assert Valid(storage) ==> !Has(rest, storage[0].0);
        [storage[0]] + rest
  }

  /** `saveCoordinates`: the entry for `mapId` is replaced by a fresh one and
      the storage is cleaned. */
  function SaveCoordinates<V(!new), D(!new)>(storage: Storage<V, D>, mapId: string, version: V, data: D, now: int)
    : (r: Storage<V, D>)
    requires Valid(storage)
    ensures Get(r, mapId) == Some(Entry(version, data, now))
    ensures forall id :: id != mapId && Has(r, id) ==> Get(r, id) == Get(storage, id)
    ensures forall id :: id != mapId ==>
              (Has(r, id) <==> Has(storage, id) && now - Get(storage, id).value.savedAt <= MaxStorageAge)
    ensures Valid(r)
  {
    CleanOldEntries(Set(storage, mapId, Entry(version, data, now)), now)
  }

  /** `loadCoordinates`: the stored data when the entry has the requested
      version and is younger than the maximum age. An entry that fails either
      test is deleted from the storage; a missing entry changes nothing.
      Returns the data (`None` is `null`) and the storage afterwards. */
  function LoadCoordinates<V(==,!new), D(!new)>(storage: Storage<V, D>, mapId: string, version: V, now: int)
    : (r: (Option<D>, Storage<V, D>))
    ensures r.0.Some? <==> Has(storage, mapId) && Get(storage, mapId).value.version == version
                           && now - Get(storage, mapId).value.savedAt < MaxStorageAge
    ensures r.0.Some? ==> r.0.value == Get(storage, mapId).value.data && r.1 == storage
    ensures !Has(storage, mapId) ==> r.1 == storage
    ensures Has(storage, mapId) && r.0.None? ==> !Has(r.1, mapId)
    ensures forall id :: id != mapId ==> Get(r.1, id) == Get(storage, id)
  {
    match Get(storage, mapId)
    case None => (None, storage)
    case Some(entry) =>
      if entry.version == version && now - entry.savedAt < MaxStorageAge then (Some(entry.data), storage)
      else (None, Delete(storage, mapId))
  }

  /** What was saved is loaded back, unchanged, with the same version at any
      time before the maximum age has passed. */
  lemma SaveThenLoad<V(!new), D(!new)>(storage: Storage<V, D>, mapId: string, version: V, data: D, now: int, later: int)
    requires Valid(storage) && now <= later < now + MaxStorageAge
    ensures var saved := SaveCoordinates(storage, mapId, version, data, now);
            LoadCoordinates(saved, mapId, version, later) == (Some(data), saved)
  {
  }

  /** Loading with another version returns nothing and drops the entry. */
  lemma LoadOtherVersion<V(!new), D(!new)>(storage: Storage<V, D>, mapId: string, version: V, data: D, now: int,
                                    other: V, later: int)
    requires Valid(storage) && other != version
    ensures var saved := SaveCoordinates(storage, mapId, version, data, now);
            var (loaded, after) := LoadCoordinates(saved, mapId, other, later);
            loaded == None && !Has(after, mapId)
  {
  }

  /** The two age tests disagree at exactly the maximum age: such an entry
      survives a clean-up but is refused (and deleted) by a load. */
  lemma BoundaryAge<V(!new), D(!new)>(storage: Storage<V, D>, mapId: string, version: V, now: int)
    requires Valid(storage) && Has(storage, mapId) && Get(storage, mapId).value.version == version
    requires now - Get(storage, mapId).value.savedAt == MaxStorageAge
    ensures Has(CleanOldEntries(storage, now), mapId)
    ensures LoadCoordinates(storage, mapId, version, now) == (None, Delete(storage, mapId))
  {
  }

  /** Cleaning twice at the same time removes nothing more. */
  lemma {:induction false} CleanIdempotent<V(!new), D(!new)>(storage: Storage<V, D>, now: int)
    ensures CleanOldEntries(CleanOldEntries(storage, now), now) == CleanOldEntries(storage, now)
  {
    if storage != [] {
      CleanIdempotent(storage[1..], now);
    }
  }
}

=== FILE: cross_group.dfy ===
/** The list of connections drawn between rooms of different groups, and the
    `addCrossGroupConnection` rule of js/map-generator.js that extends it. The
    two room-id fields are passed in as the text the user typed. */
module CrossGroup {
  import opened Common
  import opened JsText

  /** One connection record as the editor stores and exports it. */
  datatype Connection = Connection(fromId: int, toId: int, style: string, dashSpacing: string, color: string)

  const NewConnectionStyle: string := "dashed"
  const NewConnectionDash: string := "5,5"

  const MissingIdMessage: string := "Please enter both room IDs"
  const SelfLoopMessage: string := "Cannot connect a room to itself"
  const DuplicateMessage: string := "This connection already exists"

  /** `c` joins `a` and `b`, in either direction. */
  predicate Joins(c: Connection, a: int, b: int) {
    (c.fromId == a && c.toId == b) || (c.fromId == b && c.toId == a)
  }

  /** The `some(...)` test for an existing connection between `a` and `b`. */
  predicate Connected(conns: seq<Connection>, a: int, b: int) {
    exists i :: 0 <= i < |conns| && Joins(conns[i], a, b)
  }

  /** What the rule keeps true of a list it built: no connection from a room
      to itself, no two connections between the same two rooms. */
  predicate WellFormed(conns: seq<Connection>) {
    && (forall i :: 0 <= i < |conns| ==> conns[i].fromId != conns[i].toId)
    && (forall i, j :: 0 <= i < j < |conns| ==> !Joins(conns[j], conns[i].fromId, conns[i].toId))
  }

  /** `addCrossGroupConnection`: both ids must parse to non-zero numbers, differ,
      and not already be connected; then one dashed connection in the current
      connection colour is appended. Otherwise the list is left as it was and
      the alert text is returned. */
  function AddCrossGroupConnection(conns: seq<Connection>, fromText: string, toText: string, color: string)
    : (r: Result<seq<Connection>>)
    ensures r.Err? <==> !Truthy(ParseInt(fromText)) || !Truthy(ParseInt(toText))
                        || ParseInt(fromText) == ParseInt(toText)
                        || Connected(conns, ParseInt(fromText).value, ParseInt(toText).value)
    ensures r.Err? ==>
              r.message == (if !Truthy(ParseInt(fromText)) || !Truthy(ParseInt(toText)) then MissingIdMessage
                            else if ParseInt(fromText) == ParseInt(toText) then SelfLoopMessage
                            else DuplicateMessage)
    ensures r.Ok? ==>
              && |r.value| == |conns| + 1
              && r.value[..|conns|] == conns
              && r.value[|conns|] == Connection(ParseInt(fromText).value, ParseInt(toText).value,
                                                NewConnectionStyle, NewConnectionDash, color)
  {
    var fromId := ParseInt(fromText);
    var toId := ParseInt(toText);
    if !Truthy(fromId) || !Truthy(toId) then Err(MissingIdMessage)
    else if fromId.value == toId.value then Err(SelfLoopMessage)
    else if Connected(conns, fromId.value, toId.value) then Err(DuplicateMessage)
    else
      var r := conns + [Connection(fromId.value, toId.value, NewConnectionStyle, NewConnectionDash, color)];
      assert r[..|conns|] == conns;
      Ok(r)
  }

  /** Adding a connection keeps the list free of self-loops and of repeated
      room pairs. */
  lemma AddPreservesWellFormed(conns: seq<Connection>, fromText: string, toText: string, color: string)
    requires WellFormed(conns)
    ensures var r := AddCrossGroupConnection(conns, fromText, toText, color);
            r.Ok? ==> WellFormed(r.value)
  {
    var r := AddCrossGroupConnection(conns, fromText, toText, color);
    if r.Ok? {
      var rs := r.value;
      var c := rs[|conns|];
      forall i, j | 0 <= i < j < |rs| ensures !Joins(rs[j], rs[i].fromId, rs[i].toId) {
        if j == |conns| {
          assert rs[i] == conns[i];
          assert !Joins(conns[i], c.fromId, c.toId);
        } else {
          assert rs[i] == conns[i] && rs[j] == conns[j];
        }
      }
      forall i | 0 <= i < |rs| ensures rs[i].fromId != rs[i].toId {
        if i < |conns| {
          assert rs[i] == conns[i];
        }
      }
    }
  }

  /** Once two rooms are connected, asking again, in either direction, is
      refused as a duplicate and changes nothing. */
  lemma AddTwiceRejected(conns: seq<Connection>, fromText: string, toText: string, color: string, color2: string)
    requires AddCrossGroupConnection(conns, fromText, toText, color).Ok?
    ensures var once := AddCrossGroupConnection(conns, fromText, toText, color).value;
            AddCrossGroupConnection(once, fromText, toText, color2) == Err(DuplicateMessage)
            && AddCrossGroupConnection(once, toText, fromText, color2) == Err(DuplicateMessage)
  {
    var once := AddCrossGroupConnection(conns, fromText, toText, color).value;
    var a, b := ParseInt(fromText).value, ParseInt(toText).value;
    assert Joins(once[|conns|], a, b) && Joins(once[|conns|], b, a);
  }
}

=== FILE: editor_state.dfy ===
/** The editor state of `MapGenApp` in js/map-generator.js that its saved
    files carry: the drawing configuration, the display check boxes, the
    room-selection form, the three per-group maps, the cross-group
    connections, the free-standing labels and the output name. */
module EditorState {
  import opened Common
  import opened JsText
  import opened OrderedMaps
  import opened GroupOffsets
  import opened CrossGroup

  /** `config.colors`. */
  datatype Colors = Colors(default: string, background: string, connections: string, verticalConnections: string)

  /** One of `config.fonts.labels` and `config.fonts.rooms`. */
  datatype Font = Font(size: int, color: string, family: string, bold: bool)

  /** The parts of `config` that the saved files carry. `backgroundImage` is
      `None` for `null`. */
  datatype Config = Config(
    edgeLength: int,
    roomShape: string,
    roomSize: int,
    strokeWidth: int,
    connectionWidth: int,
    colors: Colors,
    tagColors: OrderedMap<string, string>,
    labelFont: Font,
    roomFont: Font,
    backgroundImage: Option<string>,
    useBackground: bool)

  /** `getDefaultConfig`. */
  const DefaultConfig: Config := Config(
    80, "square", 15, 1, 2,
    Colors("#ffffff", "#f8f9fa", "#666666", "#999999"),
    [],
    Font(8, "#444444", "Arial", false),
    Font(10, "#000000", "Arial", false),
    None, true)

  /** The five display check boxes. */
  datatype DisplayOptions = DisplayOptions(
    showRoomIds: bool, showRoomNames: bool, showLabels: bool, showConnections: bool, showGroupLabels: bool)

  /** The room-selection form: the method radio (`"location"` or
      `"custom"`), the selected locations in list order, the range text and
      its id-type radio, the exclusion text and its id-type radio. */
  datatype SelectionForm = SelectionForm(
    selectionMethod: string,
    selectedLocations: seq<string>,
    rangeText: string,
    useUid: bool,
    excludeText: string,
    excludeUseUid: bool)

  /** One free-standing text label. */
  datatype CustomLabel = CustomLabel(
    text: string, x: int, y: int, fontSize: int, fontColor: string, fontFamily: string, bold: bool,
    background: bool, backgroundColor: string, borderColor: string, borderWidth: int)

  datatype Editor = Editor(
    config: Config,
    display: DisplayOptions,
    selection: SelectionForm,
    groupOffsets: OrderedMap<int, Offset>,
    groupNames: OrderedMap<int, string>,
    labelOffsets: OrderedMap<int, Offset>,
    connections: seq<Connection>,
    customLabels: seq<CustomLabel>,
    outputName: string)

  /** The name shown for group `index` when it has none of its own. */
  function DefaultGroupName(index: int): (name: string)
    ensures index >= 0 ==> name == "Group " + DecimalString(index + 1)
    ensures "Group " <= name && |name| > 6
  {
    "Group " + NumberString(index + 1)
  }

  /** `s || fallback` for a string. */
  function OrString(s: string, fallback: string): string {
    if s != "" then s else fallback
  }

  /** `o || fallback` for an optional string (`undefined` and `""` are falsy). */
  function OrElseString(o: Option<string>, fallback: string): string {
    if o.Some? && o.value != "" then o.value else fallback
  }

  /** Truthiness of an optional number or string read from a file. */
  predicate TruthyNumber(o: Option<int>) {
    o.Some? && o.value != 0
  }

  predicate TruthyString(o: Option<string>) {
    o.Some? && o.value != ""
  }
}

=== FILE: github_integration.dfy ===
/** The pure rules of js/github-integration.js: the file names a map set is
    stored under, how a folder listing is grouped back into map sets, the
    location a room selection is filed under, and the repository owner and
    OAuth redirect address derived from the page address. API calls, OAuth
    and base64 are outside the model; a folder listing is passed in. */
module GitHub {
  import opened Common
  import opened JsText
  import opened OrderedMaps
  import MapDb

  /** The role of a file in a map set, from its name's suffix. */
  datatype FileKind = Svg | Coords | Config | Unknown

  /** The file name of one part of the map set `mapName`. */
  function FileNameFor(mapName: string, kind: FileKind): (fileName: string)
    requires kind != Unknown
    ensures |fileName| > |mapName| && fileName[..|mapName|] == mapName
  {
    match kind
    case Svg => mapName + ".svg"
    case Coords => mapName + "_coords.json"
    case Config => mapName + "_config.json"
  }

  /** The suffix test of `listLocationMaps`: `.svg` first, then
      `_coords.json`, then `_config.json`; any other name is a map name of
      its own with an unknown role. */
  function Classify(fileName: string): (r: (string, FileKind))
    ensures r.1 != Unknown ==> FileNameFor(r.0, r.1) == fileName
    ensures r.1 == Unknown ==> r.0 == fileName
    ensures r.1 == Unknown <==>
              !EndsWith(fileName, ".svg") && !EndsWith(fileName, "_coords.json")
              && !EndsWith(fileName, "_config.json")
  {
    if EndsWith(fileName, ".svg") then
      (fileName[..|fileName| - 4], Svg)
    else if EndsWith(fileName, "_coords.json") then
      (fileName[..|fileName| - 12], Coords)
    else if EndsWith(fileName, "_config.json") then
      (fileName[..|fileName| - 12], Config)
    else
      (fileName, Unknown)
  }

  /** Every name `saveMapSet` writes is classified back to its map name and role. */
  lemma ClassifyFileNameFor(mapName: string, kind: FileKind)
    requires kind != Unknown
    ensures Classify(FileNameFor(mapName, kind)) == (mapName, kind)
  {
    var f := FileNameFor(mapName, kind);
    match kind
    case Svg =>
      assert f[|f| - 4..] == ".svg";
    case Coords =>
      assert f[|f| - 12..] == "_coords.json";
      assert f[|f| - 4..] == "json";
    case Config =>
      assert f[|f| - 12..] == "_config.json";
      assert f[|f| - 4..] == "json";
      assert f[|f| - 12..][3] == 'n';
  }

  /** `maps/${location}`. */
  function FolderPath(location: string): string {
    "maps/" + location
  }

  /** A repository path as the folder and the file name in it. */
  datatype RepoPath = RepoPath(folder: string, fileName: string) {
    function Text(): string {
      folder + "/" + fileName
    }
  }

  /** One `saveFile` call: where, what, and the commit message. */
  datatype Write = Write(path: RepoPath, content: string, message: string)

  /** The commit message `saveMapSet` uses for each role. */
  function SaveMessage(mapName: string, kind: FileKind): string
    requires kind != Unknown
  {
    match kind
    case Svg => "Save " + mapName + " map SVG"
    case Coords => "Save " + mapName + " coordinates"
    case Config => "Save " + mapName + " configuration"
  }

  /** The content argument of `saveMapSet` for a role. */
  function PartContent(kind: FileKind, svg: string, coords: string, config: string): string {
    match kind
    case Svg => svg
    case Coords => coords
    case Config => config
    case Unknown => ""
  }

  /** The roles `saveMapSet` writes, in the order it writes them: exactly
      those whose content is not empty (falsy), each once. */
  function SavedKinds(svg: string, coords: string, config: string): (kinds: seq<FileKind>)
    ensures forall k :: k in kinds <==> k != Unknown && PartContent(k, svg, coords, config) != ""
    ensures NoDuplicates(kinds)
  {
    (if svg != "" then [Svg] else []) + (if coords != "" then [Coords] else [])
      + (if config != "" then [Config] else [])
  }

  function WriteIf(content: string, location: string, mapName: string, kind: FileKind): (ws: seq<Write>)
    requires kind != Unknown
  {
    if content == [] then []
    else [Write(RepoPath(FolderPath(location), FileNameFor(mapName, kind)), content, SaveMessage(mapName, kind))]
  }

  /** `saveMapSet`: one write per non-empty part, at that part's file name in
      the folder `maps/{location}`, with that part's content and message. */
  function SaveMapSet(mapName: string, location: string, svg: string, coords: string, config: string)
    : (ws: seq<Write>)
    ensures |ws| == |SavedKinds(svg, coords, config)|
    ensures forall i :: 0 <= i < |ws| ==>
              var kind := SavedKinds(svg, coords, config)[i];
              ws[i] == Write(RepoPath(FolderPath(location), FileNameFor(mapName, kind)),
                             PartContent(kind, svg, coords, config), SaveMessage(mapName, kind))
  {
    WriteIf(svg, location, mapName, Svg) + WriteIf(coords, location, mapName, Coords)
      + WriteIf(config, location, mapName, Config)
  }

  /** `loadMapSet`: the three paths it reads, SVG, coordinates, configuration. */
  function LoadMapSet(mapName: string, location: string): (paths: seq<RepoPath>)
    ensures |paths| == 3
    ensures forall i :: 0 <= i < 3 ==> paths[i].folder == FolderPath(location)
    ensures Classify(paths[0].fileName) == (mapName, Svg)
    ensures Classify(paths[1].fileName) == (mapName, Coords)
    ensures Classify(paths[2].fileName) == (mapName, Config)
  {
    ClassifyFileNameFor(mapName, Svg);
    ClassifyFileNameFor(mapName, Coords);
    ClassifyFileNameFor(mapName, Config);
    [RepoPath(FolderPath(location), FileNameFor(mapName, Svg)),
     RepoPath(FolderPath(location), FileNameFor(mapName, Coords)),
     RepoPath(FolderPath(location), FileNameFor(mapName, Config))]
  }

  /** Loading a map set reads every file that saving it wrote. */
  lemma LoadReadsSaved(mapName: string, location: string, svg: string, coords: string, config: string)
    ensures forall w :: w in SaveMapSet(mapName, location, svg, coords, config) ==>
              w.path in LoadMapSet(mapName, location)
  {
    var ws := SaveMapSet(mapName, location, svg, coords, config);
    var kinds := SavedKinds(svg, coords, config);
    var loads := LoadMapSet(mapName, location);
    forall w | w in ws
      ensures w.path in loads
    {
      var i :| 0 <= i < |ws| && ws[i] == w;
      var kind := kinds[i];
      assert kind in kinds;
      var j := match kind case Svg => 0 case Coords => 1 case Config => 2 case Unknown => 0;
      assert loads[j] == w.path;
    }
  }

  /** An entry of the contents listing the GitHub API returns for a folder. */
  datatype FileItem = FileItem(itemType: string, name: string, path: string, sha: string, size: int)

  /** The record `listLocationMaps` keeps for one file of a map set. */
  datatype FileRef = FileRef(name: string, path: string, sha: string, size: int)

  function RefOf(item: FileItem): FileRef {
    FileRef(item.name, item.path, item.sha, item.size)
  }

  /** The `files` object of a map set, one slot per role. */
  datatype MapFiles = MapFiles(svg: Option<FileRef>, coords: Option<FileRef>, config: Option<FileRef>,
                               unknown: Option<FileRef>)
  {
    function Slot(kind: FileKind): Option<FileRef> {
      match kind
      case Svg => svg
      case Coords => coords
      case Config => config
      case Unknown => unknown
    }

    /** `files[kind] = ref`. */
    function Put(kind: FileKind, ref: FileRef): (r: MapFiles)
      ensures r.Slot(kind) == Some(ref)
      ensures forall k :: k != kind ==> r.Slot(k) == Slot(k)
    {
      match kind
      case Svg => this.(svg := Some(ref))
      case Coords => this.(coords := Some(ref))
      case Config => this.(config := Some(ref))
      case Unknown => this.(unknown := Some(ref))
    }
  }

  const NoFiles: MapFiles := MapFiles(None, None, None, None)

  datatype MapGroup = MapGroup(name: string, path: string, files: MapFiles)

  predicate IsFile(item: FileItem) {
    item.itemType == "file"
  }

  /** A file entry of a listing after the suffix test. */
  datatype Entry = Entry(mapName: string, kind: FileKind, ref: FileRef)

  function EntryOf(item: FileItem): Entry {
    var (mapName, kind) := Classify(item.name);
    Entry(mapName, kind, RefOf(item))
  }

  /** The classified file entries of a listing, in listing order. */
  function Entries(items: seq<FileItem>): (es: seq<Entry>)
    ensures |es| <= |items|
    ensures (forall i :: 0 <= i < |items| ==> IsFile(items[i])) ==>
              |es| == |items| && forall i :: 0 <= i < |items| ==> es[i] == EntryOf(items[i])
    decreases |items|
  {
    if items == [] then []
    else
      var init, last := items[..|items| - 1], items[|items| - 1];
      assert forall i :: 0 <= i < |init| ==> items[i] == init[i];
      if IsFile(last) then Entries(init) + [EntryOf(last)] else Entries(init)
  }

  /** `items.filter(i => i.type === 'file').map(...)`: the entries are the
      listing's files, each classified, in listing order. */
  lemma {:induction false} EntriesOfFiles(items: seq<FileItem>)
    ensures Mapped(EntryOf, Entries(items), Filter(IsFile, items))
    decreases |items|
  {
    if items != [] {
      var init, last := items[..|items| - 1], items[|items| - 1];
      var prev := Entries(init);
      assert Entries(items) == if IsFile(last) then prev + [EntryOf(last)] else prev by {
        EntriesStep(items);
      }
      assert Filter(IsFile, items) == Filter(IsFile, init + [last]) by {
        assert items == init + [last];
      }
      EntriesOfFiles(init);
      MappedFilterAppend(IsFile, EntryOf, prev, init, last);
    }
  }

  /** The map names of the entries, repeats included. */
  function Names(es: seq<Entry>): (names: seq<string>)
    ensures |names| == |es|
    ensures forall i :: 0 <= i < |es| ==> names[i] == es[i].mapName
  {
    seq(|es|, i requires 0 <= i < |es| => es[i].mapName)
  }

  /** The record of the last entry of (`mapName`, `kind`), the one that ends up in the group. */
  function LastFile(es: seq<Entry>, mapName: string, kind: FileKind): Option<FileRef>
    decreases |es|
  {
    if es == [] then None
    else if es[|es| - 1].mapName == mapName && es[|es| - 1].kind == kind then Some(es[|es| - 1].ref)
    else LastFile(es[..|es| - 1], mapName, kind)
  }

  /** A file of the role is recorded exactly when one is listed, and the one
      recorded is listed after every other file of that role. */
  lemma LastFileSpec(es: seq<Entry>, mapName: string, kind: FileKind)
    ensures LastFile(es, mapName, kind).Some? <==> exists i :: 0 <= i < |es| && es[i].mapName == mapName && es[i].kind == kind
    ensures LastFile(es, mapName, kind).Some? ==>
              exists i :: 0 <= i < |es| && es[i].mapName == mapName && es[i].kind == kind
                          && LastFile(es, mapName, kind).value == es[i].ref
                          && forall j :: i < j < |es| ==> !(es[j].mapName == mapName && es[j].kind == kind)
  {
    LastFileFound(es, mapName, kind);
    if LastFile(es, mapName, kind).Some? {
      var i := LastFileIndex(es, mapName, kind);
    }
  }

  lemma {:induction false} LastFileFound(es: seq<Entry>, mapName: string, kind: FileKind)
    ensures LastFile(es, mapName, kind).Some? <==> exists i :: 0 <= i < |es| && es[i].mapName == mapName && es[i].kind == kind
    decreases |es|
  {
    if es != [] {
      var init, last := es[..|es| - 1], es[|es| - 1];
      if !(last.mapName == mapName && last.kind == kind) {
        LastFileFound(init, mapName, kind);
        if exists i :: 0 <= i < |es| && es[i].mapName == mapName && es[i].kind == kind {
          var i :| 0 <= i < |es| && es[i].mapName == mapName && es[i].kind == kind;
          assert init[i] == es[i];
        }
        if exists i :: 0 <= i < |init| && init[i].mapName == mapName && init[i].kind == kind {
          var i :| 0 <= i < |init| && init[i].mapName == mapName && init[i].kind == kind;
          assert init[i] == es[i];
        }
      }
    }
  }

  /** The index of the file `LastFile` records. */
  lemma {:induction false} LastFileIndex(es: seq<Entry>, mapName: string, kind: FileKind) returns (i: nat)
    requires LastFile(es, mapName, kind).Some?
    ensures i < |es| && es[i].mapName == mapName && es[i].kind == kind
    ensures LastFile(es, mapName, kind).value == es[i].ref
    ensures forall j :: i < j < |es| ==> !(es[j].mapName == mapName && es[j].kind == kind)
    decreases |es|
  {
    var init, last := es[..|es| - 1], es[|es| - 1];
    if last.mapName == mapName && last.kind == kind {
      i := |es| - 1;
    } else {
      i := LastFileIndex(init, mapName, kind);
      assert es[i] == init[i];
      forall j | i < j < |es| ensures !(es[j].mapName == mapName && es[j].kind == kind) {
        if j < |init| { assert es[j] == init[j]; }
      }
    }
  }

  lemma LastFileAppend(es: seq<Entry>, e: Entry, mapName: string, kind: FileKind)
    ensures LastFile(es + [e], mapName, kind)
            == if e.mapName == mapName && e.kind == kind then Some(e.ref) else LastFile(es, mapName, kind)
  {
    assert (es + [e])[..|es|] == es;
  }

  /** The map set named `mapName` as the entries describe it: for each role,
      the last file of that role. */
  function GroupOf(folderPath: string, es: seq<Entry>, mapName: string): MapGroup {
    MapGroup(mapName, folderPath,
             MapFiles(LastFile(es, mapName, Svg), LastFile(es, mapName, Coords),
                      LastFile(es, mapName, Config), LastFile(es, mapName, Unknown)))
  }

  function GroupsOf(folderPath: string, es: seq<Entry>, names: seq<string>): (gs: seq<MapGroup>)
    ensures |gs| == |names|
    ensures forall i :: 0 <= i < |names| ==> gs[i] == GroupOf(folderPath, es, names[i])
  {
    if names == [] then [] else [GroupOf(folderPath, es, names[0])] + GroupsOf(folderPath, es, names[1..])
  }

  /** The `mapGroups` map `listLocationMaps` builds: one group per map name,
      created when the name first appears, its slot for a role overwritten by
      every later file of that role. */
  function GroupFiles(folderPath: string, items: seq<FileItem>): (groups: OrderedMap<string, MapGroup>)
    ensures Valid(groups)
    decreases |items|
  {
    if items == [] then []
    else
      var groups := GroupFiles(folderPath, items[..|items| - 1]);
      var last := items[|items| - 1];
      if !IsFile(last) then groups
      else
        var (mapName, kind) := Classify(last.name);
        var group := Get(groups, mapName).GetOr(MapGroup(mapName, folderPath, NoFiles));
        Set(groups, mapName, group.(files := group.files.Put(kind, RefOf(last))))
  }

  lemma EntriesStep(items: seq<FileItem>)
    requires items != []
    ensures var init, last := items[..|items| - 1], items[|items| - 1];
            Entries(items) == if IsFile(last) then Entries(init) + [EntryOf(last)] else Entries(init)
  {
  }

  /** The groups are listed in the order their map names first appear. */
  lemma {:induction false} GroupFilesKeys(folderPath: string, items: seq<FileItem>)
    ensures Keys(GroupFiles(folderPath, items)) == Dedup(Names(Entries(items)))
    decreases |items|
  {
    if items != [] {
      var init, last := items[..|items| - 1], items[|items| - 1];
      GroupFilesKeys(folderPath, init);
      EntriesStep(items);
      if IsFile(last) {
        var e := EntryOf(last);
        assert Names(Entries(items)) == Names(Entries(init)) + [e.mapName] by {
          assert Entries(items) == Entries(init) + [e];
        }
        var groups := GroupFiles(folderPath, init);
        var group := Get(groups, e.mapName).GetOr(MapGroup(e.mapName, folderPath, NoFiles));
        SetKeysDedup(groups, Names(Entries(init)), e.mapName, group.(files := group.files.Put(e.kind, e.ref)));
      }
    }
  }

  /** Each map name of a file entry has exactly the group `GroupOf` describes. */
  lemma {:induction false} GroupFilesGroups(folderPath: string, items: seq<FileItem>)
    ensures forall n :: Get(GroupFiles(folderPath, items), n)
                        == if n in Names(Entries(items)) then Some(GroupOf(folderPath, Entries(items), n)) else None
    decreases |items|
  {
    if items != [] {
      var init, last := items[..|items| - 1], items[|items| - 1];
      var groups := GroupFiles(folderPath, init);
      GroupFilesGroups(folderPath, init);
      EntriesStep(items);
      if IsFile(last) {
        var es, e := Entries(init), EntryOf(last);
        assert Names(es + [e]) == Names(es) + [e.mapName];
        forall n ensures Get(GroupFiles(folderPath, items), n)
                         == if n in Names(es + [e]) then Some(GroupOf(folderPath, es + [e], n)) else None
        {
          if n == e.mapName {
            StepSameGroup(folderPath, es, e, groups);
          } else {
            StepOtherGroup(folderPath, es, e, n);
          }
        }
      }
    }
  }

  lemma StepOtherGroup(folderPath: string, es: seq<Entry>, e: Entry, n: string)
    requires e.mapName != n
    ensures GroupOf(folderPath, es + [e], n) == GroupOf(folderPath, es, n)
  {
    LastFileAppend(es, e, n, Svg);
    LastFileAppend(es, e, n, Coords);
    LastFileAppend(es, e, n, Config);
    LastFileAppend(es, e, n, Unknown);
  }

  lemma StepSameGroup(folderPath: string, es: seq<Entry>, e: Entry, groups: OrderedMap<string, MapGroup>)
    requires forall n :: Get(groups, n) == if n in Names(es) then Some(GroupOf(folderPath, es, n)) else None
    ensures var group := Get(groups, e.mapName).GetOr(MapGroup(e.mapName, folderPath, NoFiles));
            group.(files := group.files.Put(e.kind, e.ref)) == GroupOf(folderPath, es + [e], e.mapName)
  {
    var group := Get(groups, e.mapName).GetOr(MapGroup(e.mapName, folderPath, NoFiles));
    var expected := GroupOf(folderPath, es + [e], e.mapName);
    var before := GroupOf(folderPath, es, e.mapName);
    if e.mapName !in Names(es) {
      forall k ensures LastFile(es, e.mapName, k) == None {
        LastFileSpec(es, e.mapName, k);
      }
    }
    assert group.files == before.files;
    forall k ensures expected.files.Slot(k) == group.files.Put(e.kind, e.ref).Slot(k) {
      LastFileAppend(es, e, e.mapName, k);
    }
  }

  /** `map.files.svg || map.files.config`. */
  predicate Listed(group: MapGroup) {
    group.files.svg.Some? || group.files.config.Some?
  }

  /** `listLocationMaps`: a response that is not an array lists nothing;
      otherwise the map sets are listed in the order their names first appear
      among the file entries, each built from the last file of each role, and
      only those with an SVG or a configuration file are kept. */
  function ListLocationMaps(folderPath: string, response: Option<seq<FileItem>>): (r: seq<MapGroup>)
    ensures response.None? ==> r == []
    ensures response.Some? ==>
              var es := Entries(response.value);
              r == Filter(Listed, GroupsOf(folderPath, es, Dedup(Names(es))))
    ensures forall g :: g in r ==> Listed(g) && g.path == folderPath
  {
    match response
    case None => []
    case Some(items) =>
      var groups := GroupFiles(folderPath, items);
      var es := Entries(items);
      var names := Keys(groups);
      GroupFilesKeys(folderPath, items);
      GroupFilesGroups(folderPath, items);
      assert Values(groups) == GroupsOf(folderPath, es, names) by {
        forall i | 0 <= i < |groups|
          ensures groups[i].1 == GroupOf(folderPath, es, names[i])
        {
          GetEntry(groups, i);
          HasIsKey(groups, names[i]);
        }
      }
      Filter(Listed, Values(groups))
  }

  /** A folder listing made of exactly the files `saveMapSet` wrote is listed
      as the one map set `mapName`, holding a file for each role whose content
      was not empty. With neither an SVG nor a configuration the set is not
      listed at all. */
  lemma ListSavedMapSet(mapName: string, location: string, svg: string, coords: string, config: string,
                        items: seq<FileItem>)
    requires var ws := SaveMapSet(mapName, location, svg, coords, config);
             |items| == |ws| && forall i :: 0 <= i < |items| ==> IsFile(items[i]) && items[i].name == ws[i].path.fileName
    ensures var r := ListLocationMaps(FolderPath(location), Some(items));
            if svg != "" || config != "" then
              |r| == 1 && r[0].name == mapName
              && (r[0].files.svg.Some? <==> svg != "")
              && (r[0].files.coords.Some? <==> coords != "")
              && (r[0].files.config.Some? <==> config != "")
              && r[0].files.unknown == None
            else r == []
  {
    var es := Entries(items);
    assert ListLocationMaps(FolderPath(location), Some(items))
           == Filter(Listed, GroupsOf(FolderPath(location), es, Dedup(Names(es))));
    SavedListingEntries(mapName, location, svg, coords, config, items);
    ListSavedKinds(FolderPath(location), es, mapName, svg, coords, config);
  }

  lemma ListSavedKinds(folder: string, es: seq<Entry>, mapName: string, svg: string, coords: string, config: string)
    requires var kinds := SavedKinds(svg, coords, config);
             |es| == |kinds| && forall i :: 0 <= i < |es| ==> es[i].mapName == mapName && es[i].kind == kinds[i]
    ensures var r := Filter(Listed, GroupsOf(folder, es, Dedup(Names(es))));
            if svg != "" || config != "" then
              |r| == 1 && r[0].name == mapName
              && (r[0].files.svg.Some? <==> svg != "")
              && (r[0].files.coords.Some? <==> coords != "")
              && (r[0].files.config.Some? <==> config != "")
              && r[0].files.unknown == None
            else r == []
  {
    var kinds := SavedKinds(svg, coords, config);
    if svg != "" || config != "" {
      var i :| 0 <= i < |kinds| && kinds[i] == (if svg != "" then Svg else Config);
      ListSingleName(folder, es, mapName, i);
      SavedGroupFiles(folder, es, mapName, svg, coords, config);
    } else {
      NoMainKind(es, mapName, svg, coords, config);
      ListNoMainFile(folder, es, mapName);
    }
  }

  lemma NoMainKind(es: seq<Entry>, mapName: string, svg: string, coords: string, config: string)
    requires svg == "" && config == ""
    requires var kinds := SavedKinds(svg, coords, config);
             |es| == |kinds| && forall i :: 0 <= i < |es| ==> es[i].mapName == mapName && es[i].kind == kinds[i]
    ensures forall j :: 0 <= j < |es| ==> es[j].kind != Svg && es[j].kind != Config
  {
    var kinds := SavedKinds(svg, coords, config);
    forall j | 0 <= j < |es| ensures es[j].kind != Svg && es[j].kind != Config {
      assert kinds[j] in kinds;
    }
  }

  /** The group built from the entries of a saved set has a file exactly for
      each saved role. */
  lemma SavedGroupFiles(folder: string, es: seq<Entry>, mapName: string, svg: string, coords: string, config: string)
    requires var kinds := SavedKinds(svg, coords, config);
             |es| == |kinds| && forall i :: 0 <= i < |es| ==> es[i].mapName == mapName && es[i].kind == kinds[i]
    ensures var files := GroupOf(folder, es, mapName).files;
            (files.svg.Some? <==> svg != "") && (files.coords.Some? <==> coords != "")
            && (files.config.Some? <==> config != "") && files.unknown == None
  {
    var kinds := SavedKinds(svg, coords, config);
    LastFileOfKinds(es, mapName, kinds, Svg);
    LastFileOfKinds(es, mapName, kinds, Coords);
    LastFileOfKinds(es, mapName, kinds, Config);
    LastFileOfKinds(es, mapName, kinds, Unknown);
  }

  /** The listing entries of the files `saveMapSet` wrote: one per saved role, in order. */
  lemma SavedListingEntries(mapName: string, location: string, svg: string, coords: string, config: string,
                            items: seq<FileItem>)
    requires var ws := SaveMapSet(mapName, location, svg, coords, config);
             |items| == |ws| && forall i :: 0 <= i < |items| ==> IsFile(items[i]) && items[i].name == ws[i].path.fileName
    ensures var kinds := SavedKinds(svg, coords, config);
            var es := Entries(items);
            |es| == |kinds| && forall i :: 0 <= i < |es| ==> es[i].mapName == mapName && es[i].kind == kinds[i]
  {
    var kinds := SavedKinds(svg, coords, config);
    forall i | 0 <= i < |items| ensures EntryOf(items[i]).mapName == mapName && EntryOf(items[i]).kind == kinds[i] {
      assert kinds[i] in kinds;
      ClassifyFileNameFor(mapName, kinds[i]);
    }
  }

  lemma LastFileOfKinds(es: seq<Entry>, mapName: string, kinds: seq<FileKind>, kind: FileKind)
    requires |es| == |kinds| && forall i :: 0 <= i < |es| ==> es[i].mapName == mapName && es[i].kind == kinds[i]
    ensures LastFile(es, mapName, kind).Some? <==> kind in kinds
  {
    LastFileSpec(es, mapName, kind);
    if kind in kinds {
      var i :| 0 <= i < |kinds| && kinds[i] == kind;
      assert es[i].kind == kind;
    }
  }

  /** Entries that all carry the same map name and include an SVG or
      configuration entry (at index `i`) list as that one map set. */
  lemma ListSingleName(folder: string, es: seq<Entry>, mapName: string, i: nat)
    requires forall j :: 0 <= j < |es| ==> es[j].mapName == mapName
    requires i < |es| && (es[i].kind == Svg || es[i].kind == Config)
    ensures Filter(Listed, GroupsOf(folder, es, Dedup(Names(es)))) == [GroupOf(folder, es, mapName)]
  {
    var names := Names(es);
    var d := Dedup(names);
    var gs := GroupsOf(folder, es, d);
    assert forall n :: n in names ==> n == mapName;
    DedupConstant(names, mapName);
    LastFileSpec(es, mapName, es[i].kind);
    assert gs == [GroupOf(folder, es, mapName)];
    assert Filter(Listed, gs) == [gs[0]] + Filter(Listed, gs[1..]);
  }

  /** Entries without any SVG or configuration entry list nothing. */
  lemma ListNoMainFile(folder: string, es: seq<Entry>, mapName: string)
    requires forall j :: 0 <= j < |es| ==> es[j].kind != Svg && es[j].kind != Config
    ensures Filter(Listed, GroupsOf(folder, es, Dedup(Names(es)))) == []
  {
    var gs := GroupsOf(folder, es, Dedup(Names(es)));
    forall g | g in gs ensures !Listed(g) {
      LastFileSpec(es, g.name, Svg);
      LastFileSpec(es, g.name, Config);
    }
    FilterNone(Listed, gs);
  }

  /** `room.location || 'unknown'`. */
  function LocationKey(room: MapDb.Room): string {
    if MapDb.HasLocation(room) then room.location.value else "unknown"
  }

  function LocationKeys(rooms: seq<MapDb.Room>): (keys: seq<string>)
    ensures |keys| == |rooms|
    ensures forall i :: 0 <= i < |rooms| ==> keys[i] == LocationKey(rooms[i])
  {
    seq(|rooms|, i requires 0 <= i < |rooms| => LocationKey(rooms[i]))
  }

  /** The `locationCounts` object: `counts[loc] = (counts[loc] || 0) + 1` per room. */
  function CountLocations(keys: seq<string>): (counts: OrderedMap<string, nat>)
    ensures Valid(counts)
    decreases |keys|
  {
    if keys == [] then []
    else
      var counts := CountLocations(keys[..|keys| - 1]);
      var loc := keys[|keys| - 1];
      Set(counts, loc, Get(counts, loc).GetOr(0) + 1)
  }

  /** The locations are listed in the order they first occur. */
  lemma {:induction false} CountLocationsKeys(keys: seq<string>)
    ensures Keys(CountLocations(keys)) == Dedup(keys)
    decreases |keys|
  {
    if keys != [] {
      var counts := CountLocations(keys[..|keys| - 1]);
      CountLocationsKeys(keys[..|keys| - 1]);
      SetKeysDedupLast(counts, keys, Get(counts, keys[|keys| - 1]).GetOr(0) + 1);
    }
  }

  /** The number of times `loc` occurs in `keys`, or `None` when it does not occur. */
  function Occurrences(keys: seq<string>, loc: string): Option<nat> {
    if loc in keys then Some(multiset(keys)[loc]) else None
  }

  /** Each location is counted once per room. */
  lemma CountLocationsCounts(keys: seq<string>)
    ensures forall loc :: Get(CountLocations(keys), loc) == Occurrences(keys, loc)
  {
    forall loc ensures Get(CountLocations(keys), loc) == Occurrences(keys, loc) {
      CountLocationsCount(keys, loc);
    }
  }

  /** `CountLocationsCounts` for one location. */
  lemma {:induction false} CountLocationsCount(keys: seq<string>, loc: string)
    ensures Get(CountLocations(keys), loc) == Occurrences(keys, loc)
    decreases |keys|
  {
    if keys != [] {
      var init, last := keys[..|keys| - 1], keys[|keys| - 1];
      var counts := CountLocations(init);
      var next := Set(counts, last, Get(counts, last).GetOr(0) + 1);
      assert CountLocations(keys) == next;
      assert Get(next, loc) == Occurrences(keys, loc) by {
        CountLocationsCount(init, loc);
        CountLocationsCount(init, last);
        SplitLast(keys);
        CountStepAt(counts, init, last, keys, loc);
      }
    }
  }

  lemma CountStepAt(counts: OrderedMap<string, nat>, init: seq<string>, last: string, keys: seq<string>, loc: string)
    requires keys == init + [last]
    requires Get(counts, loc) == Occurrences(init, loc) && Get(counts, last) == Occurrences(init, last)
    ensures Get(Set(counts, last, Get(counts, last).GetOr(0) + 1), loc) == Occurrences(keys, loc)
  {
    OccurrencesStep(init, last, keys);
  }

  /** Appending a location counts it once more and leaves the others alone. */
  lemma OccurrencesStep(init: seq<string>, last: string, keys: seq<string>)
    requires keys == init + [last]
    ensures Occurrences(keys, last) == Some(Occurrences(init, last).GetOr(0) + 1)
    ensures forall loc :: loc != last ==> Occurrences(keys, loc) == Occurrences(init, loc)
  {
    assert multiset(keys) == multiset(init) + multiset{last};
    assert forall loc :: loc in keys <==> loc in init || loc == last;
  }

  /** The `for ... of Object.entries(locationCounts)` loop: starting from
      (`custom`, 0), an entry replaces the best so far only when its count is
      strictly greater. */
  function PickPrimary(entries: seq<(string, nat)>): (best: (string, nat))
    ensures forall i :: 0 <= i < |entries| ==> entries[i].1 <= best.1
    ensures best.1 == 0 ==> best == ("custom", 0)
    ensures best.1 > 0 ==> exists k :: 0 <= k < |entries| && entries[k] == best
                                       && forall i :: 0 <= i < k ==> entries[i].1 < best.1
    decreases |entries|
  {
    if entries == [] then ("custom", 0)
    else
      var init, last := entries[..|entries| - 1], entries[|entries| - 1];
      var best := PickPrimary(init);
      assert forall i :: 0 <= i < |init| ==> entries[i] == init[i];
      if last.1 > best.1 then last else best
  }

  /** `[^a-z0-9]` after ASCII lower-casing becomes `_`. */
  function SlugChar(c: char): char {
    var l := LowerAscii(c);
    if 'a' <= l <= 'z' || '0' <= l <= '9' then l else '_'
  }

  predicate IsSlugChar(c: char) {
    'a' <= c <= 'z' || '0' <= c <= '9' || c == '_'
  }

  /** `s.toLowerCase().replace(/[^a-z0-9]/g, '_')` for ASCII letters. */
  function Slug(s: string): (r: string)
    ensures |r| == |s|
    ensures forall i :: 0 <= i < |r| ==> IsSlugChar(r[i])
    ensures forall i :: 0 <= i < |s| && ('a' <= s[i] <= 'z' || '0' <= s[i] <= '9') ==> r[i] == s[i]
    ensures forall i :: 0 <= i < |s| && 'A' <= s[i] <= 'Z' ==> r[i] as int == s[i] as int + 32
    ensures forall i :: 0 <= i < |s| && !('a' <= s[i] <= 'z' || 'A' <= s[i] <= 'Z' || '0' <= s[i] <= '9') ==> r[i] == '_'
  {
    seq(|s|, i requires 0 <= i < |s| => SlugChar(s[i]))
  }

  /** A slug is its own slug. */
  lemma SlugIdempotent(s: string)
    ensures Slug(Slug(s)) == Slug(s)
  {
    var r := Slug(s);
    assert forall i :: 0 <= i < |r| ==> Slug(r)[i] == r[i];
  }

  /** `detectLocationFromRooms`: `custom` for a missing or empty selection,
      otherwise the slug of the location most rooms share. */
  function DetectLocationFromRooms(rooms: Option<seq<MapDb.Room>>): (r: string)
    ensures rooms.None? || rooms.value == [] ==> r == "custom"
    ensures forall i :: 0 <= i < |r| ==> IsSlugChar(r[i])
  {
    if rooms.None? || rooms.value == [] then "custom"
    else Slug(PickPrimary(CountLocations(LocationKeys(rooms.value))).0)
  }

  /** `loc` occurs in `keys` at least as often as any other location, and
      strictly more often than every location that first occurs before it. */
  predicate IsPrimary(keys: seq<string>, loc: string) {
    && loc in keys
    && (forall other :: other in keys ==> multiset(keys)[other] <= multiset(keys)[loc])
    && (forall other :: other in keys && FirstIndex(keys, other) < FirstIndex(keys, loc) ==>
          multiset(keys)[other] < multiset(keys)[loc])
  }

  /** For a non-empty selection the result is the slug of the most frequent
      location; ties go to the location seen first. */
  lemma DetectLocationMostFrequent(rooms: seq<MapDb.Room>)
    requires rooms != []
    ensures exists loc :: IsPrimary(LocationKeys(rooms), loc) && DetectLocationFromRooms(Some(rooms)) == Slug(loc)
  {
    var keys := LocationKeys(rooms);
    var loc := PickPrimary(CountLocations(keys)).0;
    PickPrimaryIsPrimary(keys);
    assert DetectLocationFromRooms(Some(rooms)) == Slug(loc);
  }

  /** The location picked from the counts of a non-empty key list is the most
      frequent one, the earliest among equals. */
  lemma PickPrimaryIsPrimary(keys: seq<string>)
    requires keys != []
    ensures IsPrimary(keys, PickPrimary(CountLocations(keys)).0)
  {
    var counts := CountLocations(keys);
    CountEntries(keys);
    var best := PickPrimary(counts);
    FirstCountPositive(keys, counts);
    var k :| 0 <= k < |counts| && counts[k] == best && forall i :: 0 <= i < k ==> counts[i].1 < best.1;
    MostFrequentFirst(keys, counts, k);
  }

  lemma FirstCountPositive(keys: seq<string>, counts: seq<(string, nat)>)
    requires keys != [] && |counts| == |Dedup(keys)|
    requires forall j :: 0 <= j < |counts| ==> counts[j].0 == Dedup(keys)[j] && counts[j].1 == multiset(keys)[counts[j].0]
    ensures counts != [] && counts[0].1 > 0
  {
    assert keys[0] in Dedup(keys);
    assert Dedup(keys)[0] in Dedup(keys);
  }

  /** The entries of the count map: each distinct location with its number of
      occurrences, in first-occurrence order. */
  lemma CountEntries(keys: seq<string>)
    ensures var counts := CountLocations(keys);
            |counts| == |Dedup(keys)|
            && forall j :: 0 <= j < |counts| ==> counts[j].0 == Dedup(keys)[j] && counts[j].1 == multiset(keys)[counts[j].0]
  {
    var counts := CountLocations(keys);
    CountLocationsKeys(keys);
    CountLocationsCounts(keys);
    forall j | 0 <= j < |counts| ensures counts[j].0 == Dedup(keys)[j] && counts[j].1 == multiset(keys)[counts[j].0] {
      GetEntry(counts, j);
      assert Keys(counts)[j] == counts[j].0;
      assert counts[j].0 in Dedup(keys);
    }
  }

  lemma MostFrequentFirst(keys: seq<string>, counts: seq<(string, nat)>, k: nat)
    requires |counts| == |Dedup(keys)|
    requires forall j :: 0 <= j < |counts| ==> counts[j].0 == Dedup(keys)[j] && counts[j].1 == multiset(keys)[counts[j].0]
    requires k < |counts| && forall i :: 0 <= i < |counts| ==> counts[i].1 <= counts[k].1
    requires forall i :: 0 <= i < k ==> counts[i].1 < counts[k].1
    ensures IsPrimary(keys, counts[k].0)
  {
    var d := Dedup(keys);
    assert forall i :: 0 <= i < |d| ==> multiset(keys)[d[i]] <= multiset(keys)[d[k]] by {
      forall i | 0 <= i < |d| ensures multiset(keys)[d[i]] <= multiset(keys)[d[k]] {
        assert counts[i].1 <= counts[k].1;
      }
    }
    assert forall i :: 0 <= i < k ==> multiset(keys)[d[i]] < multiset(keys)[d[k]] by {
      forall i | 0 <= i < k ensures multiset(keys)[d[i]] < multiset(keys)[d[k]] {
        assert counts[i].1 < counts[k].1;
      }
    }
    assert d[k] in d;
    forall other | other in keys
      ensures multiset(keys)[other] <= multiset(keys)[d[k]]
      ensures FirstIndex(keys, other) < FirstIndex(keys, d[k]) ==> multiset(keys)[other] < multiset(keys)[d[k]]
    {
      assert other in d;
      var j :| 0 <= j < |d| && d[j] == other;
      PrimaryAt(keys, k, j);
    }
  }

  /** The `j`-th distinct location compared with the `k`-th, which beats
      every distinct location before it and is beaten by none. */
  lemma PrimaryAt(keys: seq<string>, k: nat, j: nat)
    requires k < |Dedup(keys)| && j < |Dedup(keys)|
    requires multiset(keys)[Dedup(keys)[j]] <= multiset(keys)[Dedup(keys)[k]]
    requires j < k ==> multiset(keys)[Dedup(keys)[j]] < multiset(keys)[Dedup(keys)[k]]
    ensures FirstIndex(keys, Dedup(keys)[j]) < FirstIndex(keys, Dedup(keys)[k]) ==>
              multiset(keys)[Dedup(keys)[j]] < multiset(keys)[Dedup(keys)[k]]
  {
    if k < j {
      DedupOrderAt(keys, k, j);
    }
  }

  /** The owner used when the page is not served from `<user>.github.io`. */
  const DefaultOwner: string := "elanthia-online"

  /** `detectRepoOwner`: on a host containing `github.io` whose second
      dot-separated label is `github`, the first label; otherwise the default. */
  function DetectRepoOwner(hostname: string): (owner: string)
    ensures !Contains(hostname, "github.io") ==> owner == DefaultOwner
    ensures owner != DefaultOwner ==> '.' !in owner && owner + ".github." <= hostname
    ensures Contains(hostname, "github.io") && |Split(hostname, '.')| >= 3 && Split(hostname, '.')[1] == "github"
            ==> owner == Split(hostname, '.')[0]
    ensures !(Contains(hostname, "github.io") && |Split(hostname, '.')| >= 3 && Split(hostname, '.')[1] == "github")
            ==> owner == DefaultOwner
  {
    if Contains(hostname, "github.io") then
      var parts := Split(hostname, '.');
      if |parts| >= 3 && parts[1] == "github" then
        OwnerLabel(hostname);
        parts[0]
      else DefaultOwner
    else DefaultOwner
  }

  /** The owner label precedes `.github.` and holds no dot. */
  lemma OwnerLabel(hostname: string)
    requires var parts := Split(hostname, '.'); |parts| >= 3 && parts[1] == "github"
    ensures var owner := Split(hostname, '.')[0]; '.' !in owner && owner + ".github." <= hostname
  {
    var parts := Split(hostname, '.');
    var owner := parts[0];
    assert '.' !in owner by { SplitPieces(hostname, '.'); }
    assert owner + ['.'] + parts[1] + ['.'] <= hostname by { SplitFirstTwo(hostname, '.'); }
    assert owner + ['.'] + parts[1] + ['.'] == owner + ".github." by {
      assert ".github." == ['.'] + "github" + ['.'];
    }
  }

  /** The first two pieces of a split into three or more, each followed by the separator, begin the text. */
  lemma SplitFirstTwo(s: string, sep: char)
    requires |Split(s, sep)| >= 3
    ensures Split(s, sep)[0] + [sep] + Split(s, sep)[1] + [sep] <= s
  {
    var k := FirstIndex(s, sep);
    var rest := s[k + 1..];
    SplitUnfold(s, sep);
    assert sep in rest;
    var k2 := FirstIndex(rest, sep);
    SplitUnfold(rest, sep);
    TwoPiecesPrefix(s, sep, k, k2);
  }

  lemma TwoPiecesPrefix(s: string, sep: char, k: nat, k2: nat)
    requires k + k2 + 2 <= |s| && s[k] == sep && s[k + 1 + k2] == sep
    ensures s[..k] + [sep] + s[k + 1..][..k2] + [sep] <= s
  {
    var t := s[..k] + [sep] + s[k + 1..][..k2] + [sep];
    assert |t| == k + k2 + 2;
    forall i | 0 <= i < |t| ensures t[i] == s[i] {
      if i < k {
      } else if i == k {
      } else if i < k + 1 + k2 {
        assert t[i] == s[k + 1..][..k2][i - k - 1];
      }
    }
  }

  /** On `<user>.github.io` the owner is `user`. */
  lemma OwnerOfPagesHost(user: string)
    requires '.' !in user
    ensures DetectRepoOwner(user + ".github.io") == user
  {
    var host := user + ".github.io";
    assert Contains(host, "github.io") by {
      assert host == (user + ".") + "github.io" + [];
      ContainsInfix(user + ".", "github.io", []);
    }
    assert Split(host, '.') == [user, "github", "io"] by {
      SplitPagesHost(user);
    }
  }

  lemma SplitPagesHost(user: string)
    requires '.' !in user
    ensures Split(user + ".github.io", '.') == [user, "github", "io"]
  {
    assert user + ".github.io" == user + ['.'] + "github.io";
    SplitAtFirst(user, '.', "github.io");
    SplitPagesSuffix();
  }

  lemma SplitPagesSuffix()
    ensures Split("github.io", '.') == ["github", "io"]
  {
    var a, b := "github", "io";
    assert '.' !in a && '.' !in b;
    assert "github.io" == a + ['.'] + b;
    SplitTwo(a, '.', b);
  }

  const CallbackPath: string := "/auth/callback"

  /** `getRedirectUri`: the page address without one trailing `/`, followed by `/auth/callback`. */
  function GetRedirectUri(origin: string, pathname: string): (uri: string)
    ensures EndsWith(uri, CallbackPath)
    ensures var base, stem := origin + pathname, uri[..|uri| - |CallbackPath|];
            stem <= base && (|stem| == |base| - 1 <==> EndsWith(base, "/")) && (|stem| == |base| <==> !EndsWith(base, "/"))
  {
    var base := origin + pathname;
    var stem := if EndsWith(base, "/") then base[..|base| - 1] else base;
    assert (stem + CallbackPath)[..|stem|] == stem;
    stem + CallbackPath
  }

  /** One trailing `/` on the page path does not change the redirect address. */
  lemma RedirectIgnoresTrailingSlash(origin: string, pathname: string)
    requires !EndsWith(origin + pathname, "/")
    ensures GetRedirectUri(origin, pathname + "/") == GetRedirectUri(origin, pathname)
  {
    var base := origin + pathname;
    assert origin + (pathname + "/") == base + "/";
    assert (base + "/")[..|base|] == base;
  }
}

=== FILE: group_offsets.dfy ===
/** The per-group offset maps of js/map-generator.js and the edit handlers of
    their number inputs: the group offsets (clamped to 100 either way) and the
    group-label offsets (clamped to 50 either way). Maps are keyed by group
    index in insertion order. */
module GroupOffsets {
  import opened Common
  import opened JsText
  import opened OrderedMaps

  /** An `{ x, y }` offset record. */
  datatype Offset = Offset(x: int, y: int)

  const Zero: Offset := Offset(0, 0)

  /** Which number input changed: the x one or the y one. */
  datatype Axis = X | Y

  const GroupOffsetLimit: nat := 100
  const LabelOffsetLimit: nat := 50

  /** `Math.max(-(limit as int), Math.min(limit, value))`. */
  function Clamp(value: int, limit: nat): (c: int)
    ensures -(limit as int) <= c <= limit
    ensures -(limit as int) <= value <= limit ==> c == value
    ensures value > limit ==> c == limit
    ensures value < -(limit as int) ==> c == -(limit as int)
  {
    if value > limit then limit else if value < -(limit as int) then -(limit as int) else value
  }

  /** `parseInt(input.value) || 0`: NaN and 0 both give 0. */
  function InputValue(text: string): (v: int)
    ensures ParseInt(text).None? ==> v == 0
    ensures ParseInt(text).Some? ==> v == ParseInt(text).value
  {
    ParseInt(text).GetOr(0)
  }

  /** The record with one axis replaced. */
  function WithAxis(o: Offset, axis: Axis, v: int): Offset {
    match axis
    case X => o.(x := v)
    case Y => o.(y := v)
  }

  function AxisOf(o: Offset, axis: Axis): int {
    match axis
    case X => o.x
    case Y => o.y
  }

  /** A `change` handler: the typed value, clamped, is written back to the
      input and stored on one axis of the group's record, which is first
      created as (0, 0) when the group has none. Returns the new map and the
      value shown in the input. */
  function EditOffset(offsets: OrderedMap<int, Offset>, group: int, axis: Axis, text: string, limit: nat)
    : (r: (OrderedMap<int, Offset>, int))
    ensures r.1 == Clamp(InputValue(text), limit)
    ensures Get(r.0, group).Some?
    ensures AxisOf(Get(r.0, group).value, axis) == r.1
    ensures Get(offsets, group).Some? ==> Get(r.0, group).value == WithAxis(Get(offsets, group).value, axis, r.1)
    ensures Get(offsets, group).None? ==> Get(r.0, group).value == WithAxis(Zero, axis, r.1)
    ensures forall g :: g != group ==> Get(r.0, g) == Get(offsets, g)
    ensures forall g :: Has(r.0, g) <==> Has(offsets, g) || g == group
    ensures Has(offsets, group) ==> Keys(r.0) == Keys(offsets)
    ensures Valid(offsets) ==> Valid(r.0)
  {
    var v := Clamp(InputValue(text), limit);
    var current := Get(offsets, group).GetOr(Zero);
    var m := Set(offsets, group, WithAxis(current, axis, v));
    (m, v)
  }

  /** The group-offset number inputs. */
  function EditGroupOffset(offsets: OrderedMap<int, Offset>, group: int, axis: Axis, text: string)
    : (r: (OrderedMap<int, Offset>, int))
    ensures -100 <= r.1 <= 100
  {
    EditOffset(offsets, group, axis, text, GroupOffsetLimit)
  }

  /** The label-offset number inputs. */
  function EditLabelOffset(offsets: OrderedMap<int, Offset>, group: int, axis: Axis, text: string)
    : (r: (OrderedMap<int, Offset>, int))
    ensures -50 <= r.1 <= 50
  {
    EditOffset(offsets, group, axis, text, LabelOffsetLimit)
  }

  /** Every stored offset lies within `limit` on both axes. */
  ghost predicate InBounds(offsets: OrderedMap<int, Offset>, limit: nat) {
    forall g, o :: Get(offsets, g) == Some(o) ==> -(limit as int) <= o.x <= limit && -(limit as int) <= o.y <= limit
  }

  /** Edits through the inputs keep every offset within the input's range. */
  lemma EditKeepsInBounds(offsets: OrderedMap<int, Offset>, group: int, axis: Axis, text: string, limit: nat)
    requires InBounds(offsets, limit)
    ensures InBounds(EditOffset(offsets, group, axis, text, limit).0, limit)
  {
    var r := EditOffset(offsets, group, axis, text, limit).0;
    forall g, o | Get(r, g) == Some(o) ensures -(limit as int) <= o.x <= limit && -(limit as int) <= o.y <= limit {
      if g == group {
        var prior := Get(offsets, group).GetOr(Zero);
        assert Get(offsets, group).Some? ==> Get(offsets, group) == Some(prior);
      }
    }
  }

  /** Entering the same text twice stores the same as entering it once. */
  lemma EditIdempotent(offsets: OrderedMap<int, Offset>, group: int, axis: Axis, text: string, limit: nat)
    requires Valid(offsets)
    ensures var once := EditOffset(offsets, group, axis, text, limit);
            EditOffset(once.0, group, axis, text, limit) == once
  {
    var once := EditOffset(offsets, group, axis, text, limit);
    var v := once.1;
    var o := Get(once.0, group).value;
    assert WithAxis(o, axis, v) == o;
    SetUnchanged(once.0, group, o);
  }

  /** Editing the other axis afterwards keeps the value of the first edit. */
  lemma EditAxesIndependent(offsets: OrderedMap<int, Offset>, group: int, text: string, text2: string, limit: nat)
    ensures var (m1, vx) := EditOffset(offsets, group, X, text, limit);
            var (m2, vy) := EditOffset(m1, group, Y, text2, limit);
            Get(m2, group) == Some(Offset(vx, vy))
  {
  }
}

=== FILE: js_text.dfy ===
/** The JavaScript string built-ins the application relies on, over `seq<char>`:
    `trim`, `split` on one character, `includes`, `endsWith`, `parseInt`
    (radix left undefined), `Number` to decimal text and ASCII lower-casing. */
module JsText {
  import opened Common

  /** The characters `trim` and `parseInt` skip: ECMAScript WhiteSpace and LineTerminator. */
  predicate IsWhiteSpace(c: char) {
    c in {'\t', '\n', '\U{000B}', '\U{000C}', '\r', ' ', '\U{00A0}', '\U{1680}',
          '\U{2028}', '\U{2029}', '\U{202F}', '\U{205F}', '\U{3000}', '\U{FEFF}'}
    || ('\U{2000}' <= c <= '\U{200A}')
  }

  /** `s` without its leading white space. */
  function TrimStart(s: string): (r: string)
    ensures |r| <= |s| && r == s[|s| - |r|..]
    ensures forall i :: 0 <= i < |s| - |r| ==> IsWhiteSpace(s[i])
    ensures r == [] || !IsWhiteSpace(r[0])
  {
    if s != [] && IsWhiteSpace(s[0]) then TrimStart(s[1..]) else s
  }

  /** `s` without its trailing white space. */
  function TrimEnd(s: string): (r: string)
    ensures |r| <= |s| && r == s[..|r|]
    ensures forall i :: |r| <= i < |s| ==> IsWhiteSpace(s[i])
    ensures r == [] || !IsWhiteSpace(r[|r| - 1])
  {
    if s != [] && IsWhiteSpace(s[|s| - 1]) then TrimEnd(s[..|s| - 1]) else s
  }

  /** `String.prototype.trim`. */
  function Trim(s: string): (r: string)
    ensures |r| <= |s|
    ensures r == [] || (!IsWhiteSpace(r[0]) && !IsWhiteSpace(r[|r| - 1]))
    ensures r == [] <==> forall i :: 0 <= i < |s| ==> IsWhiteSpace(s[i])
  {
    var t := TrimStart(s);
    var r := TrimEnd(t);
    assert r == [] ==> t == [];
    assert r != [] ==> !IsWhiteSpace(s[|s| - |t|]);
    r
  }

  /** The trimmed text is a contiguous slice of the text, starting at `k`. */
  lemma TrimSlice(s: string) returns (k: nat)
    ensures k <= |s| - |Trim(s)| && Trim(s) == s[k..][..|Trim(s)|]
  {
    var t := TrimStart(s);
    k := |s| - |t|;
    assert Trim(s) == TrimEnd(t);
  }

  /** Trimming adds no character. */
  lemma TrimKeepsOut(s: string, c: char)
    requires c !in s
    ensures c !in Trim(s)
  {
    var r := Trim(s);
    var k := TrimSlice(s);
    forall i | 0 <= i < |r| ensures r[i] != c {
      assert r[i] == s[k + i];
    }
  }

  predicate IsDecimalDigit(c: char) {
    '0' <= c <= '9'
  }

  /** The value of `c` as a digit in any radix up to 36; 36 for a non-digit. */
  function DigitValue(c: char): (v: nat)
    ensures v <= 36
    ensures v < 10 <==> IsDecimalDigit(c)
  {
    if '0' <= c <= '9' then c as int - '0' as int
    else if 'a' <= c <= 'z' then c as int - 'a' as int + 10
    else if 'A' <= c <= 'Z' then c as int - 'A' as int + 10
    else 36
  }

  /** The longest prefix of `s` made of digits of the given radix. */
  function DigitPrefix(s: string, radix: nat): (r: string)
    ensures r <= s
    ensures forall i :: 0 <= i < |r| ==> DigitValue(r[i]) < radix
    ensures |r| < |s| ==> DigitValue(s[|r|]) >= radix
  {
    if s != [] && DigitValue(s[0]) < radix then [s[0]] + DigitPrefix(s[1..], radix) else []
  }

  /** The number a run of digits denotes in the given radix. */
  function DigitsValue(ds: string, radix: nat): (v: nat)
    decreases |ds|
  {
    if ds == [] then 0
    else DigitsValue(ds[..|ds| - 1], radix) * radix + DigitValue(ds[|ds| - 1])
  }

  /** `parseInt(s)` with no radix argument: leading white space is skipped, one
      `+` or `-` sign is accepted, and the rest is read by `ParseUnsigned`.
      `None` stands for `NaN`. */
  function ParseInt(s: string): (r: Option<int>)
    ensures r.Some? && '-' !in s ==> r.value >= 0
    ensures (forall i :: 0 <= i < |s| ==> !IsDecimalDigit(s[i])) ==> r == None
  {
    var t := TrimStart(s);
    if |t| > 0 && t[0] == '-' then
      assert s[|s| - |t|] == '-';
      Negate(ParseUnsigned(t[1..]))
    else if |t| > 0 && t[0] == '+' then
      assert t[1..] == s[|s| - |t| + 1..];
      ParseUnsigned(t[1..])
    else
      ParseUnsigned(t)
  }

  function Negate(n: Option<nat>): Option<int> {
    match n
    case None => None
    case Some(v) => Some(-(v as int))
  }

  /** The unsigned part of `parseInt`: a `0x`/`0X` prefix selects radix 16,
      otherwise radix 10, and the longest run of digits that follows is read;
      no digits at all is `NaN`. */
  function ParseUnsigned(u: string): (r: Option<nat>)
    ensures (forall i :: 0 <= i < |u| ==> !IsDecimalDigit(u[i])) ==> r == None
  {
    var hex := |u| >= 2 && u[0] == '0' && (u[1] == 'x' || u[1] == 'X');
    var radix := if hex then 16 else 10;
    var digits := DigitPrefix(if hex then u[2..] else u, radix);
    if digits == [] then None
    else
      assert !hex ==> DigitValue(u[0]) < 10;
      Some(DigitsValue(digits, radix))
  }

  /** JavaScript truthiness of a `parseInt` result: `NaN` and `0` are falsy. */
  predicate Truthy(n: Option<int>) {
    n.Some? && n.value != 0
  }

  /** The decimal digit for `d`. */
  function DigitChar(d: nat): (c: char)
    requires d < 10
    ensures IsDecimalDigit(c) && DigitValue(c) == d
  {
    ('0' as int + d) as char
  }

  /** `String(n)` for a non-negative integer: its decimal digits, no leading zero. */
  function DecimalString(n: nat): (r: string)
    ensures r != []
    ensures forall i :: 0 <= i < |r| ==> IsDecimalDigit(r[i])
    ensures r[0] == '0' ==> n == 0
  {
    if n < 10 then [DigitChar(n)] else DecimalString(n / 10) + [DigitChar(n % 10)]
  }

  /** `String(n)` for any integer: a minus sign before the digits of a
      negative number. */
  function NumberString(n: int): (r: string)
    ensures n >= 0 ==> r == DecimalString(n)
    ensures n < 0 ==> r == "-" + DecimalString(-n)
  {
    if n >= 0 then DecimalString(n) else "-" + DecimalString(-n)
  }

  /** Reading back the decimal text of `n` gives `n`. */
  lemma {:induction false} DecimalStringValue(n: nat)
    ensures DigitsValue(DecimalString(n), 10) == n
    decreases n
  {
    if n >= 10 {
      var r := DecimalString(n);
      assert r[..|r| - 1] == DecimalString(n / 10);
      DecimalStringValue(n / 10);
    }
  }

  lemma {:induction false} DigitPrefixOfDigits(ds: string, rest: string, radix: nat)
    requires forall i :: 0 <= i < |ds| ==> DigitValue(ds[i]) < radix
    requires rest == [] || DigitValue(rest[0]) >= radix
    ensures DigitPrefix(ds + rest, radix) == ds
    decreases |ds|
  {
    if ds == [] {
      assert ds + rest == rest;
    } else {
      assert (ds + rest)[1..] == ds[1..] + rest;
      DigitPrefixOfDigits(ds[1..], rest, radix);
    }
  }

  /** `parseInt` reads back the decimal text of any non-negative integer, whatever
      non-digit text follows it: `parseInt(String(n) + rest) === n`. */
  lemma ParseIntOfDecimal(n: nat, rest: string)
    requires rest == [] || (!IsDecimalDigit(rest[0]) && rest[0] != 'x' && rest[0] != 'X')
    ensures ParseInt(DecimalString(n) + rest) == Some(n as int)
  {
    var d := DecimalString(n);
    var s := d + rest;
    assert IsDecimalDigit(s[0]) by { assert s[0] == d[0]; }
    assert TrimStart(s) == s by { DigitStartsNoTrim(s); }
    assert ParseInt(s) == ParseUnsigned(s);
    ParseUnsignedOfDecimal(n, rest);
  }

  /** A string that starts with a digit has no leading white space to trim. */
  lemma DigitStartsNoTrim(s: string)
    requires s != [] && IsDecimalDigit(s[0])
    ensures TrimStart(s) == s
  {
  }

  lemma ParseUnsignedOfDecimal(n: nat, rest: string)
    requires rest == [] || (!IsDecimalDigit(rest[0]) && rest[0] != 'x' && rest[0] != 'X')
    ensures ParseUnsigned(DecimalString(n) + rest) == Some(n)
  {
    var d := DecimalString(n);
    var s := d + rest;
    assert !(|s| >= 2 && s[0] == '0' && (s[1] == 'x' || s[1] == 'X')) by {
      if |s| >= 2 && s[0] == '0' {
        assert |d| == 1;
        assert s[1] == rest[0];
      }
    }
    DigitPrefixOfDigits(d, rest, 10);
    DecimalStringValue(n);
  }

  /** `parseInt` skips leading white space. */
  lemma ParseIntSkipsWhiteSpace(ws: string, s: string)
    requires forall i :: 0 <= i < |ws| ==> IsWhiteSpace(ws[i])
    ensures ParseInt(ws + s) == ParseInt(s)
  {
    TrimStartSkips(ws, s);
  }

  lemma {:induction false} TrimStartSkips(ws: string, s: string)
    requires forall i :: 0 <= i < |ws| ==> IsWhiteSpace(ws[i])
    ensures TrimStart(ws + s) == TrimStart(s)
    decreases |ws|
  {
    if ws == [] {
      assert ws + s == s;
    } else {
      assert (ws + s)[1..] == ws[1..] + s;
      TrimStartSkips(ws[1..], s);
    }
  }

  /** A leading `-` negates what `parseInt` reads. */
  lemma ParseIntNegative(n: nat)
    ensures ParseInt("-" + DecimalString(n)) == Some(-(n as int))
  {
    var d := DecimalString(n);
    var s := "-" + d;
    assert s[0] == '-';
    assert TrimStart(s) == s;
    assert s[1..] == d + [];
    ParseUnsignedOfDecimal(n, []);
    assert ParseUnsigned(s[1..]) == Some(n);
  }

  /** `String.prototype.split` on a one-character separator. */
  function Split(s: string, sep: char): (parts: seq<string>)
    ensures |parts| >= 1
    decreases |s|
  {
    if sep !in s then [s]
    else
      var k := FirstIndex(s, sep);
      [s[..k]] + Split(s[k + 1..], sep)
  }

  /** One step of `Split`: the text before the first separator, then the split of the rest. */
  lemma SplitUnfold(s: string, sep: char)
    requires sep in s
    ensures var k := FirstIndex(s, sep);
            Split(s, sep) == [s[..k]] + Split(s[k + 1..], sep)
  {
  }

  /** Joining the pieces of a split with the separator gives back the text. */
  lemma {:induction false} SplitJoin(s: string, sep: char)
    ensures Join(Split(s, sep), sep) == s
    decreases |s|
  {
    if sep in s {
      var k := FirstIndex(s, sep);
      var rest := s[k + 1..];
      var tail := Split(rest, sep);
      assert Split(s, sep) == [s[..k]] + tail by {
        SplitUnfold(s, sep);
      }
      assert Join(tail, sep) == rest by {
        SplitJoin(rest, sep);
      }
      assert Join([s[..k]] + tail, sep) == s[..k] + [sep] + rest by {
        JoinCons(s[..k], tail, sep);
      }
      assert s[..k] + [sep] + rest == s by {
        CutAt(s, k);
      }
    }
  }

  /** A text is the part before position `k`, the character there and the rest. */
  lemma CutAt(s: string, k: nat)
    requires k < |s|
    ensures s[..k] + [s[k]] + s[k + 1..] == s
  {
  }

  /** Joining a piece in front of a non-empty list of pieces. */
  lemma JoinCons(a: string, tail: seq<string>, sep: char)
    requires |tail| >= 1
    ensures Join([a] + tail, sep) == a + [sep] + Join(tail, sep)
  {
    assert ([a] + tail)[1..] == tail;
  }

  /** No piece of a split contains the separator. */
  lemma {:induction false} SplitPieces(s: string, sep: char)
    ensures forall i :: 0 <= i < |Split(s, sep)| ==> sep !in Split(s, sep)[i]
    decreases |s|
  {
    if sep in s {
      var k := FirstIndex(s, sep);
      SplitPieces(s[k + 1..], sep);
    }
  }

  lemma {:induction false} SplitConcat(a: string, sep: char, b: string)
    ensures Split(a + [sep] + b, sep) == Split(a, sep) + Split(b, sep)
    decreases |a|
  {
    if sep !in a {
      SplitAtFirst(a, sep, b);
    } else {
      var k := FirstIndex(a, sep);
      var head, tail := a[..k], a[k + 1..];
      SplitBeforeFirst(a, sep, b, k);
      SplitConcat(tail, sep, b);
      SplitUnfold(a, sep);
      ConsAppend(head, Split(tail, sep), Split(b, sep));
    }
  }

  /** A separator after a piece without one ends that piece. */
  lemma SplitAtFirst(a: string, sep: char, b: string)
    requires sep !in a
    ensures Split(a + [sep] + b, sep) == [a] + Split(b, sep)
  {
    var s := a + [sep] + b;
    assert s == a + ([sep] + b);
    FirstIndexOfPrefix(a, [sep] + b, sep);
    assert s[..|a|] == a && s[|a| + 1..] == b;
  }

  /** Two pieces without the separator, joined by it, split back into those two pieces. */
  lemma SplitTwo(a: string, sep: char, b: string)
    requires sep !in a && sep !in b
    ensures Split(a + [sep] + b, sep) == [a, b]
  {
    SplitAtFirst(a, sep, b);
  }

  /** The first separator of `a` is also the first of `a + [sep] + b`. */
  lemma SplitBeforeFirst(a: string, sep: char, b: string, k: nat)
    requires sep in a && k == FirstIndex(a, sep)
    ensures Split(a + [sep] + b, sep) == [a[..k]] + Split(a[k + 1..] + [sep] + b, sep)
  {
    var s := a + [sep] + b;
    assert s == a + ([sep] + b);
    FirstIndexOfPrefix(a, [sep] + b, sep);
    assert s[..k] == a[..k];
    assert s[k + 1..] == a[k + 1..] + [sep] + b;
  }

  /** `Array.prototype.join` with a one-character separator. */
  function Join(parts: seq<string>, sep: char): string
    requires |parts| >= 1
  {
    if |parts| == 1 then parts[0] else parts[0] + [sep] + Join(parts[1..], sep)
  }

  /** `s.includes(sub)`. */
  predicate Contains(s: string, sub: string)
    decreases |s|
  {
    sub <= s || (|s| > 0 && Contains(s[1..], sub))
  }

  lemma {:induction false} ContainsInfix(a: string, sub: string, b: string)
    ensures Contains(a + sub + b, sub)
    decreases |a|
  {
    if a == [] {
      assert a + sub + b == sub + b;
    } else {
      assert (a + sub + b)[1..] == a[1..] + sub + b;
      ContainsInfix(a[1..], sub, b);
    }
  }

  /** `s.endsWith(suffix)`. */
  predicate EndsWith(s: string, suffix: string) {
    |suffix| <= |s| && s[|s| - |suffix|..] == suffix
  }

  /** `toLowerCase` restricted to ASCII letters. */
  function LowerAscii(c: char): char {
    if 'A' <= c <= 'Z' then (c as int - 'A' as int + 'a' as int) as char else c
  }
}

=== FILE: map_config.dfy ===
/** The map configuration file of js/map-generator.js: `generateConfigForSave`
    records everything needed to redraw a map, and `restoreMapConfig` applies
    such a record to the editor. The file is modelled as the parsed value;
    a field the file lacks is `None`. The list of location options the
    drop-down offers is a parameter of the restore. */
module MapConfig {
  import opened Common
  import opened JsText
  import opened OrderedMaps
  import opened GroupOffsets
  import opened CrossGroup
  import opened EditorState

  const AppVersion: string := "1.0.0"
  const UnknownAuthor: string := "unknown"
  const LocationMethod: string := "location"
  const CustomMethod: string := "custom"

  datatype MetadataDoc = MetadataDoc(
    name: string, description: string, author: string, mapdbVersion: Option<string>, appVersion: string)

  /** `roomSelection`: the locations for the location method, the range text
      and its id type otherwise, and the exclusions when there are any. */
  datatype SelectionDoc = SelectionDoc(
    selectionMethod: string,
    locations: Option<seq<string>>,
    ranges: Option<string>,
    useUid: Option<bool>,
    exclusions: Option<string>,
    excludeUseUid: Option<bool>)

  datatype AppearanceDoc = AppearanceDoc(
    edgeLength: Option<int>, roomShape: Option<string>, roomSize: Option<int>,
    strokeWidth: Option<int>, connectionWidth: Option<int>)

  datatype ColorsDoc = ColorsDoc(
    default: Option<string>, background: Option<string>, connections: Option<string>,
    verticalConnections: Option<string>, tagColors: Option<seq<(string, string)>>)

  datatype DisplayDoc = DisplayDoc(
    showRoomIds: Option<bool>, showRoomNames: Option<bool>, showLabels: Option<bool>,
    showConnections: Option<bool>, showGroupLabels: Option<bool>)

  datatype FontDoc = FontDoc(size: Option<int>, color: Option<string>, family: Option<string>, bold: Option<bool>)

  datatype FontsDoc = FontsDoc(labels: Option<FontDoc>, rooms: Option<FontDoc>)

  /** `backgroundImage` is `None` for `null` as well as for a missing field. */
  datatype BackgroundDoc = BackgroundDoc(useBackground: Option<bool>, backgroundImage: Option<string>)

  datatype PositioningDoc = PositioningDoc(
    offsets: Option<seq<(int, Offset)>>, names: Option<seq<(int, string)>>, labelOffsets: Option<seq<(int, Offset)>>)

  datatype ConfigDoc = ConfigDoc(
    metadata: Option<MetadataDoc>,
    roomSelection: Option<SelectionDoc>,
    appearance: Option<AppearanceDoc>,
    colors: Option<ColorsDoc>,
    displayOptions: Option<DisplayDoc>,
    fonts: Option<FontsDoc>,
    backgroundSettings: Option<BackgroundDoc>,
    groupPositioning: Option<PositioningDoc>,
    crossGroupConnections: Option<seq<Connection>>,
    customLabels: Option<seq<CustomLabel>>)

  // ---------------------------------------------------------------- saving

  function SaveSelection(f: SelectionForm): SelectionDoc {
    var exclusions := Trim(f.excludeText);
    SelectionDoc(
      f.selectionMethod,
      if f.selectionMethod == LocationMethod then Some(f.selectedLocations) else None,
      if f.selectionMethod == LocationMethod then None else Some(Trim(f.rangeText)),
      if f.selectionMethod == LocationMethod then None else Some(f.useUid),
      if exclusions != "" then Some(exclusions) else None,
      if exclusions != "" then Some(f.excludeUseUid) else None)
  }

  function SaveFont(font: Font): FontDoc {
    FontDoc(Some(font.size), Some(font.color), Some(font.family), Some(font.bold))
  }

  /** `generateConfigForSave` (before `JSON.stringify`). `login` is the
      signed-in GitHub user, if any. */
  function GenerateConfigForSave(e: Editor, mapName: string, description: string, login: Option<string>,
                                 mapdbVersion: Option<string>): (doc: ConfigDoc)
  {
    var c := e.config;
    var d := e.display;
    ConfigDoc(
      Some(MetadataDoc(mapName, description, if login.Some? then login.value else UnknownAuthor, mapdbVersion, AppVersion)),
      Some(SaveSelection(e.selection)),
      Some(AppearanceDoc(Some(c.edgeLength), Some(c.roomShape), Some(c.roomSize), Some(c.strokeWidth), Some(c.connectionWidth))),
      Some(ColorsDoc(Some(c.colors.default), Some(c.colors.background), Some(c.colors.connections),
                     Some(c.colors.verticalConnections), Some(c.tagColors))),
      Some(DisplayDoc(Some(d.showRoomIds), Some(d.showRoomNames), Some(d.showLabels), Some(d.showConnections),
                      Some(d.showGroupLabels))),
      Some(FontsDoc(Some(SaveFont(c.labelFont)), Some(SaveFont(c.roomFont)))),
      Some(BackgroundDoc(Some(c.useBackground), c.backgroundImage)),
      Some(PositioningDoc(Some(e.groupOffsets), Some(e.groupNames), Some(e.labelOffsets))),
      Some(e.connections),
      Some(e.customLabels))
  }

  // ------------------------------------------------------------- restoring

  /** The location options, in the drop-down's order, that are among
      `wanted`: what marking each saved location as selected selects. */
  function SelectedOptions(options: seq<string>, wanted: seq<string>): (r: seq<string>)
    ensures forall o :: o in r <==> o in options && o in wanted
    ensures IsSubsequence(r, options)
  {
    if options == [] then []
    else
      var rest := SelectedOptions(options[1..], wanted);
      if options[0] in wanted then [options[0]] + rest
      else
        SubsequenceOfTail(rest, options);
        rest
  }

  /** The room-selection form after a restore. The method radio is set when
      the file names one of the two methods; the location options are
      selected exactly when the file lists them; range text and exclusions
      are copied when truthy and their id-type radios when present. */
  function RestoreSelection(f: SelectionForm, doc: SelectionDoc, options: seq<string>): (r: SelectionForm)
    ensures doc.selectionMethod == LocationMethod && doc.locations.Some? ==>
              forall o :: o in r.selectedLocations <==> o in options && o in doc.locations.value
    ensures doc.selectionMethod != LocationMethod ==> r.selectedLocations == f.selectedLocations
    ensures doc.selectionMethod != CustomMethod ==> r.rangeText == f.rangeText && r.useUid == f.useUid
    ensures !TruthyString(doc.exclusions) ==> r.excludeText == f.excludeText && r.excludeUseUid == f.excludeUseUid
  {
    var selectionMethod := if doc.selectionMethod in {LocationMethod, CustomMethod} then doc.selectionMethod else f.selectionMethod;
    var chosen :=
      if doc.selectionMethod == LocationMethod && doc.locations.Some? then
        SelectedOptions(options, doc.locations.value)
      else f.selectedLocations;
    var isCustom := doc.selectionMethod == CustomMethod;
    var rangeText := if isCustom && TruthyString(doc.ranges) then doc.ranges.value else f.rangeText;
    var useUid := if isCustom && doc.useUid.Some? then doc.useUid.value else f.useUid;
    var excluding := TruthyString(doc.exclusions);
    var excludeText := if excluding then doc.exclusions.value else f.excludeText;
    var excludeUseUid := if excluding && doc.excludeUseUid.Some? then doc.excludeUseUid.value else f.excludeUseUid;
    SelectionForm(selectionMethod, chosen, rangeText, useUid, excludeText, excludeUseUid)
  }

  /** Appearance values replace the current ones only when truthy. */
  function RestoreAppearance(c: Config, doc: AppearanceDoc): Config {
    c.(edgeLength := if TruthyNumber(doc.edgeLength) then doc.edgeLength.value else c.edgeLength,
       roomShape := if TruthyString(doc.roomShape) then doc.roomShape.value else c.roomShape,
       roomSize := if TruthyNumber(doc.roomSize) then doc.roomSize.value else c.roomSize,
       strokeWidth := if TruthyNumber(doc.strokeWidth) then doc.strokeWidth.value else c.strokeWidth,
       connectionWidth := if TruthyNumber(doc.connectionWidth) then doc.connectionWidth.value else c.connectionWidth)
  }

  /** Colours replace the current ones only when truthy; a tag-colour entry
      list, even an empty one, replaces the whole table. */
  function RestoreColors(c: Config, doc: ColorsDoc): Config {
    c.(colors := Colors(OrElseString(doc.default, c.colors.default),
                        OrElseString(doc.background, c.colors.background),
                        OrElseString(doc.connections, c.colors.connections),
                        OrElseString(doc.verticalConnections, c.colors.verticalConnections)),
       tagColors := if doc.tagColors.Some? then FromEntries(doc.tagColors.value) else c.tagColors)
  }

  /** The check boxes: room ids, labels and connections are on unless the
      file says `false`; room names and group labels are off unless it says
      `true`. */
  function RestoreDisplay(doc: DisplayDoc): (d: DisplayOptions)
    ensures d.showRoomIds <==> doc.showRoomIds != Some(false)
    ensures d.showLabels <==> doc.showLabels != Some(false)
    ensures d.showConnections <==> doc.showConnections != Some(false)
    ensures d.showRoomNames <==> doc.showRoomNames == Some(true)
    ensures d.showGroupLabels <==> doc.showGroupLabels == Some(true)
  {
    DisplayOptions(doc.showRoomIds != Some(false), doc.showRoomNames == Some(true), doc.showLabels != Some(false),
                   doc.showConnections != Some(false), doc.showGroupLabels == Some(true))
  }

  /** `{ ...font, ...doc }`: every field the file has replaces the current one. */
  function MergeFont(font: Font, doc: FontDoc): Font {
    Font(doc.size.GetOr(font.size), doc.color.GetOr(font.color), doc.family.GetOr(font.family), doc.bold.GetOr(font.bold))
  }

  function RestoreFonts(c: Config, doc: FontsDoc): Config {
    c.(labelFont := if doc.labels.Some? then MergeFont(c.labelFont, doc.labels.value) else c.labelFont,
       roomFont := if doc.rooms.Some? then MergeFont(c.roomFont, doc.rooms.value) else c.roomFont)
  }

  /** `useBackground` when present; the image only when truthy. */
  function RestoreBackground(c: Config, doc: BackgroundDoc): Config {
    c.(useBackground := doc.useBackground.GetOr(c.useBackground),
       backgroundImage := if TruthyString(doc.backgroundImage) then doc.backgroundImage else c.backgroundImage)
  }

  /** The configuration sections of a restore, in source order. */
  function RestoreConfig(c: Config, doc: ConfigDoc): Config {
    var c1 := if doc.appearance.Some? then RestoreAppearance(c, doc.appearance.value) else c;
    var c2 := if doc.colors.Some? then RestoreColors(c1, doc.colors.value) else c1;
    var c3 := if doc.fonts.Some? then RestoreFonts(c2, doc.fonts.value) else c2;
    if doc.backgroundSettings.Some? then RestoreBackground(c3, doc.backgroundSettings.value) else c3
  }

  /** The group maps: each entry list present in the file replaces its map. */
  function RestorePositioning(e: Editor, doc: PositioningDoc): Editor {
    e.(groupOffsets := if doc.offsets.Some? then FromEntries(doc.offsets.value) else e.groupOffsets,
       groupNames := if doc.names.Some? then FromEntries(doc.names.value) else e.groupNames,
       labelOffsets := if doc.labelOffsets.Some? then FromEntries(doc.labelOffsets.value) else e.labelOffsets)
  }

  /** `restoreMapConfig`: every section the file has is applied to the
      editor; a section it lacks leaves that part as it was. `options` are
      the values of the location drop-down. */
  function RestoreMapConfig(e: Editor, doc: ConfigDoc, options: seq<string>): (r: Editor)
    ensures doc.groupPositioning.Some? && doc.groupPositioning.value.offsets.Some? ==> Valid(r.groupOffsets)
    ensures doc.crossGroupConnections.None? ==> r.connections == e.connections
    ensures doc.customLabels.None? ==> r.customLabels == e.customLabels
    ensures doc.displayOptions.None? ==> r.display == e.display
    ensures doc.roomSelection.None? ==> r.selection == e.selection
    ensures doc.groupPositioning.None? || doc.groupPositioning.value.offsets.None? ==> r.groupOffsets == e.groupOffsets
    ensures doc.groupPositioning.None? || doc.groupPositioning.value.names.None? ==> r.groupNames == e.groupNames
    ensures doc.groupPositioning.None? || doc.groupPositioning.value.labelOffsets.None? ==>
              r.labelOffsets == e.labelOffsets
    ensures doc.metadata.None? || doc.metadata.value.name == "" ==> r.outputName == e.outputName
    ensures doc.metadata.Some? && doc.metadata.value.name != "" ==> r.outputName == doc.metadata.value.name
    ensures doc.appearance.None? && doc.colors.None? && doc.fonts.None? && doc.backgroundSettings.None? ==>
              r.config == e.config
  {
    var e1 := e.(selection := if doc.roomSelection.Some? then RestoreSelection(e.selection, doc.roomSelection.value, options)
                              else e.selection,
                 config := RestoreConfig(e.config, doc),
                 display := if doc.displayOptions.Some? then RestoreDisplay(doc.displayOptions.value) else e.display);
    var e2 := if doc.groupPositioning.Some? then RestorePositioning(e1, doc.groupPositioning.value) else e1;
    e2.(connections := doc.crossGroupConnections.GetOr(e2.connections),
        customLabels := doc.customLabels.GetOr(e2.customLabels),
        outputName := if doc.metadata.Some? && doc.metadata.value.name != "" then doc.metadata.value.name
                      else e2.outputName)
  }

  // ------------------------------------------------------------ round trip

  /** An editor whose saved file restores it: every appearance value and
      colour is truthy, the maps hold each key once, the method is one of the
      two radio values, a location selection is one the drop-down can show
      (the offered options in their order), and the texts are already
      trimmed, with a non-empty range text for the custom method. */
  ghost predicate Restorable(e: Editor, options: seq<string>) {
    var c := e.config;
    var f := e.selection;
    && c.edgeLength != 0 && c.roomShape != "" && c.roomSize != 0 && c.strokeWidth != 0 && c.connectionWidth != 0
    && c.colors.default != "" && c.colors.background != "" && c.colors.connections != ""
    && c.colors.verticalConnections != ""
    && (c.backgroundImage.Some? ==> c.backgroundImage.value != "")
    && Valid(c.tagColors) && Valid(e.groupOffsets) && Valid(e.groupNames) && Valid(e.labelOffsets)
    && f.selectionMethod in {LocationMethod, CustomMethod}
    && (f.selectionMethod == LocationMethod ==> f.selectedLocations == SelectedOptions(options, f.selectedLocations))
    && (f.selectionMethod == CustomMethod ==> f.rangeText == Trim(f.rangeText) != "")
    && f.excludeText == Trim(f.excludeText)
    && e.outputName != ""
  }

  /** What the file does not record is kept from the editor it is restored
      into: the range fields under the location method, the location choice
      under the custom method, the exclusion fields when there was no
      exclusion, and the background image when there was none. */
  function Carried(e: Editor, e0: Editor): Editor {
    e.(selection := CarriedSelection(e.selection, e0.selection),
       config := e.config.(backgroundImage := if e.config.backgroundImage.Some? then e.config.backgroundImage
                                              else e0.config.backgroundImage))
  }

  function CarriedSelection(f: SelectionForm, f0: SelectionForm): SelectionForm {
    var f1 := if f.selectionMethod == LocationMethod then f.(rangeText := f0.rangeText, useUid := f0.useUid)
              else f.(selectedLocations := f0.selectedLocations);
    if f.excludeText == "" then f1.(excludeText := f0.excludeText, excludeUseUid := f0.excludeUseUid) else f1
  }

  /** Saving an editor and restoring the file into any editor reproduces it,
      except for what the file does not record (`Carried`). In particular
      the group maps and the tag colours come back with their insertion
      order. */
  lemma SaveThenRestore(e: Editor, e0: Editor, options: seq<string>, description: string, login: Option<string>,
                        mapdbVersion: Option<string>)
    requires Restorable(e, options)
    ensures RestoreMapConfig(e0, GenerateConfigForSave(e, e.outputName, description, login, mapdbVersion), options)
            == Carried(e, e0)
  {
    var doc := GenerateConfigForSave(e, e.outputName, description, login, mapdbVersion);
    var r := RestoreMapConfig(e0, doc, options);
    var expected := Carried(e, e0);
    SelectionRoundTrip(e.selection, e0.selection, options);
    assert r.selection == expected.selection;
    ConfigRoundTrip(e, e0.config, description, login, mapdbVersion);
    assert r.config == expected.config;
    assert r.display == e.display;
    FromEntriesOfValid(e.groupOffsets);
    FromEntriesOfValid(e.groupNames);
    FromEntriesOfValid(e.labelOffsets);
    assert r.groupOffsets == e.groupOffsets && r.groupNames == e.groupNames && r.labelOffsets == e.labelOffsets;
    assert r.connections == e.connections && r.customLabels == e.customLabels && r.outputName == e.outputName;
  }

  /** The room-selection part of the round trip. */
  lemma SelectionRoundTrip(f: SelectionForm, f0: SelectionForm, options: seq<string>)
    requires f.selectionMethod in {LocationMethod, CustomMethod}
    requires f.selectionMethod == LocationMethod ==> f.selectedLocations == SelectedOptions(options, f.selectedLocations)
    requires f.selectionMethod == CustomMethod ==> f.rangeText == Trim(f.rangeText) != ""
    requires f.excludeText == Trim(f.excludeText)
    ensures RestoreSelection(f0, SaveSelection(f), options) == CarriedSelection(f, f0)
  {
    var r := RestoreSelection(f0, SaveSelection(f), options);
    var expected := CarriedSelection(f, f0);
    assert r.selectionMethod == expected.selectionMethod;
    assert r.selectedLocations == expected.selectedLocations
        && r.rangeText == expected.rangeText && r.useUid == expected.useUid by {
      MethodRoundTrip(f, f0, options);
    }
    assert r.excludeText == expected.excludeText && r.excludeUseUid == expected.excludeUseUid by {
      ExclusionRoundTrip(f, f0, options);
    }
  }

  /** Selected locations, range text and id type come back under the method
      that records them. */
  lemma MethodRoundTrip(f: SelectionForm, f0: SelectionForm, options: seq<string>)
    requires f.selectionMethod == LocationMethod ==> f.selectedLocations == SelectedOptions(options, f.selectedLocations)
    ensures var r := RestoreSelection(f0, SaveSelection(f), options);
            var t := Trim(f.rangeText);
            && r.selectedLocations == (if f.selectionMethod == LocationMethod then f.selectedLocations else f0.selectedLocations)
            && (f.selectionMethod == CustomMethod ==> r.rangeText == (if t != "" then t else f0.rangeText) && r.useUid == f.useUid)
            && (f.selectionMethod != CustomMethod ==> r.rangeText == f0.rangeText && r.useUid == f0.useUid)
  {
    LocationsRoundTrip(f, f0, options);
    RangeRoundTrip(f, f0, options);
  }

  /** The selected locations come back under the location method. */
  lemma LocationsRoundTrip(f: SelectionForm, f0: SelectionForm, options: seq<string>)
    requires f.selectionMethod == LocationMethod ==> f.selectedLocations == SelectedOptions(options, f.selectedLocations)
    ensures RestoreSelection(f0, SaveSelection(f), options).selectedLocations
            == if f.selectionMethod == LocationMethod then f.selectedLocations else f0.selectedLocations
  {
    var doc := SaveSelection(f);
    assert doc.selectionMethod == f.selectionMethod;
    assert doc.locations == if f.selectionMethod == LocationMethod then Some(f.selectedLocations) else None;
  }

  /** The range text comes back trimmed, with its id type, under the custom
      method; a blank one leaves the restored form's text alone. */
  lemma RangeRoundTrip(f: SelectionForm, f0: SelectionForm, options: seq<string>)
    ensures var r := RestoreSelection(f0, SaveSelection(f), options);
            var t := Trim(f.rangeText);
            && (f.selectionMethod == CustomMethod ==> r.rangeText == (if t != "" then t else f0.rangeText) && r.useUid == f.useUid)
            && (f.selectionMethod != CustomMethod ==> r.rangeText == f0.rangeText && r.useUid == f0.useUid)
  {
    var doc := SaveSelection(f);
    var t := Trim(f.rangeText);
    MethodsDiffer();
    if f.selectionMethod == CustomMethod {
      assert doc.selectionMethod == CustomMethod && doc.ranges == Some(t) && doc.useUid == Some(f.useUid);
    } else {
      assert doc.selectionMethod != CustomMethod;
    }
  }

  lemma MethodsDiffer()
    ensures LocationMethod != CustomMethod
  {
    assert LocationMethod[0] != CustomMethod[0];
  }

  /** The exclusion text comes back trimmed, with its id type, when it was
      not blank; a blank one leaves the restored form's exclusion alone. */
  lemma ExclusionRoundTrip(f: SelectionForm, f0: SelectionForm, options: seq<string>)
    ensures var r := RestoreSelection(f0, SaveSelection(f), options);
            var t := Trim(f.excludeText);
            && r.excludeText == (if t != "" then t else f0.excludeText)
            && r.excludeUseUid == (if t != "" then f.excludeUseUid else f0.excludeUseUid)
  {
    var t := Trim(f.excludeText);
    var doc := SaveSelection(f);
    assert doc.exclusions == (if t != "" then Some(t) else None);
    assert t != "" ==> doc.excludeUseUid == Some(f.excludeUseUid);
  }

  /** The configuration part of the round trip. */
  lemma ConfigRoundTrip(e: Editor, c0: Config, description: string, login: Option<string>, mapdbVersion: Option<string>)
    requires var c := e.config;
             && c.edgeLength != 0 && c.roomShape != "" && c.roomSize != 0 && c.strokeWidth != 0 && c.connectionWidth != 0
             && c.colors.default != "" && c.colors.background != "" && c.colors.connections != ""
             && c.colors.verticalConnections != ""
             && (c.backgroundImage.Some? ==> c.backgroundImage.value != "")
             && Valid(c.tagColors)
    ensures var c := e.config;
            RestoreConfig(c0, GenerateConfigForSave(e, e.outputName, description, login, mapdbVersion))
            == c.(backgroundImage := if c.backgroundImage.Some? then c.backgroundImage else c0.backgroundImage)
  {
    FromEntriesOfValid(e.config.tagColors);
  }

  /** A file without any display option switches room ids, labels and
      connections on and room names and group labels off. */
  lemma MissingDisplayDefaults()
    ensures RestoreDisplay(DisplayDoc(None, None, None, None, None)) == DisplayOptions(true, false, true, true, false)
  {
  }

  /** Saving without an exclusion does not clear the exclusion field of the
      editor the file is restored into. */
  lemma ExclusionNotCleared(f: SelectionForm, f0: SelectionForm, options: seq<string>)
    requires Trim(f.excludeText) == ""
    ensures RestoreSelection(f0, SaveSelection(f), options).excludeText == f0.excludeText
  {
  }
}

=== FILE: mapdb_loader.dfy ===
/** The map-database helpers of js/mapdb-loader.js: picking the location list
    for the drop-down, the rooms of one location, the room-range parser, and
    the age rules of the browser-side cache. The clock is the parameter `now`
    (milliseconds), and the IndexedDB record is passed in and returned. */
module MapDb {
  import opened Common
  import opened JsText
  import StringOrder

  /** A room of the map database, reduced to the fields these rules read.
      `uid` is `None` unless the record holds an array of alternate ids. */
  datatype Room = Room(id: int, uid: Option<seq<int>>, location: Option<string>)

  /** `if (room.location)`: present and not the empty string. */
  predicate HasLocation(room: Room) {
    room.location.Some? && room.location.value != ""
  }

  const HourMs: int := 1000 * 60 * 60
  const DayMs: int := 24 * HourMs
  /** Seven days, after which the cached database is ignored. */
  const CacheDurationMs: int := 7 * 24 * 60 * 60 * 1000

  /** The truthy `location` values in room order, repeats included. */
  function LocationValues(mapdb: seq<Room>): (locs: seq<string>)
    ensures forall loc :: loc in locs <==> exists room :: room in mapdb && HasLocation(room) && room.location.value == loc
  {
    if mapdb == [] then []
    else
      var rest := LocationValues(mapdb[1..]);
      assert forall room :: room in mapdb <==> room == mapdb[0] || room in mapdb[1..];
      if HasLocation(mapdb[0]) then [mapdb[0].location.value] + rest else rest
  }

  /** `extractLocations`: the distinct truthy locations, in ascending sort order. */
  function ExtractLocations(mapdb: seq<Room>): (r: seq<string>)
    ensures StringOrder.StrictlySorted(r)
    ensures forall loc :: loc in r <==> exists room :: room in mapdb && HasLocation(room) && room.location.value == loc
    ensures "" !in r
  {
    var distinct := Dedup(LocationValues(mapdb));
    StringOrder.SortDistinct(distinct);
    StringOrder.Sort(distinct)
  }

  /** `getRoomsByLocation`: the rooms whose location is exactly `location`, in database order. */
  function GetRoomsByLocation(mapdb: seq<Room>, location: string): (r: seq<Room>)
    ensures forall room :: room in r <==> room in mapdb && room.location == Some(location)
    ensures IsSubsequence(r, mapdb)
    ensures forall room :: multiset(r)[room] == if room.location == Some(location) then multiset(mapdb)[room] else 0
  {
    var inLocation := (room: Room) => room.location == Some(location);
    FilterCount(inLocation, mapdb);
    Filter(inLocation, mapdb)
  }

  /** The ids one trimmed comma-separated segment contributes. A segment holding
      `-` is read as `start-end` from the first two dash-separated pieces and
      yields `start..end` only when both ends are truthy numbers; any other
      segment yields its number when that is truthy. */
  function SegmentIds(segment: string): (ids: seq<int>)
    ensures forall x :: x in ids ==> x >= 1
  {
    if '-' in segment then
      var parts := Split(segment, '-');
      SplitHasTwoParts(segment, '-');
      SplitPieces(segment, '-');
      RangeIds(EndValue(parts[0]), EndValue(parts[1]))
    else
      var id := ParseInt(segment);
      if Truthy(id) then [id.value] else []
  }

  /** One end of a `start-end` segment: the trimmed piece as a number. A piece
      cut at the dashes holds no minus sign, so its number is never negative. */
  function EndValue(piece: string): (v: Option<int>)
    ensures '-' !in piece && v.Some? ==> v.value >= 0
  {
    assert '-' !in piece ==> '-' !in Trim(piece) by {
      if '-' !in piece { TrimKeepsOut(piece, '-'); }
    }
    ParseInt(Trim(piece))
  }

  /** `start..end` when both ends are truthy, nothing otherwise. */
  function RangeIds(start: Option<int>, end: Option<int>): (ids: seq<int>)
    requires start.Some? ==> start.value >= 0
    ensures forall x :: x in ids ==> x >= 1
  {
    if Truthy(start) && Truthy(end) then Range(start.value, end.value) else []
  }

  lemma SplitHasTwoParts(s: string, sep: char)
    requires sep in s
    ensures |Split(s, sep)| >= 2
  {
    SplitUnfold(s, sep);
  }

  /** The id lists of the segments of `text`, in order. */
  function SegmentIdLists(text: string): (lists: seq<seq<int>>)
    ensures |lists| == |Split(text, ',')|
    ensures forall k :: 0 <= k < |lists| ==> lists[k] == SegmentIds(Trim(Split(text, ',')[k]))
  {
    IdListsOf(Split(text, ','))
  }

  function IdListsOf(segments: seq<string>): (lists: seq<seq<int>>)
    ensures |lists| == |segments|
    ensures forall k :: 0 <= k < |lists| ==> lists[k] == SegmentIds(Trim(segments[k]))
  {
    if segments == [] then [] else [SegmentIds(Trim(segments[0]))] + IdListsOf(segments[1..])
  }

  lemma {:induction false} IdListsOfConcat(sa: seq<string>, sb: seq<string>)
    ensures IdListsOf(sa + sb) == IdListsOf(sa) + IdListsOf(sb)
    decreases |sa|
  {
    if sa == [] {
      assert sa + sb == sb;
    } else {
      assert (sa + sb)[1..] == sa[1..] + sb;
      assert (sa + sb)[0] == sa[0];
      IdListsOfConcat(sa[1..], sb);
      ConsAppend(SegmentIds(Trim(sa[0])), IdListsOf(sa[1..]), IdListsOf(sb));
    }
  }

  /** `parseRoomRanges`: the ids of all segments, each once, in the order a
      `Set` first received them. */
  function ParseRoomRanges(text: string): (ids: seq<int>)
    ensures NoDuplicates(ids)
    ensures forall x :: x in ids ==> x >= 1
    ensures forall x :: x in ids <==> exists k :: 0 <= k < |SegmentIdLists(text)| && x in SegmentIdLists(text)[k]
  {
    Dedup(Flatten(SegmentIdLists(text)))
  }

  /** The text `a-b` of two decimal numbers selects every id from `a` to `b`
      (none when `a > b`), provided neither end is 0. */
  lemma RangeSegment(a: nat, b: nat)
    ensures SegmentIds(DecimalString(a) + "-" + DecimalString(b))
            == if a >= 1 && b >= 1 then Range(a, b) else []
  {
    var da, db := DecimalString(a), DecimalString(b);
    var s := da + "-" + db;
    assert s == da + ['-'] + db;
    NoDashInDigits(da);
    NoDashInDigits(db);
    SplitTwo(da, '-', db);
    var parts := Split(s, '-');
    assert ParseInt(Trim(parts[0])) == Some(a) by {
      DigitsTrimmed(da);
      ParseIntOfDecimal(a, []);
      assert da + [] == da;
    }
    assert ParseInt(Trim(parts[1])) == Some(b) by {
      DigitsTrimmed(db);
      ParseIntOfDecimal(b, []);
      assert db + [] == db;
    }
    DashSegment(s, Some(a), Some(b));
  }

  lemma DashSegment(s: string, start: Option<int>, end: Option<int>)
    requires '-' in s && |Split(s, '-')| >= 2
    requires ParseInt(Trim(Split(s, '-')[0])) == start && ParseInt(Trim(Split(s, '-')[1])) == end
    ensures SegmentIds(s) == if Truthy(start) && Truthy(end) then Range(start.value, end.value) else []
  {
    var parts := Split(s, '-');
    assert EndValue(parts[0]) == start && EndValue(parts[1]) == end;
    SplitPieces(s, '-');
    assert '-' !in parts[0];
    assert SegmentIds(s) == RangeIds(start, end);
  }

  lemma NoDashInDigits(d: string)
    requires forall i :: 0 <= i < |d| ==> IsDecimalDigit(d[i])
    ensures '-' !in d
  {
  }

  /** The text of a single decimal number selects that id, unless it is 0. */
  lemma SingleSegment(n: nat)
    ensures SegmentIds(DecimalString(n)) == if n >= 1 then [n] else []
  {
    var d := DecimalString(n);
    NoDashInDigits(d);
    ParseIntOfDecimal(n, []);
    assert d + [] == d;
    assert ParseInt(d) == Some(n);
  }

  lemma DigitsTrimmed(d: string)
    requires forall i :: 0 <= i < |d| ==> IsDecimalDigit(d[i])
    ensures Trim(d) == d
  {
    if d != [] {
      DigitNotWhiteSpace(d[0]);
      DigitNotWhiteSpace(d[|d| - 1]);
      assert TrimStart(d) == d;
      assert TrimEnd(d) == d;
    }
  }

  lemma DigitNotWhiteSpace(c: char)
    requires IsDecimalDigit(c)
    ensures !IsWhiteSpace(c)
  {
  }

  /** Further segments only add ids after those already selected. */
  lemma ParseRoomRangesAppend(a: string, b: string)
    ensures ParseRoomRanges(a) <= ParseRoomRanges(a + "," + b)
  {
    var la, lb := SegmentIdLists(a), SegmentIdLists(b);
    SegmentIdListsConcat(a, b);
    FlattenConcat(la, lb);
    DedupPrefix(Flatten(la), Flatten(lb));
  }

  lemma SegmentIdListsConcat(a: string, b: string)
    ensures SegmentIdLists(a + "," + b) == SegmentIdLists(a) + SegmentIdLists(b)
  {
    assert a + "," + b == a + [','] + b;
    SplitConcat(a, ',', b);
    IdListsOfConcat(Split(a, ','), Split(b, ','));
  }

  /** `formatCacheAge`: whole days when at least one, else whole hours when at
      least one, else `fresh`; the unit is plural above 1. Ages are floored, so
      a timestamp in the future reads as `fresh`. */
  function FormatCacheAge(now: int, timestamp: int): (r: string)
    ensures r == "fresh" <==> now - timestamp < HourMs
    ensures now - timestamp >= DayMs ==>
              ParseInt(r) == Some((now - timestamp) / DayMs)
              && (EndsWith(r, " days old") <==> now - timestamp >= 2 * DayMs)
              && (EndsWith(r, " day old") <==> now - timestamp < 2 * DayMs)
    ensures HourMs <= now - timestamp < DayMs ==>
              ParseInt(r) == Some((now - timestamp) / HourMs)
              && (EndsWith(r, " hours old") <==> now - timestamp >= 2 * HourMs)
              && (EndsWith(r, " hour old") <==> now - timestamp < 2 * HourMs)
  {
    var age := now - timestamp;
    var hours := age / HourMs;
    var days := hours / 24;
    HoursToDays(age);
    DivAtLeast(age, DayMs, 1);
    DivAtLeast(age, DayMs, 2);
    DivAtLeast(age, HourMs, 1);
    DivAtLeast(age, HourMs, 2);
    assert " day" + "s old" == " days old" && " day" + " old" == " day old";
    assert " hour" + "s old" == " hours old" && " hour" + " old" == " hour old";
    assert days > 0 <==> age >= DayMs;
    assert hours > 0 <==> age >= HourMs;
    var r :=
      if days > 0 then AgeText(days, " day")
      else if hours > 0 then AgeText(hours, " hour")
      else "fresh";
    assert HourMs <= age < DayMs ==> r == AgeText(hours, " hour");
    assert age >= DayMs ==> r == AgeText(days, " day");
    r
  }

  /** Flooring to hours and then to days is flooring to days. */
  lemma HoursToDays(age: int)
    ensures (age / HourMs) / 24 == age / DayMs
  {
    var h, r1 := age / HourMs, age % HourMs;
    var d, r2 := h / 24, h % 24;
    assert age == d * DayMs + (r2 * HourMs + r1);
    assert 0 <= r2 * HourMs + r1 < DayMs;
    DivUnique(age, DayMs, d, r2 * HourMs + r1);
  }

  lemma DivUnique(x: int, m: int, q: int, r: int)
    requires m > 0 && x == q * m + r && 0 <= r < m
    ensures x / m == q
  {
    DivAtLeast(x, m, q);
    DivAtLeast(x, m, q + 1);
    assert (q + 1) * m == q * m + m;
  }

  /** `x / m >= k` exactly when `x >= k * m`. */
  lemma DivAtLeast(x: int, m: int, k: int)
    requires m > 0
    ensures x / m >= k <==> x >= k * m
  {
    var q, r := x / m, x % m;
    if q >= k {
      MulMonotone(k, q, m);
    } else {
      MulMonotone(q + 1, k, m);
      assert (q + 1) * m == q * m + m;
    }
  }

  lemma MulMonotone(a: int, b: int, m: int)
    requires a <= b && m >= 0
    ensures a * m <= b * m
  {
    assert b * m == a * m + (b - a) * m;
  }

  /** `${n}${unit}${n > 1 ? 's' : ''} old` for a positive count. */
  function AgeText(n: int, unit: string): (r: string)
    requires n >= 1 && (unit == " day" || unit == " hour")
    ensures ParseInt(r) == Some(n)
    ensures EndsWith(r, " old")
    ensures EndsWith(r, unit + "s old") <==> n > 1
    ensures EndsWith(r, unit + " old") <==> n == 1
  {
    var tail := unit + (if n > 1 then "s old" else " old");
    ParseIntOfDecimal(n, tail);
    UnitSuffix(DecimalString(n), unit, n > 1);
    DecimalString(n) + tail
  }

  /** The plural and singular endings exclude each other after a number. */
  lemma UnitSuffix(d: string, unit: string, plural: bool)
    requires d != [] && IsDecimalDigit(d[|d| - 1])
    requires unit == " day" || unit == " hour"
    ensures var r := d + (unit + (if plural then "s old" else " old"));
            EndsWith(r, " old") &&
            (EndsWith(r, unit + "s old") <==> plural) && (EndsWith(r, unit + " old") <==> !plural)
  {
    var r := d + (unit + (if plural then "s old" else " old"));
    assert r[|r| - 4..] == " old";
    if plural {
      assert r[|d|..] == unit + "s old";
      assert r[|r| - |unit + " old"|] == unit[1] != (unit + " old")[0];
    } else {
      assert r[|d|..] == unit + " old";
      assert r[|r| - |unit + "s old"|] == d[|d| - 1] != (unit + "s old")[0];
    }
  }

  /** The IndexedDB record under the key `current`. */
  datatype CacheRecord = CacheRecord(version: string, data: seq<Room>, timestamp: int)

  /** The validity test of `getCachedMapDB`: a stored record is used unless it is
      strictly older than seven days. */
  function CachedMapDb(stored: Option<CacheRecord>, now: int): (r: Option<CacheRecord>)
    ensures r.Some? <==> stored.Some? && now - stored.value.timestamp <= 7 * DayMs
    ensures r.Some? ==> r == stored
  {
    match stored
    case None => None
    case Some(record) =>
      if now - record.timestamp > CacheDurationMs then None else stored
  }

  /** A cache record accepted at some time is accepted at every earlier time. */
  lemma CachedEarlier(stored: Option<CacheRecord>, now: int, earlier: int)
    requires earlier <= now && CachedMapDb(stored, now).Some?
    ensures CachedMapDb(stored, earlier) == stored
  {
  }

  /** The age `loadMapDB` reports for a cache it accepted is never above seven
      days: it is `fresh`, some hours, or from 1 to 7 days. */
  lemma CachedAgeAtMostSevenDays(stored: Option<CacheRecord>, now: int)
    requires CachedMapDb(stored, now).Some?
    requires now - stored.value.timestamp >= DayMs
    ensures ParseInt(FormatCacheAge(now, stored.value.timestamp)).value <= 7
  {
    DaysAtMostSeven(now - stored.value.timestamp);
  }

  lemma DaysAtMostSeven(age: int)
    requires age <= CacheDurationMs
    ensures age / DayMs <= 7
  {
    assert CacheDurationMs == 7 * DayMs;
    DivAtLeast(age, DayMs, 8);
  }

  /** The version string `loadMapDB` records for a fresh download. */
  const DownloadVersion: string := "v0.2.1"

  datatype LoadResult = LoadResult(data: seq<Room>, version: string, fromCache: bool)

  /** `loadMapDB`: the cache, unless refreshing is forced or the cache is
      missing or stale; otherwise the download, which is cached with `now`. */
  function LoadMapDb(stored: Option<CacheRecord>, now: int, forceRefresh: bool, download: seq<Room>)
    : (r: (LoadResult, Option<CacheRecord>))
    ensures r.0.fromCache <==> !forceRefresh && CachedMapDb(stored, now).Some?
    ensures r.0.fromCache ==> r.0.data == stored.value.data && r.1 == stored
    ensures !r.0.fromCache ==> r.0 == LoadResult(download, DownloadVersion, false)
    ensures !r.0.fromCache ==> r.1 == Some(CacheRecord(DownloadVersion, download, now))
    ensures r.1.Some? && r.1.value.data == r.0.data && r.1.value.version == r.0.version
  {
    var cached := if forceRefresh then None else CachedMapDb(stored, now);
    match cached
    case Some(c) => (LoadResult(c.data, c.version, true), stored)
    case None => (LoadResult(download, DownloadVersion, false), Some(CacheRecord(DownloadVersion, download, now)))
  }

  /** A second load, while the record the first load left is at most seven
      days old, is served from the cache with the data and version the first
      load returned. */
  lemma LoadTwice(stored: Option<CacheRecord>, now: int, forceRefresh: bool, download: seq<Room>,
                  later: int, download2: seq<Room>)
    requires later - LoadMapDb(stored, now, forceRefresh, download).1.value.timestamp <= CacheDurationMs
    ensures var (first, cache) := LoadMapDb(stored, now, forceRefresh, download);
            var (second, _) := LoadMapDb(cache, later, false, download2);
            second == LoadResult(first.data, first.version, true)
  {
  }
}

=== FILE: ordered_maps.dfy ===
/** A JavaScript `Map` (and a plain object whose keys are not array indices):
    a list of entries kept in insertion order. `Array.from(m.entries())` is the
    list itself and `new Map(entries)` is `FromEntries`. */
module OrderedMaps {
  import opened Common

  type OrderedMap<K, V> = seq<(K, V)>

  function Keys<K, V>(m: OrderedMap<K, V>): (ks: seq<K>)
    ensures |ks| == |m|
    ensures forall i :: 0 <= i < |m| ==> ks[i] == m[i].0
  {
    if m == [] then [] else [m[0].0] + Keys(m[1..])
  }

  /** `Array.from(m.values())`. */
  function Values<K, V>(m: OrderedMap<K, V>): (vs: seq<V>)
    ensures |vs| == |m|
    ensures forall i :: 0 <= i < |m| ==> vs[i] == m[i].1
  {
    if m == [] then [] else [m[0].1] + Values(m[1..])
  }

  /** `m.has(k)`. */
  predicate Has<K(==), V>(m: OrderedMap<K, V>, k: K) {
    m != [] && (m[0].0 == k || Has(m[1..], k))
  }

  /** Every key occurs once, as in any `Map`. */
  predicate Valid<K(==), V>(m: OrderedMap<K, V>) {
    m == [] || (!Has(m[1..], m[0].0) && Valid(m[1..]))
  }

  lemma {:induction false} HasIsKey<K, V>(m: OrderedMap<K, V>, k: K)
    ensures Has(m, k) <==> k in Keys(m)
  {
    if m != [] {
      assert Keys(m) == [m[0].0] + Keys(m[1..]);
      HasIsKey(m[1..], k);
    }
  }

  /** `Has` as a statement about the entries. */
  lemma HasEntry<K, V>(m: OrderedMap<K, V>, k: K)
    ensures Has(m, k) <==> exists i :: 0 <= i < |m| && m[i].0 == k
  {
    HasIsKey(m, k);
    if k in Keys(m) {
      var i :| 0 <= i < |m| && Keys(m)[i] == k;
    }
    if exists i :: 0 <= i < |m| && m[i].0 == k {
      var i :| 0 <= i < |m| && m[i].0 == k;
      assert Keys(m)[i] == k;
    }
  }

  lemma {:induction false} HasAppend<K, V>(m: OrderedMap<K, V>, e: (K, V), k: K)
    ensures Has(m + [e], k) <==> Has(m, k) || e.0 == k
  {
    if m != [] {
      assert (m + [e])[1..] == m[1..] + [e];
      HasAppend(m[1..], e, k);
    } else {
      assert (m + [e])[1..] == [];
    }
  }

  /** `m.get(k)`; `None` is `undefined`. */
  function Get<K(==), V>(m: OrderedMap<K, V>, k: K): (r: Option<V>)
    ensures r.Some? <==> Has(m, k)
  {
    if m == [] then None
    else if m[0].0 == k then Some(m[0].1)
    else Get(m[1..], k)
  }

  /** In a valid map every entry is what `get` returns for its key. */
  lemma {:induction false} GetEntry<K, V>(m: OrderedMap<K, V>, i: nat)
    requires Valid(m) && i < |m|
    ensures Get(m, m[i].0) == Some(m[i].1)
  {
    if i > 0 {
      HasIsKey(m[1..], m[i].0);
      assert Keys(m[1..])[i - 1] == m[i].0;
      GetEntry(m[1..], i - 1);
    }
  }

  /** `m.set(k, v)`: an existing key keeps its place and takes the new value,
      a new key is appended. */
  function Set<K(==,!new), V>(m: OrderedMap<K, V>, k: K, v: V): (r: OrderedMap<K, V>)
    ensures Get(r, k) == Some(v)
    ensures forall k' :: k' != k ==> Get(r, k') == Get(m, k')
    ensures forall k' :: Has(r, k') <==> Has(m, k') || k' == k
    ensures Has(m, k) ==> Keys(r) == Keys(m)
    ensures !Has(m, k) ==> r == m + [(k, v)]
    ensures Valid(m) ==> Valid(r)
  {
    if m == [] then [(k, v)]
    else if m[0].0 == k then [(k, v)] + m[1..]
    else
      var rest := Set(m[1..], k, v);
      assert !Has(m, k) ==> [m[0]] + rest == m + [(k, v)] by {
        if !Has(m, k) { assert m == [m[0]] + m[1..]; }
      }
      [m[0]] + rest
  }

  /** `m.delete(k)` (or `delete obj[k]`): every other entry stays, in order. */
  function Delete<K(==,!new), V(!new)>(m: OrderedMap<K, V>, k: K): (r: OrderedMap<K, V>)
    ensures Get(r, k) == None
    ensures forall k' :: k' != k ==> Get(r, k') == Get(m, k')
    ensures forall k' :: Has(r, k') <==> Has(m, k') && k' != k
    ensures IsSubsequence(r, m)
    ensures Valid(m) ==> Valid(r)
  {
    if m == [] then []
    else
      var rest := Delete(m[1..], k);
      if m[0].0 == k then
        SubsequenceOfTail(rest, m);
        rest
      else
        [m[0]] + rest
  }

  /** Setting a key to the value it already has leaves the map as it was. */
  lemma {:induction false} SetUnchanged<K(!new), V>(m: OrderedMap<K, V>, k: K, v: V)
    requires Get(m, k) == Some(v)
    ensures Set(m, k, v) == m
  {
    if m[0].0 != k {
      SetUnchanged(m[1..], k, v);
    }
  }

  /** Deleting a key that was just appended gives back the map before it. */
  lemma {:induction false} DeleteAppended<K(!new), V(!new)>(m: OrderedMap<K, V>, k: K, v: V)
    requires !Has(m, k)
    ensures Delete(m + [(k, v)], k) == m
  {
    if m == [] {
      assert Delete([(k, v)], k) == Delete([], k);
    } else {
      assert (m + [(k, v)])[1..] == m[1..] + [(k, v)];
      DeleteAppended(m[1..], k, v);
      assert m == [m[0]] + m[1..];
    }
  }

  /** An entry list whose keys are all different is a valid map. */
  lemma {:induction false} ValidOfDistinctKeys<K, V>(m: OrderedMap<K, V>)
    requires NoDuplicates(Keys(m))
    ensures Valid(m)
  {
    if m != [] {
      assert Keys(m) == [m[0].0] + Keys(m[1..]);
      HasIsKey(m[1..], m[0].0);
      ValidOfDistinctKeys(m[1..]);
    }
  }

  /** `new Map(entries)`: the entries are `set` one after the other. */
  function FromEntries<K(==,!new), V>(es: seq<(K, V)>): (r: OrderedMap<K, V>)
    ensures Valid(r)
    ensures forall k :: Has(r, k) <==> Has(es, k)
    decreases |es|
  {
    if es == [] then []
    else
      var init := es[..|es| - 1];
      assert es == init + [es[|es| - 1]];
      assert forall k :: Has(es, k) <==> Has(init, k) || es[|es| - 1].0 == k by {
        forall k ensures Has(es, k) <==> Has(init, k) || es[|es| - 1].0 == k {
          HasAppend(init, es[|es| - 1], k);
        }
      }
      Set(FromEntries(init), es[|es| - 1].0, es[|es| - 1].1)
  }

  /** In `new Map(entries)` a key takes the value of its last entry: an entry
      no later entry shares a key with is what `get` returns. */
  lemma {:induction false} FromEntriesLastWins<K(!new), V>(es: seq<(K, V)>, i: nat)
    requires i < |es|
    requires forall j :: i < j < |es| ==> es[j].0 != es[i].0
    ensures Get(FromEntries(es), es[i].0) == Some(es[i].1)
    decreases |es|
  {
    if i < |es| - 1 {
      var init := es[..|es| - 1];
      assert init[i] == es[i];
      FromEntriesLastWins(init, i);
    }
  }

  /** Saving a map as its entry list and rebuilding it with `new Map(...)`
      gives back the same map, insertion order included. */
  lemma {:induction false} FromEntriesOfValid<K(!new), V>(m: OrderedMap<K, V>)
    requires Valid(m)
    ensures FromEntries(m) == m
    decreases |m|
  {
    if m != [] {
      var init := m[..|m| - 1];
      assert m == init + [m[|m| - 1]];
      ValidSplit(init, m[|m| - 1]);
      FromEntriesOfValid(init);
    }
  }

  lemma {:induction false} ValidSplit<K, V>(init: OrderedMap<K, V>, last: (K, V))
    requires Valid(init + [last])
    ensures Valid(init) && !Has(init, last.0)
    decreases |init|
  {
    if init != [] {
      var m := init + [last];
      assert m[1..] == init[1..] + [last];
      assert m[0] == init[0];
      HasAppend(init[1..], last, init[0].0);
      ValidSplit(init[1..], last);
    }
  }

  /** Setting a key extends the key list the way adding it to a `Set` extends
      its iteration order. */
  lemma SetKeysDedup<K(!new), V>(m: OrderedMap<K, V>, names: seq<K>, k: K, v: V)
    requires Keys(m) == Dedup(names)
    ensures Keys(Set(m, k, v)) == Dedup(names + [k])
  {
    var all := names + [k];
    assert all[..|all| - 1] == names;
    HasIsKey(m, k);
  }

  /** `SetKeysDedup` for the last element of a non-empty list of keys. */
  lemma SetKeysDedupLast<K(!new), V>(m: OrderedMap<K, V>, names: seq<K>, v: V)
    requires names != [] && Keys(m) == Dedup(names[..|names| - 1])
    ensures Keys(Set(m, names[|names| - 1], v)) == Dedup(names)
  {
    HasIsKey(m, names[|names| - 1]);
  }
}

=== FILE: room_selection.dfy ===
/** `getSelectedRooms` of js/map-generator.js: which rooms of the map database
    a map is drawn from. The radio buttons and text fields it reads become the
    `Selection` and `Exclusion` parameters. */
module RoomSelection {
  import opened Common
  import opened JsText
  import opened MapDb

  /** How the rooms are chosen: by one or more locations from the list, or
      by a range text read as room ids or as alternate (uid) ids. */
  datatype Selection =
    | ByLocations(locations: seq<string>)
    | ByRanges(rangeText: string, useUid: bool)

  /** The exclusion field and whether it lists room ids or uids. */
  datatype Exclusion = Exclusion(text: string, useUid: bool)

  const NoLocationMessage: string := "Please select at least one location"
  const NoRangesMessage: string := "Please enter room ranges"

  /** The ids of `rooms`, in order. */
  function Ids(rooms: seq<Room>): (ids: seq<int>)
    ensures |ids| == |rooms|
    ensures forall i :: 0 <= i < |rooms| ==> ids[i] == rooms[i].id
  {
    seq(|rooms|, i requires 0 <= i < |rooms| => rooms[i].id)
  }

  /** The rooms of every chosen location, location after location, each
      location's rooms in database order. */
  function RoomsOfLocations(mapdb: seq<Room>, locations: seq<string>): (r: seq<Room>)
    ensures forall room :: room in r <==> room in mapdb && room.location.Some? && room.location.value in locations
    ensures forall room :: multiset(r)[room] ==
              if room.location.Some? then multiset(locations)[room.location.value] * multiset(mapdb)[room] else 0
  {
    if locations == [] then []
    else
      var first, rest := GetRoomsByLocation(mapdb, locations[0]), RoomsOfLocations(mapdb, locations[1..]);
      LocationCountAppend(mapdb, locations, first, rest);
      first + rest
  }

  /** One chosen location gives that location's rooms, in database order. */
  lemma RoomsOfOneLocation(mapdb: seq<Room>, location: string)
    ensures RoomsOfLocations(mapdb, [location]) == GetRoomsByLocation(mapdb, location)
  {
    assert [location][1..] == [];
  }

  /** The list is built location after location: the rooms for `a + b` are
      the rooms for `a` followed by the rooms for `b`. */
  lemma {:induction false} RoomsOfLocationsAppend(mapdb: seq<Room>, a: seq<string>, b: seq<string>)
    ensures RoomsOfLocations(mapdb, a + b) == RoomsOfLocations(mapdb, a) + RoomsOfLocations(mapdb, b)
    decreases |a|
  {
    if a == [] {
      assert a + b == b;
    } else {
      var first := GetRoomsByLocation(mapdb, a[0]);
      var restA, restB := RoomsOfLocations(mapdb, a[1..]), RoomsOfLocations(mapdb, b);
      assert RoomsOfLocations(mapdb, a + b) == first + RoomsOfLocations(mapdb, a[1..] + b) by {
        assert (a + b)[0] == a[0] && (a + b)[1..] == a[1..] + b;
        RoomsOfLocationsCons(mapdb, a + b);
      }
      RoomsOfLocationsAppend(mapdb, a[1..], b);
      RoomsOfLocationsCons(mapdb, a);
      ConcatAssoc(first, restA, restB);
    }
  }

  /** `RoomsOfLocations` unfolded once. */
  lemma RoomsOfLocationsCons(mapdb: seq<Room>, locations: seq<string>)
    requires locations != []
    ensures RoomsOfLocations(mapdb, locations)
            == GetRoomsByLocation(mapdb, locations[0]) + RoomsOfLocations(mapdb, locations[1..])
  {
  }

  lemma ConcatAssoc(x: seq<Room>, y: seq<Room>, z: seq<Room>)
    ensures x + (y + z) == (x + y) + z
  {
  }

  /** The counts of `RoomsOfLocations` carry over from the rest of the
      locations to the whole list. */
  lemma LocationCountAppend(mapdb: seq<Room>, locations: seq<string>, first: seq<Room>, rest: seq<Room>)
    requires locations != []
    requires forall room :: multiset(first)[room] ==
               if room.location == Some(locations[0]) then multiset(mapdb)[room] else 0
    requires forall room :: multiset(rest)[room] ==
               if room.location.Some? then multiset(locations[1..])[room.location.value] * multiset(mapdb)[room] else 0
    ensures forall room :: multiset(first + rest)[room] ==
              if room.location.Some? then multiset(locations)[room.location.value] * multiset(mapdb)[room] else 0
  {
    forall room ensures multiset(first + rest)[room] ==
             if room.location.Some? then multiset(locations)[room.location.value] * multiset(mapdb)[room] else 0 {
      LocationCountStep(locations, room.location, multiset(mapdb)[room]);
    }
  }

  /** One more chosen location adds the database's copies of a room once
      more when it is the room's location. */
  lemma LocationCountStep(locations: seq<string>, location: Option<string>, copies: nat)
    requires locations != []
    ensures (if location == Some(locations[0]) then copies else 0)
            + (if location.Some? then multiset(locations[1..])[location.value] * copies else 0)
            == if location.Some? then multiset(locations)[location.value] * copies else 0
  {
    assert multiset(locations) == multiset{locations[0]} + multiset(locations[1..]) by {
      assert locations == [locations[0]] + locations[1..];
    }
    if location.Some? {
      var c := multiset(locations[1..])[location.value];
      if location.value == locations[0] {
        assert multiset(locations)[location.value] == c + 1;
        assert (c + 1) * copies == c * copies + copies;
      }
    }
  }

  /** The filter with a `Set` of seen ids: a room is kept when no earlier room
      had its id. The ids kept are those of `rooms` deduplicated in order, and
      each id is represented by its first room. */
  function DedupById(rooms: seq<Room>): (r: seq<Room>)
    ensures Ids(r) == Dedup(Ids(rooms))
    ensures forall k :: 0 <= k < |r| ==> r[k].id in Ids(rooms) && r[k] == rooms[FirstIndex(Ids(rooms), r[k].id)]
    decreases |rooms|
  {
    if rooms == [] then []
    else
      var init, last := rooms[..|rooms| - 1], rooms[|rooms| - 1];
      var d := DedupById(init);
      DedupByIdStep(rooms, init, last, d);
      if last.id in Ids(d) then d else d + [last]
  }

  /** The inductive step of `DedupById`, with the result for the prefix given. */
  lemma DedupByIdStep(rooms: seq<Room>, init: seq<Room>, last: Room, d: seq<Room>)
    requires rooms == init + [last]
    requires Ids(d) == Dedup(Ids(init))
    requires forall k :: 0 <= k < |d| ==> d[k].id in Ids(init) && d[k] == init[FirstIndex(Ids(init), d[k].id)]
    ensures var r := if last.id in Ids(d) then d else d + [last];
            && Ids(r) == Dedup(Ids(rooms))
            && forall k :: 0 <= k < |r| ==> r[k].id in Ids(rooms) && r[k] == rooms[FirstIndex(Ids(rooms), r[k].id)]
  {
    DedupByIdStepIds(rooms, init, last, d);
    DedupByIdStepFirst(rooms, init, last, d);
  }

  /** The ids half of the step: the `Set` grows by the last id when it is new. */
  lemma DedupByIdStepIds(rooms: seq<Room>, init: seq<Room>, last: Room, d: seq<Room>)
    requires rooms == init + [last]
    requires Ids(d) == Dedup(Ids(init))
    ensures Ids(if last.id in Ids(d) then d else d + [last]) == Dedup(Ids(rooms))
  {
    var ids := Ids(rooms);
    assert ids == Ids(init) + [last.id];
    assert ids[..|ids| - 1] == Ids(init);
    if last.id !in Ids(d) {
      assert Ids(d + [last]) == Ids(d) + [last.id];
    }
  }

  /** The representative half of the step: every kept room is the first
      room with its id. */
  lemma DedupByIdStepFirst(rooms: seq<Room>, init: seq<Room>, last: Room, d: seq<Room>)
    requires rooms == init + [last]
    requires Ids(d) == Dedup(Ids(init))
    requires forall k :: 0 <= k < |d| ==> d[k].id in Ids(init) && d[k] == init[FirstIndex(Ids(init), d[k].id)]
    ensures var r := if last.id in Ids(d) then d else d + [last];
            forall k :: 0 <= k < |r| ==> r[k].id in Ids(rooms) && r[k] == rooms[FirstIndex(Ids(rooms), r[k].id)]
  {
    var ids := Ids(rooms);
    assert ids == Ids(init) + [last.id];
    forall k | 0 <= k < |d| ensures d[k].id in ids && d[k] == rooms[FirstIndex(ids, d[k].id)] {
      FirstIndexOfPrefix(Ids(init), [last.id], d[k].id);
    }
    if last.id !in Ids(d) {
      var r := d + [last];
      assert last.id !in Ids(init);
      FirstIndexOfPrefix(Ids(init), [last.id], last.id);
      forall k | 0 <= k < |r| ensures r[k].id in ids && r[k] == rooms[FirstIndex(ids, r[k].id)] {
        if k == |d| {
          assert r[k] == last;
        } else {
          assert r[k] == d[k];
        }
      }
    }
  }

  /** The record holds an array of uids and one of them is among `ids`. */
  predicate MatchesUid(room: Room, ids: seq<int>) {
    room.uid.Some? && exists id :: id in ids && id in room.uid.value
  }

  /** The rooms a range text picks out, in database order. */
  function SelectByRanges(mapdb: seq<Room>, ids: seq<int>, useUid: bool): (r: seq<Room>)
    ensures forall room :: room in r <==> room in mapdb && (if useUid then MatchesUid(room, ids) else room.id in ids)
    ensures IsSubsequence(r, mapdb)
    ensures forall room :: multiset(r)[room] ==
              if (if useUid then MatchesUid(room, ids) else room.id in ids) then multiset(mapdb)[room] else 0
  {
    var chosen := if useUid then (room: Room) => MatchesUid(room, ids) else (room: Room) => room.id in ids;
    FilterCount(chosen, mapdb);
    Filter(chosen, mapdb)
  }

  /** A room the exclusion field removes. A blank field removes nothing; by
      uid, a room without a uid array is never removed. */
  predicate Excluded(room: Room, exclusion: Exclusion) {
    var text := Trim(exclusion.text);
    text != "" &&
    var ids := ParseRoomRanges(text);
    if exclusion.useUid then MatchesUid(room, ids) else room.id in ids
  }

  /** The exclusion step: the selection keeps its order and loses exactly
      the excluded rooms. */
  function ApplyExclusion(rooms: seq<Room>, exclusion: Exclusion): (r: seq<Room>)
    ensures forall room :: room in r <==> room in rooms && !Excluded(room, exclusion)
    ensures IsSubsequence(r, rooms)
    ensures forall room :: multiset(r)[room] == if Excluded(room, exclusion) then 0 else multiset(rooms)[room]
  {
    var text := Trim(exclusion.text);
    if text == "" then
      SubsequenceRefl(rooms);
      rooms
    else
      var kept := (room: Room) => !Excluded(room, exclusion);
      FilterCount(kept, rooms);
      Filter(kept, rooms)
  }

  /** `getSelectedRooms`: the chosen rooms minus the excluded ones, or the
      message of the error it throws when nothing was chosen. */
  function GetSelectedRooms(mapdb: seq<Room>, selection: Selection, exclusion: Exclusion): (r: Result<seq<Room>>)
    ensures selection.ByLocations? ==> (r.Err? <==> selection.locations == [])
    ensures selection.ByRanges? ==> (r.Err? <==> Trim(selection.rangeText) == "")
    ensures r.Err? ==> r.message == if selection.ByLocations? then NoLocationMessage else NoRangesMessage
    ensures r.Ok? ==> forall room :: room in r.value ==> room in mapdb && !Excluded(room, exclusion)
  {
    match selection
    case ByLocations(locations) =>
      if locations == [] then Err(NoLocationMessage)
      else Ok(ApplyExclusion(DedupById(RoomsOfLocations(mapdb, locations)), exclusion))
    case ByRanges(rangeText, useUid) =>
      var text := Trim(rangeText);
      if text == "" then Err(NoRangesMessage)
      else Ok(ApplyExclusion(SelectByRanges(mapdb, ParseRoomRanges(text), useUid), exclusion))
  }

  /** Chosen by range: a room of the database is selected exactly when the
      range text names it (by id or by one of its uids) and the exclusion does
      not. */
  lemma SelectedByRange(mapdb: seq<Room>, rangeText: string, useUid: bool, exclusion: Exclusion, room: Room)
    requires Trim(rangeText) != ""
    ensures var r := GetSelectedRooms(mapdb, ByRanges(rangeText, useUid), exclusion);
            var ids := ParseRoomRanges(Trim(rangeText));
            r.Ok? && (room in r.value <==> room in mapdb && (if useUid then MatchesUid(room, ids) else room.id in ids)
                                           && !Excluded(room, exclusion))
  {
    var ids := ParseRoomRanges(Trim(rangeText));
    var chosen := SelectByRanges(mapdb, ids, useUid);
    assert GetSelectedRooms(mapdb, ByRanges(rangeText, useUid), exclusion) == Ok(ApplyExclusion(chosen, exclusion));
    assert room in chosen <==> room in mapdb && (if useUid then MatchesUid(room, ids) else room.id in ids);
  }

  /** Chosen by location: no id is selected twice, every selected room lies in
      a chosen location, and every room id of a chosen location is selected
      unless its first room there is excluded. */
  lemma SelectedByLocation(mapdb: seq<Room>, locations: seq<string>, exclusion: Exclusion)
    requires locations != []
    ensures var r := GetSelectedRooms(mapdb, ByLocations(locations), exclusion);
            && r.Ok?
            && NoDuplicates(Ids(r.value))
            && (forall room :: room in r.value ==> room.location.Some? && room.location.value in locations)
            && (forall room :: room in r.value ==>
                  var chosen := RoomsOfLocations(mapdb, locations);
                  room.id in Ids(chosen) && room == chosen[FirstIndex(Ids(chosen), room.id)])
            && (forall room :: room in RoomsOfLocations(mapdb, locations) ==>
                  var chosen := RoomsOfLocations(mapdb, locations);
                  var first := chosen[FirstIndex(Ids(chosen), room.id)];
                  Excluded(first, exclusion) || first in r.value)
  {
    var chosen := RoomsOfLocations(mapdb, locations);
    var r := ApplyExclusion(DedupById(chosen), exclusion);
    assert GetSelectedRooms(mapdb, ByLocations(locations), exclusion) == Ok(r);
    DedupedSelection(chosen, exclusion);
  }

  /** Deduplicating a list of rooms by id and then excluding: no id twice,
      only rooms of the list, and each id's first room unless excluded. */
  lemma DedupedSelection(rooms: seq<Room>, exclusion: Exclusion)
    ensures var r := ApplyExclusion(DedupById(rooms), exclusion);
            && NoDuplicates(Ids(r))
            && (forall room :: room in r ==> room in rooms)
            && (forall room :: room in r ==> room.id in Ids(rooms) && room == rooms[FirstIndex(Ids(rooms), room.id)])
            && (forall room :: room in rooms ==>
                  var first := rooms[FirstIndex(Ids(rooms), room.id)];
                  Excluded(first, exclusion) || first in r)
  {
    var d := DedupById(rooms);
    var r := ApplyExclusion(d, exclusion);
    SubsequenceIds(r, d);
    forall room | room in r
      ensures room in rooms && room.id in Ids(rooms) && room == rooms[FirstIndex(Ids(rooms), room.id)]
    {
      var k :| 0 <= k < |d| && d[k] == room;
      assert Ids(d)[k] == room.id;
    }
    forall room | room in rooms
      ensures var first := rooms[FirstIndex(Ids(rooms), room.id)]; Excluded(first, exclusion) || first in r
    {
      FirstRoomSelected(rooms, exclusion, room);
    }
  }

  /** The first room with a given id is selected unless it is excluded. */
  lemma FirstRoomSelected(rooms: seq<Room>, exclusion: Exclusion, room: Room)
    requires room in rooms
    ensures var first := rooms[FirstIndex(Ids(rooms), room.id)];
            Excluded(first, exclusion) || first in ApplyExclusion(DedupById(rooms), exclusion)
  {
    FirstRoomKept(rooms, room);
  }

  /** The first room with a given id survives `DedupById`. */
  lemma FirstRoomKept(rooms: seq<Room>, room: Room)
    requires room in rooms
    ensures room.id in Ids(rooms) && rooms[FirstIndex(Ids(rooms), room.id)] in DedupById(rooms)
  {
    var d := DedupById(rooms);
    var ids := Ids(rooms);
    var i :| 0 <= i < |rooms| && rooms[i] == room;
    assert ids[i] == room.id;
    assert room.id in Dedup(ids);
    var k :| 0 <= k < |d| && Ids(d)[k] == room.id;
    assert d[k].id == room.id;
    assert d[k] == rooms[FirstIndex(ids, room.id)];
    assert d[k] in d;
  }

  /** Dropping rooms never introduces a repeated id. */
  lemma {:induction false} SubsequenceIds(a: seq<Room>, b: seq<Room>)
    requires IsSubsequence(a, b) && NoDuplicates(Ids(b))
    ensures NoDuplicates(Ids(a))
    decreases |b|
  {
    if a != [] {
      if a[0] == b[0] {
        SubsequenceIds(a[1..], b[1..]);
        forall k | 0 <= k < |a[1..]| ensures a[1..][k].id != a[0].id {
          SubsequenceMember(a[1..], b[1..], k);
          var j :| 0 <= j < |b[1..]| && b[1..][j] == a[1..][k];
          assert Ids(b)[j + 1] == a[1..][k].id;
        }
        assert Ids(a) == [a[0].id] + Ids(a[1..]);
      } else {
        SubsequenceIds(a, b[1..]);
      }
    }
  }
}

=== FILE: string_order.dfy ===
/** The order `Array.prototype.sort` uses when no comparator is given:
    strings compared character by character, a proper prefix first. */
module StringOrder {
  import opened Common

  /** `a < b` in the default sort order. */
  predicate Less(a: string, b: string)
    decreases |a|
  {
    if |a| == 0 then |b| > 0
    else if |b| == 0 then false
    else if a[0] == b[0] then Less(a[1..], b[1..])
    else a[0] < b[0]
  }

  predicate LessEq(a: string, b: string) {
    a == b || Less(a, b)
  }

  lemma {:induction false} LessIrreflexive(a: string)
    ensures !Less(a, a)
    decreases |a|
  {
    if |a| > 0 {
      LessIrreflexive(a[1..]);
    }
  }

  lemma {:induction false} LessAsymmetric(a: string, b: string)
    ensures Less(a, b) ==> !Less(b, a)
    decreases |a|
  {
    if |a| > 0 && |b| > 0 && a[0] == b[0] {
      LessAsymmetric(a[1..], b[1..]);
    }
  }

  lemma {:induction false} LessTransitive(a: string, b: string, c: string)
    requires Less(a, b) && Less(b, c)
    ensures Less(a, c)
    decreases |a|
  {
    if |a| > 0 && a[0] == b[0] && b[0] == c[0] {
      LessTransitive(a[1..], b[1..], c[1..]);
    }
  }

  /** Two different strings are always ordered one way or the other. */
  lemma {:induction false} LessTotal(a: string, b: string)
    requires a != b
    ensures Less(a, b) || Less(b, a)
    decreases |a|
  {
    if |a| > 0 && |b| > 0 && a[0] == b[0] {
      assert a == [a[0]] + a[1..] && b == [b[0]] + b[1..];
      LessTotal(a[1..], b[1..]);
    }
  }

  lemma NotLessIsLessEq(a: string, b: string)
    ensures !Less(b, a) <==> LessEq(a, b)
  {
    LessIrreflexive(a);
    LessAsymmetric(a, b);
    if a != b { LessTotal(a, b); }
  }

  lemma LessEqTransitive(a: string, b: string, c: string)
    requires LessEq(a, b) && LessEq(b, c)
    ensures LessEq(a, c)
  {
    if a != b && b != c { LessTransitive(a, b, c); }
  }

  predicate Sorted(s: seq<string>) {
    forall i, j :: 0 <= i < j < |s| ==> LessEq(s[i], s[j])
  }

  predicate StrictlySorted(s: seq<string>) {
    forall i, j :: 0 <= i < j < |s| ==> Less(s[i], s[j])
  }

  /** Inserts `x` into a sorted list in front of the first element not below it. */
  function Insert(x: string, s: seq<string>): (r: seq<string>)
    requires Sorted(s)
    ensures Sorted(r)
    ensures multiset(r) == multiset(s) + multiset{x}
  {
    if s == [] then [x]
    else if !Less(s[0], x) then
      NotLessIsLessEq(x, s[0]);
      assert forall j :: 0 <= j < |s| ==> LessEq(x, s[j]) by {
        forall j | 0 <= j < |s| ensures LessEq(x, s[j]) {
          if j > 0 { LessEqTransitive(x, s[0], s[j]); }
        }
      }
      [x] + s
    else
      var rest := Insert(x, s[1..]);
      assert multiset(s) == multiset{s[0]} + multiset(s[1..]) by { HeadTail(s); }
      assert Sorted([s[0]] + rest) by {
        BoundKept(s[0], x, s[1..], rest);
        ConsSorted(s[0], rest);
      }
      [s[0]] + rest
  }

  lemma HeadTail(s: seq<string>)
    requires s != []
    ensures s == [s[0]] + s[1..]
  {
  }

  /** A lower bound of every element of `t` and of `x` bounds any rearrangement of `t` with `x` added. */
  lemma BoundKept(a: string, x: string, t: seq<string>, rest: seq<string>)
    requires multiset(rest) == multiset(t) + multiset{x}
    requires LessEq(a, x) && forall i :: 0 <= i < |t| ==> LessEq(a, t[i])
    ensures forall i :: 0 <= i < |rest| ==> LessEq(a, rest[i])
  {
    forall i | 0 <= i < |rest| ensures LessEq(a, rest[i]) {
      var y := rest[i];
      assert y in multiset(rest);
      if y != x {
        assert y in multiset(t);
        var j :| 0 <= j < |t| && t[j] == y;
      }
    }
  }

  lemma ConsSorted(a: string, rest: seq<string>)
    requires Sorted(rest) && forall i :: 0 <= i < |rest| ==> LessEq(a, rest[i])
    ensures Sorted([a] + rest)
  {
    forall i, j | 0 <= i < j < |[a] + rest| ensures LessEq(([a] + rest)[i], ([a] + rest)[j]) {
      if i == 0 { assert ([a] + rest)[j] == rest[j - 1]; }
      else { assert ([a] + rest)[i] == rest[i - 1] && ([a] + rest)[j] == rest[j - 1]; }
    }
  }

  /** `Array.prototype.sort()` with the default comparator, as insertion sort. */
  function Sort(xs: seq<string>): (r: seq<string>)
    ensures Sorted(r)
    ensures multiset(r) == multiset(xs)
  {
    if xs == [] then []
    else
      assert xs == xs[..|xs| - 1] + [xs[|xs| - 1]];
      Insert(xs[|xs| - 1], Sort(xs[..|xs| - 1]))
  }

  /** A list without repeated elements is exactly one in which every element occurs once. */
  lemma {:induction false} NoDuplicatesMultiset<T>(s: seq<T>)
    ensures NoDuplicates(s) <==> forall x | x in s :: multiset(s)[x] == 1
  {
    if s != [] {
      var t := s[1..];
      assert s == [s[0]] + t;
      assert multiset(s) == multiset{s[0]} + multiset(t);
      NoDuplicatesMultiset(t);
      if NoDuplicates(s) {
        assert s[0] !in t;
        assert NoDuplicates(t) by {
          forall i, j | 0 <= i < j < |t| ensures t[i] != t[j] {
            assert t[i] == s[i + 1] && t[j] == s[j + 1];
          }
        }
      }
      if forall x | x in s :: multiset(s)[x] == 1 {
        assert s[0] in s;
        assert multiset(s)[s[0]] == 1 + multiset(t)[s[0]];
        assert multiset(t)[s[0]] == 0;
        assert forall x | x in t :: multiset(t)[x] == 1 by {
          forall x | x in t ensures multiset(t)[x] == 1 {
            assert x in s;
          }
        }
        forall i, j | 0 <= i < j < |s| ensures s[i] != s[j] {
          if i == 0 {
            assert s[j] == t[j - 1];
          } else {
            assert s[i] == t[i - 1] && s[j] == t[j - 1];
          }
        }
      }
    }
  }

  /** Sorting a list without repeats gives a strictly ascending list of the same elements. */
  lemma SortDistinct(xs: seq<string>)
    requires NoDuplicates(xs)
    ensures StrictlySorted(Sort(xs))
    ensures forall x :: x in Sort(xs) <==> x in xs
  {
    var r := Sort(xs);
    assert forall x :: x in r <==> x in xs by {
      forall x ensures x in r <==> x in xs {
        assert x in r <==> x in multiset(r);
        assert x in xs <==> x in multiset(xs);
      }
    }
    NoDuplicatesMultiset(xs);
    NoDuplicatesMultiset(r);
    forall i, j | 0 <= i < j < |r| ensures Less(r[i], r[j]) {
      assert r[i] != r[j];
    }
  }
}

=== FILE: tag_colors.dfy ===
/** The tag-colour table of js/map-generator.js: a `Map` from a room tag to the
    colour its rooms are drawn in, edited through the tag picker and the list
    rendered below it. */
module TagColors {
  import opened Common
  import opened OrderedMaps

  type TagColorMap = OrderedMap<string, string>

  /** Colour a newly added tag starts with (red). */
  const NewTagColor: string := "#ff0000"

  const NoTagMessage: string := "Please select a tag first"
  const TagTakenMessage: string := "This tag already has a color assigned"

  /** `addTagColor`: the selected tag (the empty string when none is selected)
      is added in red unless it already has a colour; the table is otherwise
      left as it was. */
  function AddTagColor(tagColors: TagColorMap, tag: string): (r: Result<TagColorMap>)
    ensures r.Err? <==> tag == "" || Has(tagColors, tag)
    ensures r.Err? ==> r.message == (if tag == "" then NoTagMessage else TagTakenMessage)
    ensures r.Ok? ==> r.value == tagColors + [(tag, NewTagColor)]
    ensures r.Ok? && Valid(tagColors) ==> Valid(r.value)
  {
    if tag == "" then Err(NoTagMessage)
    else if Has(tagColors, tag) then Err(TagTakenMessage)
    else Ok(Set(tagColors, tag, NewTagColor))
  }

  /** The colour input of one listed tag: its colour is replaced, its place in
      the list kept. */
  function ChangeTagColor(tagColors: TagColorMap, tag: string, color: string): (r: TagColorMap)
    ensures Get(r, tag) == Some(color)
    ensures forall t :: t != tag ==> Get(r, t) == Get(tagColors, t)
    ensures Has(tagColors, tag) ==> Keys(r) == Keys(tagColors)
  {
    Set(tagColors, tag, color)
  }

  /** The Remove button of one listed tag. */
  function RemoveTagColor(tagColors: TagColorMap, tag: string): (r: TagColorMap)
    ensures !Has(r, tag)
    ensures forall t :: t != tag ==> Get(r, t) == Get(tagColors, t)
    ensures IsSubsequence(r, tagColors)
  {
    Delete(tagColors, tag)
  }

  /** A tag can be given a colour only once through the picker. */
  lemma AddTagColorTwice(tagColors: TagColorMap, tag: string)
    requires AddTagColor(tagColors, tag).Ok?
    ensures AddTagColor(AddTagColor(tagColors, tag).value, tag) == Err(TagTakenMessage)
  {
    var added := AddTagColor(tagColors, tag).value;
    assert Get(added, tag) == Some(NewTagColor);
  }

  /** Removing a tag just added restores the table exactly, order included. */
  lemma AddThenRemove(tagColors: TagColorMap, tag: string)
    requires AddTagColor(tagColors, tag).Ok?
    ensures RemoveTagColor(AddTagColor(tagColors, tag).value, tag) == tagColors
  {
    DeleteAppended(tagColors, tag, NewTagColor);
  }

  /** After a removal the picker accepts the tag again. */
  lemma RemoveThenAdd(tagColors: TagColorMap, tag: string)
    requires tag != ""
    ensures AddTagColor(RemoveTagColor(tagColors, tag), tag).Ok?
  {
  }
}
